=== FILE: README.md ===
# UGF.GameFramework.UI — a Dafny model of the UI designer and its configuration

This project models the statable logic of the UGF.GameFramework.UI Unity package in
Dafny 4.11 and proves properties of it. The package is a UI designer with three parts.

- **UIDesigner.** A component holds a form name, a namespace and a list of component
  bindings. Each binding emits a serialized field declaration and a property
  declaration into generated code.
- **UIComponentBinder.** A marker component that picks one UI component on its
  GameObject and records a path to it from the form root. An inspector and menu
  items create, remove and explain binders.
- **The UIDesigner inspector and the "设计" context menu.** They keep the binding
  list in step with the binders, invent unique variable names, run a two-step
  "generate code, then save" workflow, and restore a design from an existing
  script by searching the hierarchy under several name variants.

The runtime side has form, group and global configuration records, and a registry
that keeps forms and groups in two string-keyed maps. The editor settings asset has
defaults, a validator and an integer clamp.

Unity's object model is abstracted as follows:

- A GameObject is an immutable record holding a name, its components in order and
  its children in order.
- A component carries an identity, its type (name, namespace and base types, each
  a short name with a namespace) and the name of its owner.
- Ancestors are passed nearest-first.
- `null` becomes `None`.
- A thrown exception becomes a `Failure`.
- A mutating method becomes a function from the old state to the new one.

Modules, one per file: `Wrappers` and `Ints`, `Strings`, `Seqs`, `Scene`,
`Designer`, `Binder`, `DesignerEditor`, `ContextMenu`, `ConfigData`,
`ConfigManager`, `DesignerSettings`, `BinderEditor` and `BinderMenu`.

## Model

| member | source | states |
|---|---|---|
| Ints.Max | Runtime/Data/UIGlobalConfig.cs:74 | `Mathf.Max` on 32-bit integers: the larger of the two, never below either |
| Ints.Clamp | Editor/Tools/UIDesignerSettings.cs:211 | `Mathf.Clamp`: the result lies in [lo, hi]; it equals the value when the value is in range, otherwise the bound that was crossed |
| Strings.RemoveAll | Editor/Tools/UIDesignerContextMenu.cs:132 | `string.Replace(x, "")`: the result is never longer, and is the input itself when the pattern does not occur |
| Strings.RemoveAllKeepsOrigin | Editor/Tools/UIDesignerContextMenu.cs:132 | the pass only deletes: the result's characters, counted with their repetitions, are among the input's |
| Strings.RemoveAllIsFilter | Editor/Tools/UIDesignerContextMenu.cs:132 | deleting a one-character pattern keeps exactly the other characters, in their order and with their repetitions |
| Strings.RemoveAllFirstOccurrence | Editor/Tools/UIDesignerContextMenu.cs:132 | the pass deletes the first occurrence, keeps everything in front of it as it was, and goes on after it |
| Strings.RemoveAllDropsChar | Editor/Tools/UIDesignerContextMenu.cs:132 | removing a one-character pattern leaves no such character |
| Strings.RemoveAllAbsentChar | Editor/Tools/UIDesignerContextMenu.cs:132 | removing a character that does not occur changes nothing |
| Strings.Dec | Editor/MenuItems/UIComponentBinderMenuItems.cs:71 | the decimal text of a count is non-empty, made of digits, and one digit long exactly below ten |
| Strings.DecInjective | Editor/Inspectors/UIDesignerEditor.cs:744 | different counters print differently, so the numbered candidates are all distinct |
| Seqs.Distinct | Editor/Tools/UIDesignerContextMenu.cs:458 | `Enumerable.Distinct`: no repeats, the same elements as the input, the first element kept first |
| Seqs.DistinctKeepsFirstOccurrenceOrder | Editor/Tools/UIDesignerContextMenu.cs:458 | the distinct elements appear in the order of their first occurrence in the input |
| Seqs.DistinctOfDistinct | Editor/Inspectors/UIComponentBinderEditor.cs:239-247 | a list without repeats is left as it is |
| Seqs.Filter | Runtime/Components/UIComponentBinder.cs:135 | LINQ `Where`: never longer; every element kept passes the test and comes from the input; every element that passes is kept |
| Seqs.FilterConcat | Runtime/Components/UIComponentBinder.cs:135 | filtering a joined list filters each piece in turn, so order and repetitions are kept |
| Seqs.FilterOne | Runtime/Components/UIComponentBinder.cs:135 | a single element is kept exactly when it passes |
| Seqs.FilterTwice | Editor/Tools/UIDesignerContextMenu.cs:132 | two deletion passes in a row are one pass with both tests |
| Seqs.FilterKeepsKeysDistinct | Editor/Inspectors/UIDesignerEditor.cs:616-629 | deleting elements from a list whose elements have pairwise distinct keys keeps the keys distinct |
| Scene.GetComponent | Runtime/Components/UIComponentBinder.cs:208 | `GetComponent<T>()`: the first component of the object whose type is `T` or derives from it, with `T` named by short name and namespace, and `None` exactly when there is none |
| Designer.NewDesigner | Runtime/Core/UIDesigner.cs:15-20 | a new designer has empty name and namespace, code generation on and no bindings |
| Designer.UIFormName | Runtime/Core/UIDesigner.cs:25-29 | the stored name when non-empty, else the GameObject's name; empty only when both are |
| Designer.NamespaceName | Runtime/Core/UIDesigner.cs:34-38 | never empty: the stored namespace, or "Game.UI" |
| Designer.FormNameSetGet | Runtime/Core/UIDesigner.cs:25-29 | writing a non-empty name reads it back; writing "" reads back the GameObject's name |
| Designer.GetBindingClassName | Runtime/Core/UIDesigner.cs:93-96 | the binding class name is the logic class name followed by "Binding" |
| Designer.GetLogicClassName | Runtime/Core/UIDesigner.cs:101-104 | the logic class name is empty exactly when the stored name and the GameObject's name both are |
| Designer.ValidateSettings | Runtime/Core/UIDesigner.cs:110-125 | passes exactly when the form name is non-empty, so the namespace check can never fail |
| Designer.AddComponentBinding | Runtime/Core/UIDesigner.cs:62-68 | the list grows by at most one, only for a binding not yet in it, at the end; the old entries stay as they were; a repeat-free list stays repeat-free |
| Designer.RemoveFirstCutsFirstOccurrence | Runtime/Core/UIDesigner.cs:74-80 | `List.Remove` cuts exactly the first occurrence |
| Designer.RemoveComponentBinding | Runtime/Core/UIDesigner.cs:74-80 | a null or absent binding leaves the list alone; otherwise the first occurrence goes and the rest stay in order |
| Designer.AddThenRemove | Runtime/Core/UIDesigner.cs:62-80 | removing a binding just added restores the list |
| Designer.AddIdempotent | Runtime/Core/UIDesigner.cs:62-68 | adding the same binding twice is adding it once |
| Designer.ClearComponentBindings | Runtime/Core/UIDesigner.cs:85-88 | the list is empty and nothing else changes |
| Designer.SetComponent | Runtime/Core/UIDesigner.cs:152-163 | a non-null component sets the type name to its type's name; null keeps the type name; name and description are untouched |
| Designer.SetComponentMakesValid | Runtime/Core/UIDesigner.cs:199-205 | binding a component to a named binding makes it valid |
| Designer.SetNullInvalidates | Runtime/Core/UIDesigner.cs:199-205 | binding null never leaves a binding valid |
| Designer.GetSerializedFieldDeclaration | Runtime/Core/UIDesigner.cs:211-216 | "" exactly for an invalid binding; otherwise the declaration starts with "[SerializeField] private " and ends with ";" |
| Designer.FieldDeclarationRoundTrip | Runtime/Core/UIDesigner.cs:168-174 | reading the emitted field declaration back gives the binding's type and field name |
| Designer.PropertyName | Runtime/Core/UIDesigner.cs:226-227 | the property name is the binding name with its first character replaced by its ASCII upper-case form (`ToUpperChar`: a lower-case letter moves down by 32, anything else is kept), the rest kept |
| Strings.ToUpperChar | Runtime/Core/UIDesigner.cs:227 | `char.ToUpper` on ASCII: a lower-case letter becomes the upper-case letter 32 code points below, anything else is unchanged, and the result is never lower-case |
| Strings.ToLowerChar | Editor/Inspectors/UIDesignerEditor.cs:724 | `char.ToLower` on ASCII: an upper-case letter becomes the lower-case letter 32 code points above, anything else is unchanged, and the result is never upper-case |
| Designer.GetPropertyDeclaration | Runtime/Core/UIDesigner.cs:222-229 | "" exactly for an invalid binding; otherwise a read-only property of the binding's type forwarding to the field |
| Designer.PropertyDiffersFromField | Runtime/Core/UIDesigner.cs:226-228 | the property and the field get different names exactly when the binding name starts with a lower-case letter |
| Designer.GetBindingCode | Runtime/Core/UIDesigner.cs:235-241 | "" exactly for an invalid binding; otherwise a comment that starts with the binding name and ends with its field name and " 直接引用" |
| Binder.AvailableOf | Runtime/Components/UIComponentBinder.cs:129-145 | the object's components minus those whose exact type is UIComponentBinder: every kept one is a component of the object and no binder, and every other component is kept |
| Binder.AvailableOfConcat | Runtime/Components/UIComponentBinder.cs:133-135 | the list is built component by component: for joined pieces it is the pieces' lists in turn, and a single component is kept exactly when it is no binder, so order and repeats are kept |
| Binder.AvailableHasNoBinder | Runtime/Components/UIComponentBinder.cs:133-135 | the available list never holds a UIComponentBinder |
| Binder.GetComponentByTypeName | Runtime/Components/UIComponentBinder.cs:148-164 | fills the available list when it is null, then gives the first available component of exactly that type name, or none |
| Binder.FirstOfTypes | Runtime/Components/UIComponentBinder.cs:182-193 | the outer loop over types, the inner over components: the result has a listed type, no available component has an earlier listed type, and no component before it in the list has its type; none exactly when no component has a listed type |
| Binder.GetFirstUIComponent | Runtime/Components/UIComponentBinder.cs:170-194 | none for a null list; otherwise a component whose exact type (name and namespace) is a listed UI type such that no available component has a type earlier in the priority list, and the first component of that type in list order; none exactly when no component has a listed type |
| Binder.ForeignButtonIsNoUIType | Runtime/Components/UIComponentBinder.cs:186 | a component named Button from another namespace is no UI type: the test compares exact types, not names |
| Binder.ButtonWins | Runtime/Components/UIComponentBinder.cs:176-181 | a Button anywhere in the list is chosen, whatever stands before it |
| Binder.PathDepth | Runtime/Components/UIComponentBinder.cs:205-214 | the number of ancestors the path walk passes: all before it carry no Canvas or UIFormBase, the one at it does |
| Binder.PathWalkSpec | Runtime/Components/UIComponentBinder.cs:200-218 | the loop prepends, nearest first, the names of exactly the ancestors below the form root |
| Binder.GenerateComponentPath | Runtime/Components/UIComponentBinder.cs:200-218 | the path ends with the object's own name and is preceded by "name/" for each ancestor below the root; the object itself is never tested |
| Binder.ChooseTypeName | Runtime/Components/UIComponentBinder.cs:87-93 | a chosen type name is kept; an empty one becomes the name of the highest-priority available UI component, and stays empty exactly when no available component has a UI type |
| Binder.UpdateComponentInfo | Runtime/Components/UIComponentBinder.cs:81-101 | refreshes the available list and the path, clears the cache, keeps a chosen type name, and fills an empty one with the type name of the highest-priority available UI component; it stays empty exactly when there is none |
| Binder.GetTargetComponent | Runtime/Components/UIComponentBinder.cs:107-114 | a cached component is returned as it is; with no cache and no type name, none; with no cache and a type name, the result of `GetComponentByTypeName` (the first available component of that type name), none exactly when no available component has it; the result is cached |
| Binder.IsValid | Runtime/Components/UIComponentBinder.cs:66 | valid exactly when the type name is non-empty and a target is found |
| Binder.TargetAfterUpdate | Runtime/Components/UIComponentBinder.cs:97-114 | after an update the target is looked up afresh by the current type name |
| Binder.UpdateComponentInfoIdempotent | Runtime/Components/UIComponentBinder.cs:81-101 | updating twice is updating once |
| DesignerEditor.CleanObjectName | Editor/Inspectors/UIDesignerEditor.cs:713-716 | the cleaned name is never longer and holds only ASCII letters and digits |
| DesignerEditor.CleanCutsUI | Editor/Inspectors/UIDesignerEditor.cs:713-716 | in an alphanumeric name the first "UI" is cut out and everything else kept in order |
| DesignerEditor.CleanKeepsPlainName | Editor/Inspectors/UIDesignerEditor.cs:713-716 | a plain alphanumeric name without "UI" or "ui" passes through unchanged |
| DesignerEditor.BaseVariableName | Editor/Inspectors/UIDesignerEditor.cs:707-725 | the cleaned object name followed by the type name, with its first character lower-cased and the rest kept; with an empty cleaned name, the type name lower-first |
| DesignerEditor.CandidateInjective | Editor/Inspectors/UIDesignerEditor.cs:743-747 | different counters give different candidate names |
| DesignerEditor.UniqueCounterFrom | Editor/Inspectors/UIDesignerEditor.cs:743-747 | the probe stops at a free candidate, and every candidate before it is taken |
| DesignerEditor.UniqueVariableName | Editor/Inspectors/UIDesignerEditor.cs:736-750 | the base name when free, otherwise base + k for the least k ≥ 1 that is free; never one of the existing names |
| DesignerEditor.UniqueCounterIsFirstFree | Editor/Inspectors/UIDesignerEditor.cs:743-747 | any counter with all earlier candidates taken and itself free is the one chosen |
| DesignerEditor.UniqueCounterBound | Editor/Inspectors/UIDesignerEditor.cs:743-747 | the loop runs at most as many times as there are names, so it terminates |
| DesignerEditor.EnsureUniqueVariableName | Editor/Inspectors/UIDesignerEditor.cs:736-768 | the loop returns the name the least-free-counter rule gives |
| DesignerEditor.GenerateVariableName | Editor/Inspectors/UIDesignerEditor.cs:707-734 | the base name made unique among the binding names: no binding carries it |
| DesignerEditor.NewBinding | Editor/Inspectors/UIDesignerEditor.cs:651-660 | a new binding holds the component, its type name, a fresh name and an empty description |
| DesignerEditor.AddOne | Editor/Inspectors/UIDesignerEditor.cs:636-661 | a component already bound leaves the list alone; otherwise one new binding for it is appended |
| DesignerEditor.AddOneKeepsUniqueness | Editor/Inspectors/UIDesignerEditor.cs:651-660 | one step keeps both names and bound components free of repeats |
| DesignerEditor.AddComponents | Editor/Inspectors/UIDesignerEditor.cs:670-702 | the old bindings stay first and unchanged; afterwards every component is bound; each appended binding was made for one of them |
| DesignerEditor.AddComponentsConcat | Editor/Inspectors/UIDesignerEditor.cs:670-702 | the loop handles the components one after the other: adding two lists is adding the first, then the second |
| DesignerEditor.AddComponentsOne | Editor/Inspectors/UIDesignerEditor.cs:670-702 | one component is one step of the loop |
| DesignerEditor.AddComponentsAppendsUnbound | Editor/Inspectors/UIDesignerEditor.cs:674-686 | every appended binding holds a component the old list did not bind |
| DesignerEditor.AddComponentsAppendsInOrder | Editor/Inspectors/UIDesignerEditor.cs:670-702 | the appended bindings follow the order of the components, one per component |
| DesignerEditor.AddComponentsAppendsEveryUnbound | Editor/Inspectors/UIDesignerEditor.cs:670-702 | every component the old list did not bind is bound by an appended binding |
| DesignerEditor.AddComponentsKeepsUniqueness | Editor/Inspectors/UIDesignerEditor.cs:670-702 | adding keeps names and bound components free of repeats |
| DesignerEditor.AddAllBoundIsNoOp | Editor/Inspectors/UIDesignerEditor.cs:674-686 | with every component bound already, nothing is appended |
| DesignerEditor.IsAlreadyBound | Editor/Inspectors/UIDesignerEditor.cs:674-685 | the inner search answers whether some binding holds the component |
| DesignerEditor.AddComponentsToBindings | Editor/Inspectors/UIDesignerEditor.cs:670-705 | the loop computes what the adding rule gives |
| DesignerEditor.Targets | Editor/Inspectors/UIDesignerEditor.cs:607-616 | every binder's found target is listed, and every listed component is some binder's target |
| DesignerEditor.TargetsConcat | Editor/Inspectors/UIDesignerEditor.cs:607-616 | the targets of joined binder lists are those of each list, in turn |
| DesignerEditor.TargetsOne | Editor/Inspectors/UIDesignerEditor.cs:607-616 | a binder contributes its target when it has one, and nothing otherwise |
| DesignerEditor.Survivors | Editor/Inspectors/UIDesignerEditor.cs:618-630 | only bindings whose component is non-null and a target survive; every such binding survives; their order is kept |
| DesignerEditor.SurvivorsConcat | Editor/Inspectors/UIDesignerEditor.cs:618-630 | the survivors of joined lists are those of each list, in turn |
| DesignerEditor.SurvivorsOne | Editor/Inspectors/UIDesignerEditor.cs:618-630 | a single binding survives exactly when its component is non-null and a target |
| DesignerEditor.SurvivorsAllSurvive | Editor/Inspectors/UIDesignerEditor.cs:618-630 | a list of surviving bindings passes the deletion unchanged |
| DesignerEditor.DeleteStaleBindings | Editor/Inspectors/UIDesignerEditor.cs:618-630 | the backward deletion loop leaves exactly the survivors, in their order |
| DesignerEditor.Sync | Editor/Inspectors/UIDesignerEditor.cs:605-668 | the survivors stay first; every binding holds a target; every target is bound |
| DesignerEditor.SyncAppendsUnboundTargetsInOrder | Editor/Inspectors/UIDesignerEditor.cs:605-668 | after the survivors come only bindings for targets they did not bind, in target order, one for each such target |
| DesignerEditor.SyncBindings | Editor/Inspectors/UIDesignerEditor.cs:605-668 | the method computes the sync of the list against the binders' targets |
| DesignerEditor.SyncIdempotent | Editor/Inspectors/UIDesignerEditor.cs:605-668 | syncing a synced list changes nothing |
| DesignerEditor.SyncKeepsUniqueness | Editor/Inspectors/UIDesignerEditor.cs:605-668 | syncing never creates two bindings with one name, nor binds one component twice |
| DesignerEditor.SurvivorsKeepUniqueness | Editor/Inspectors/UIDesignerEditor.cs:618-630 | deletion keeps names and bound components free of repeats |
| DesignerEditor.SurvivorsKeepNamesUnique | Editor/Inspectors/UIDesignerEditor.cs:618-630 | deletion keeps the names free of repeats |
| DesignerEditor.SurvivorsKeepComponentsUnique | Editor/Inspectors/UIDesignerEditor.cs:618-630 | deletion keeps the bound components free of repeats |
| DesignerEditor.ValidateSettings | Editor/Inspectors/UIDesignerEditor.cs:830-851 | passes exactly when there is a designer whose form name is non-empty; a missing designer and an empty name get their own dialog messages |
| DesignerEditor.InitCodeGenerated | Editor/Inspectors/UIDesignerEditor.cs:89-122 | the flag starts set exactly when the form has a name and both generated files exist |
| DesignerEditor.GenerateCodeStep | Editor/Inspectors/UIDesignerEditor.cs:1148-1181 | the flag becomes set when settings pass and generation succeeds; otherwise it stays |
| DesignerEditor.SaveUIDesign | Editor/Inspectors/UIDesignerEditor.cs:770-827 | refused while the flag is clear; a successful save clears it |
| DesignerEditor.RegenerateCode | Editor/Inspectors/UIDesignerEditor.cs:1187-1191 | the flag ends set exactly when settings pass and generation succeeds |
| DesignerEditor.Buttons | Editor/Inspectors/UIDesignerEditor.cs:458-481 | "生成代码" is shown exactly while the flag is clear, "保存" exactly while it is set, "验证设置" always |
| DesignerEditor.FlagImpliesValidSettings | Editor/Inspectors/UIDesignerEditor.cs:89-122 | for a designer that stays as it is, after any sequence of init, generate, save, regenerate and cleanup, a set flag means the settings pass |
| DesignerEditor.SaveNeedsGeneratedCode | Editor/Inspectors/UIDesignerEditor.cs:777-802 | a successful save always ends with the flag clear; a failed one keeps the flag |
| DesignerEditor.FailedRegenerationClearsFlag | Editor/Inspectors/UIDesignerEditor.cs:1187-1191 | a failed regeneration leaves the flag clear even if it was set |
| ContextMenu.FindUIScript | Editor/Tools/UIDesignerContextMenu.cs:85-105 | the first component not skipped (Transform, RectTransform, UIDesigner, binder) whose type is a UI script, or none when there is none |
| ContextMenu.StripFormName | Editor/Tools/UIDesignerContextMenu.cs:132 | the three `Replace` calls keep exactly the characters other than spaces and parentheses, in order; the result is empty exactly when the name has nothing else |
| ContextMenu.DefaultFormName | Editor/Tools/UIDesignerContextMenu.cs:132-134 | as written, with the stripped name read back through the getter of Runtime/Core/UIDesigner.cs:27: the result ends with "UI"; it is the intended name when the stripped name is non-empty, and the GameObject's own name plus "UI" when it is empty |
| ContextMenu.IntendedDefaultFormName | Editor/Tools/UIDesignerContextMenu.cs:132-134 | the stripped name with "UI" appended unless present: ends with "UI", holds no space or parenthesis, and is "UI" for a name made only of those |
| ContextMenu.StrippedOnlyNameKeepsThem | Editor/Tools/UIDesignerContextMenu.cs:132-134 | the GameObject "()" gets the form name "()UI", and applying the rule to that gives "UI" |
| ContextMenu.IntendedDefaultFormNameIdempotent | Editor/Tools/UIDesignerContextMenu.cs:132-134 | the intended rule applied to its own result changes nothing |
| ContextMenu.DefaultFormNameIdempotent | Editor/Tools/UIDesignerContextMenu.cs:132-134 | the code's rule applied to its own result changes nothing when the name has something besides spaces and parentheses |
| ContextMenu.RestoreDesign | Editor/Tools/UIDesignerContextMenu.cs:107-137 | with a script: its name and namespace ("Game.UI" when none); without: "Game.UI", no bindings and a stored form name ending with "UI", which is the intended rule's and free of spaces and parentheses when the object's name has other characters, and the object's own name followed by "UI" when it has none |
| ContextMenu.RestoreStrippedOnlyName | Editor/Tools/UIDesignerContextMenu.cs:130-134 | restoring an object named "()" without a script stores "()UI", as the getter fallback makes the code do |
| ContextMenu.DefaultDesignIsRecognised | Editor/Tools/UIDesignerContextMenu.cs:149-170 | the logic class of a default design is recognised as a UI script the next time |
| ContextMenu.PrefixVariants | Editor/Tools/UIDesignerContextMenu.cs:418-432 | after a btn/img/txt/lbl prefix (any case, name longer than 3): the remainder and its lower-first form; otherwise nothing |
| ContextMenu.SuffixVariants | Editor/Tools/UIDesignerContextMenu.cs:435-446 | at most one variant per suffix |
| ContextMenu.SuffixVariantFromSuffix | Editor/Tools/UIDesignerContextMenu.cs:438-443 | every variant is the non-empty front part a suffix leaves when the name ends with it, ignoring case |
| ContextMenu.SuffixVariantsComplete | Editor/Tools/UIDesignerContextMenu.cs:438-443 | every suffix the name ends with, ignoring case, and that leaves something in front gives that front part |
| ContextMenu.SuffixVariantsConcat | Editor/Tools/UIDesignerContextMenu.cs:436 | the suffixes are tried in list order: the variants of joined lists are those of each list, in turn |
| ContextMenu.SuffixVariantsOne | Editor/Tools/UIDesignerContextMenu.cs:438-445 | one suffix contributes its front part exactly when it strips, and nothing otherwise |
| ContextMenu.RawVariants | Editor/Tools/UIDesignerContextMenu.cs:412-455 | the collected list starts with the field name itself and has at most 12 entries |
| ContextMenu.Assemble | Editor/Tools/UIDesignerContextMenu.cs:412-455 | the collection order: the name first, then every prefix form, every suffix form, the upper-first form of a non-empty name and the lower-case form, all present |
| ContextMenu.GenerateNameVariants | Editor/Tools/UIDesignerContextMenu.cs:410-459 | the field name first, no repeats, exactly the collected names |
| ContextMenu.VariantsInclude | Editor/Tools/UIDesignerContextMenu.cs:418-455 | the variants hold the prefix-stripped forms, every suffix-stripped form, the upper-first form and the lower-case form |
| ContextMenu.LowerCaseIncluded | Editor/Tools/UIDesignerContextMenu.cs:455 | the all-lower-case form is a variant |
| ContextMenu.UpperFirstIncluded | Editor/Tools/UIDesignerContextMenu.cs:449-452 | for a non-empty name the upper-first form is a variant |
| ContextMenu.PrefixStrippedIncluded | Editor/Tools/UIDesignerContextMenu.cs:418-432 | the prefix-stripped forms are variants |
| ContextMenu.SuffixVariantsIncluded | Editor/Tools/UIDesignerContextMenu.cs:435-446 | every suffix-stripped form is a variant |
| ContextMenu.VariantsKeepCollectionOrder | Editor/Tools/UIDesignerContextMenu.cs:458 | the variants keep the order in which they were first collected |
| ContextMenu.FirstMatching | Editor/Tools/UIDesignerContextMenu.cs:469-478 | the first listed object whose name matches a variant ignoring case, or none when none does |
| ContextMenu.FirstMatchingConcat | Editor/Tools/UIDesignerContextMenu.cs:469-478 | the first match in joined lists is the first list's match, or else the second's |
| ContextMenu.FindGameObjectRecursive | Editor/Tools/UIDesignerContextMenu.cs:464-487 | the search returns the first match in the pre-order listing of the descendants, and none exactly when no descendant matches |
| ContextMenu.FindIsPreorderFirstMatch | Editor/Tools/UIDesignerContextMenu.cs:466-484 | testing a child, then searching below it, then moving on is the first match of the pre-order listing |
| ContextMenu.NeverReturnsRoot | Editor/Tools/UIDesignerContextMenu.cs:464-487 | the search never returns the GameObject it starts from |
| ContextMenu.DirectChildMatch | Editor/Tools/UIDesignerContextMenu.cs:377-386 | for the first variant that names a direct child exactly, that variant and its first such child; none when no variant does |
| ContextMenu.FindGameObjectByFieldName | Editor/Tools/UIDesignerContextMenu.cs:368-405 | a direct child named exactly like a variant, for the first such variant in order, comes before the search; without one the answer is the depth-first search's; a found object lies below the root and matches a variant; none exactly when no descendant matches |
| ContextMenu.ExactChildNameWins | Editor/Tools/UIDesignerContextMenu.cs:377-386 | the first direct child named exactly like the field is the answer, even if the recursive search would meet another match first |
| ConfigData.NewFormConfig | Runtime/Data/UIFormConfig.cs:135-139 | name and asset path as given; every other field at its declared default |
| ConfigData.SetFormField | Runtime/Data/UIFormConfig.cs:27-88 | each setter stores its value unchecked and changes no other field |
| ConfigData.FormFieldLastWins | Runtime/Data/UIFormConfig.cs:27-88 | of two writes to one property the last wins |
| ConfigData.FormFieldsCommute | Runtime/Data/UIFormConfig.cs:27-88 | writes to different properties commute |
| ConfigData.CloneFormConfig | Runtime/Data/UIFormConfig.cs:145-161 | the clone equals the original in every modelled field |
| ConfigData.CloneIsIndistinguishable | Runtime/Data/UIFormConfig.cs:145-161 | any write to the clone reads like the same write to the original |
| ConfigData.SetMaxUIFormCount | Runtime/Data/UIGlobalConfig.cs:71-75 | stores max(1, v), never below 1, other fields unchanged |
| ConfigData.SetUIFormPoolCapacity | Runtime/Data/UIGlobalConfig.cs:107-111 | stores max(1, v), never below 1, other fields unchanged |
| ConfigData.SetDefaultUIGroupName | Runtime/Data/UIGlobalConfig.cs:62-66 | null is stored as "Default", anything else as given |
| ConfigData.GlobalSettersKeepInvariant | Runtime/Data/UIGlobalConfig.cs:17-21 | the defaults have both counts at least 1, and every setter and the clone keep that |
| ConfigData.ClampedSetterRoundTrip | Runtime/Data/UIGlobalConfig.cs:71-111 | writing back what a clamping setter stored changes nothing |
| ConfigData.CloneGlobalConfig | Runtime/Data/UIGlobalConfig.cs:124-139 | the clone equals the original in every modelled field |
| ConfigData.NewGroupConfig | Runtime/Data/UIGlobalConfig.cs:221-225 | name and depth as given; pause on, no canvas, sorting order 0, layer "Default" |
| ConfigData.SetSortingLayerName | Runtime/Data/UIGlobalConfig.cs:203-207 | null is stored as "Default", anything else as given |
| ConfigData.CloneGroupConfig | Runtime/Data/UIGlobalConfig.cs:231-242 | every field copied, the Canvas reference included |
| ConfigManager.SetGlobalConfig | Runtime/Core/UIConfigManager.cs:31-35 | null is refused with ArgumentNullException("value"); otherwise stored with both maps untouched |
| ConfigManager.AddUIFormConfig | Runtime/Core/UIConfigManager.cs:51-64 | null and a nameless config are refused with their own exceptions; otherwise the form is stored under its name, overwriting, and nothing else changes |
| ConfigManager.RemoveUIFormConfig | Runtime/Core/UIConfigManager.cs:71-79 | false and no change for an empty name; otherwise whether the name was present, and it is absent afterwards |
| ConfigManager.GetUIFormConfig | Runtime/Core/UIConfigManager.cs:86-95 | the stored form for a present non-empty name, null otherwise |
| ConfigManager.HasUIFormConfig | Runtime/Core/UIConfigManager.cs:117-125 | true exactly for a present non-empty name |
| ConfigManager.AddUIGroupConfig | Runtime/Core/UIConfigManager.cs:131-143 | as for forms, on the group map, with the group message |
| ConfigManager.RemoveUIGroupConfig | Runtime/Core/UIConfigManager.cs:152-160 | as for forms, on the group map |
| ConfigManager.GetUIGroupConfig | Runtime/Core/UIConfigManager.cs:167-176 | as for forms, on the group map |
| ConfigManager.HasUIGroupConfig | Runtime/Core/UIConfigManager.cs:198-206 | as for forms, on the group map |
| ConfigManager.ClearAllConfigs | Runtime/Core/UIConfigManager.cs:211-215 | both maps empty, the global config kept |
| ConfigManager.CheckConfigAssetPath | Runtime/Core/UIConfigManager.cs:236-245 | `SaveConfigToAsset`, whose whole effect is its guard: a null or empty path is refused with ArgumentException on "configAssetPath", and any other path passes |
| ConfigManager.LoadConfigFromAsset | Runtime/Core/UIConfigManager.cs:221-230 | refuses exactly a null or empty path, and on success leaves the registry unchanged |
| ConfigManager.AllValues | Runtime/Core/UIConfigManager.cs:103-109 | one entry per key, each the value stored under a different key |
| ConfigManager.GetAllUIFormConfigs | Runtime/Core/UIConfigManager.cs:101-110 | as many configs as forms; every returned config is stored, and every stored config is returned |
| ConfigManager.GetAllUIGroupConfigs | Runtime/Core/UIConfigManager.cs:182-191 | as many configs as groups; every returned config is stored, and every stored config is returned |
| ConfigManager.AddThenFindForm | Runtime/Core/IUIConfigManager.cs:14-44 | after adding a named form, Get returns it and Has is true |
| ConfigManager.AddThenFindGroup | Runtime/Core/IUIConfigManager.cs:47-77 | after adding a named group, Get returns it and Has is true |
| ConfigManager.AddThenRemoveForm | Runtime/Core/IUIConfigManager.cs:14-24 | removing a form just added under a new name restores the registry |
| ConfigManager.AddThenRemoveGroup | Runtime/Core/IUIConfigManager.cs:47-57 | removing a group just added under a new name restores the registry |
| ConfigManager.HasAgreesWithGet | Runtime/Core/IUIConfigManager.cs:26-44 | Has is true exactly when Get finds something |
| ConfigManager.FormsAndGroupsIndependent | Runtime/Core/UIConfigManager.cs:51-206 | form operations never change what group lookups see, and the reverse |
| ConfigManager.ClearedRegistryIsEmpty | Runtime/Core/IUIConfigManager.cs:79-82 | after clearing, no name is found in either map |
| DesignerSettings.ResetToDefaults | Editor/Tools/UIDesignerSettings.cs:144-169 | every field gets back the value its declaration gives it |
| DesignerSettings.Failures | Editor/Tools/UIDesignerSettings.cs:176-196 | at most the three checks fail |
| DesignerSettings.ValidateSettings | Editor/Tools/UIDesignerSettings.cs:174-201 | passes exactly when the three strings are not null or blank; the message is empty exactly on success and otherwise names the first failing check |
| DesignerSettings.ResetSettingsAreValid | Editor/Tools/UIDesignerSettings.cs:144-201 | settings just reset pass validation |
| DesignerSettings.OnValidate | Editor/Tools/UIDesignerSettings.cs:207-213 | the retention period ends in [1, 30]; an in-range value and every other field are kept |
| DesignerSettings.OnValidateIdempotent | Editor/Tools/UIDesignerSettings.cs:207-213 | validating twice is validating once |
| DesignerSettings.DefaultsSurviveOnValidate | Editor/Tools/UIDesignerSettings.cs:207-213 | the declared defaults are already in range |
| BinderEditor.UpdateComponentTypeNames | Editor/Inspectors/UIComponentBinderEditor.cs:232-254 | fills the available list when null; the popup list holds each available type name once, first occurrence first, and is empty for no components |
| BinderEditor.CollectDistinct | Editor/Inspectors/UIComponentBinderEditor.cs:239-247 | the `Contains`/`Add` loop computes the distinct names in order |
| BinderEditor.SelectPopupIndex | Editor/Inspectors/UIComponentBinderEditor.cs:91-99 | the index of the first entry equal to the type name, or the previous index when none is |
| BinderEditor.ApplyPopupChoice | Editor/Inspectors/UIComponentBinderEditor.cs:103-108 | the type name changes only on a reported change with an index in range, and then to that entry |
| BinderEditor.ChoiceIsShownAgain | Editor/Inspectors/UIComponentBinderEditor.cs:91-108 | a chosen entry is found again at the same index the next time |
| BinderEditor.GetValidationMessage | Editor/Inspectors/UIComponentBinderEditor.cs:260-269 | with no target: "choose a type" for an empty type name, "cannot find {type}" otherwise; with a target, the generic message |
| BinderEditor.InvalidBinderMessage | Editor/Inspectors/UIComponentBinderEditor.cs:260-269 | for an invalid binder the generic message means a cached component and no type name, and a named type always gets the "cannot find" message |
| BinderEditor.FindFormRoot | Editor/Inspectors/UIComponentBinderEditor.cs:292-303 | the nearest of the object and its ancestors that carries UIFormBase or Canvas, or none when none does |
| BinderEditor.FormRootEndsPath | Editor/MenuItems/UIComponentBinderMenuItems.cs:172-183 | above a non-root object, the form root found is exactly where the binder's path stops |
| BinderMenu.NewBinderComponent | Editor/MenuItems/UIComponentBinderMenuItems.cs:36 | the component `AddComponent` creates is a UIComponentBinder |
| BinderMenu.AnyOf | Editor/MenuItems/UIComponentBinderMenuItems.cs:154-164 | the `||` chain holds exactly when the object carries one of the types |
| BinderMenu.ForeignButtonDoesNotQualify | Editor/MenuItems/UIComponentBinderMenuItems.cs:151-165 | an object whose only component is a user type `Game.Button` does not qualify: `GetComponent<UnityEngine.UI.Button>()` does not see it |
| BinderMenu.ShouldAddBinderMeans | Editor/MenuItems/UIComponentBinderMenuItems.cs:151-165 | an object qualifies exactly when it carries one of the eleven UI types |
| BinderMenu.HasBinderIffCount | Editor/MenuItems/UIComponentBinderMenuItems.cs:29 | `GetComponent<UIComponentBinder>() != null` exactly when the object holds a binder |
| BinderMenu.BinderCountAppend | Editor/MenuItems/UIComponentBinderMenuItems.cs:36 | appending a component adds one to the binder count exactly when it is a binder |
| BinderMenu.AddBinder | Editor/MenuItems/UIComponentBinderMenuItems.cs:36-39 | the object gains one binder and nothing else about it changes |
| BinderMenu.AddToEach | Editor/MenuItems/UIComponentBinderMenuItems.cs:26-45 | objects with a binder are skipped unchanged; each other one gains one binder |
| BinderMenu.AddComponentBinder | Editor/MenuItems/UIComponentBinderMenuItems.cs:16-46 | an empty selection is refused; afterwards each selected object has a binder, exactly one if it had at most one |
| BinderMenu.RemoveFirstBinder | Editor/MenuItems/UIComponentBinderMenuItems.cs:93-96 | destroying the found binder cuts out exactly the first binder in component order and keeps every other component in order; nothing changes when there is no binder |
| BinderMenu.RemoveFromEach | Editor/MenuItems/UIComponentBinderMenuItems.cs:91-101 | each object loses its first binder, the other components kept in order, and keeps its name and children |
| BinderMenu.RemoveComponentBinder | Editor/MenuItems/UIComponentBinderMenuItems.cs:79-111 | an empty selection is refused; the count is the number of selected objects with a binder; each object's components are its old ones with the first binder cut out, so an object that had one binder has none left; "nothing found" is shown exactly for a zero count |
| BinderMenu.QualifyingSplits | Editor/MenuItems/UIComponentBinderMenuItems.cs:124-137 | every qualifying node is either one that gets a binder or one that is skipped |
| BinderMenu.ProcessAll | Editor/MenuItems/UIComponentBinderMenuItems.cs:140-143 | one processed tree per input tree, and one fresh component id per binder added |
| BinderMenu.ProcessAllNodes | Editor/MenuItems/UIComponentBinderMenuItems.cs:121-144 | read in pre-order, each node after the walk is the node before it, with a binder added exactly when it qualified and had none |
| BinderMenu.VisitRoot | Editor/MenuItems/UIComponentBinderMenuItems.cs:124-137 | the walk's step on a node is a visit of that node |
| BinderMenu.ProcessAllCounts | Editor/MenuItems/UIComponentBinderMenuItems.cs:121-144 | the added counter counts the qualifying nodes without a binder, the skipped counter those with one |
| BinderMenu.ProcessGameObjectRecursively | Editor/MenuItems/UIComponentBinderMenuItems.cs:121-144 | added counts the qualifying nodes of the subtree without a binder, skipped those with one, and their sum is all qualifying nodes; the returned tree is the walk's, so every qualifying node in it carries a binder and every other node keeps its components |
| BinderMenu.WalkBindsEveryQualifyingNode | Editor/MenuItems/UIComponentBinderMenuItems.cs:124-137 | after the walk every qualifying node has a binder, and every other node is unchanged |
| BinderMenu.BatchAddComponentBinders | Editor/MenuItems/UIComponentBinderMenuItems.cs:52-73 | an empty selection is refused; otherwise the added counter counts the qualifying nodes without a binder and the skipped counter those with one, over all selected trees; the trees are the walk's, so every qualifying node then carries a binder and every other node keeps its components; the message reports both counts |
| BinderMenu.ValidateMenuItems | Editor/MenuItems/UIComponentBinderMenuItems.cs:193-196 | enabled exactly for a non-null, non-empty selection |
| BinderMenu.EnabledItemsDoNotRefuse | Editor/MenuItems/UIComponentBinderMenuItems.cs:16-196 | an item is enabled exactly when its command does not refuse the selection |

## Left out

- GUI drawing is not modelled: inspectors, `Draw*` methods, list callbacks, `UIDesignerWindow` and dialogs. The model keeps only the texts the dialogs show, as function results.
- Layout height arithmetic (`GetComponentBindingItemHeight`) is not modelled. It is floating-point layout.
- File-system and asset-database calls are not modelled. `File.Exists` results and the outcome of code generation and prefab saving are boolean inputs.
- The code generator and the save workflow are not part of this model. Each is one success-or-failure input.
- Reflection is left out:
  - `ExtractComponentBindingsFromScript`, `ParseScriptFields`, `IsUIComponentType`, `FindScriptType` and `BindComponentVariablesToGameObject`
  - the bindings a restored design reads from its script. `ContextMenu.RestoreDesign` keeps the designer's list there.
- `AddComponentBindersToGameObjects`, the `AddUIDesigner` menu command and its validator are left out. They rely on reflection or on the selection.
- The namespace check of `IsUIScript` models `?.Contains` on null as false. The full-name base test is covered by the short-name test.
- Floats and curves are left out: fade durations, `AnimationCurve` cloning, `DefaultFadeDuration`, `UIFormReleaseDelay` and `errorDialogTimeout` with its clamp.
- `GameEntry` and the `AddUIGroup` call in `AddUIGroupConfig` are foreign calls, not modelled.
- `OnDestroy` of the config manager is not modelled. It is Unity life-cycle teardown.
- Dictionary enumeration order is not modelled. `GetAllUIFormConfigs` and `GetAllUIGroupConfigs` return the values in an unspecified order, as .NET does.
- Logging (`Debug.Log*`) is not modelled.
- The editors' null checks of their target, and the try/catch blocks around the workflow, are left out. The model assumes the target exists and no exception is thrown.
- A new `SerializedProperty` array slot is modelled as fresh. Unity copies the previous last element, but that does not change which names count as taken.
- `char.ToLower`, `char.ToUpper` and `string.ToLower` are ASCII-only here. The culture-sensitive mapping of other letters is not modelled.
- `Transform.Find` is modelled as an exact match on a direct child's name. Its path syntax is not modelled.
- The binder's internal state (`UpdateComponentInfo` after `AddComponent`) is not carried in the menu commands' trees. The binder component is modelled by its type alone.
- A batch selection that holds both an object and one of its descendants is processed as independent trees. The original would visit the shared nodes twice.
- DesignerEditor.Targets: the cache that `GetTargetComponent` fills in each binder is dropped, so the binders' states are not updated by the sync. Only the targets are read.
- Type tests (`GetType() == typeof(T)`, `is T` and `GetComponent<T>()`) compare a type's short name and namespace. Assemblies are not modelled, so two types alike in both are one type here.
- The base-type test of `IsUIScript` compares names only, as the code does, so a base type named UIFormBase in any namespace counts.
- Configs are modelled as values, while `UIConfigManager` stores references (Runtime/Core/UIConfigManager.cs:63 and :143). Aliasing through a caller's reference is not modelled: a caller who changes a config's `FormName` after adding it changes what the registry returns, and the entry stays under the old key. The model cannot express either effect.
- Strings.RemoveAll: the function's own contract states only the length and the no-occurrence case; what it keeps, and in which order, is stated by `Strings.RemoveAllKeepsOrigin`, `Strings.RemoveAllIsFilter` and `Strings.RemoveAllFirstOccurrence`.
- ContextMenu.SuffixVariants: the function's own contract states only the bound; its content and order are stated by `ContextMenu.SuffixVariantFromSuffix`, `ContextMenu.SuffixVariantsComplete`, `ContextMenu.SuffixVariantsConcat` and `ContextMenu.SuffixVariantsOne`.
- DesignerEditor.CleanObjectName: the function's own contract states only the length and the character class; its content is stated by `DesignerEditor.CleanCutsUI` and `DesignerEditor.CleanKeepsPlainName`.
- `BinderEditor.UpdateComponentTypeNames` states the popup list as `Distinct` of the type names. "No repeats" follows from `Seqs.Distinct`'s own contract and is not repeated.
- `ConfigManager.GetAllUIFormConfigs` and `ConfigManager.GetAllUIGroupConfigs` state "each stored entry exactly once" through a ghost list of keys, because two names may hold equal configs.

## Findings

| source | as written | input that shows it | evidently intended | confidence | as-written member | corrected member |
|---|---|---|---|---|---|---|
| Editor/Tools/UIDesignerContextMenu.cs:132-134 | the stripped name is stored, then read back through the `UIFormName` getter (Runtime/Core/UIDesigner.cs:27), which gives the GameObject's own name when the stored one is empty; "UI" is appended to that | a GameObject named "()" gets the form name "()UI", which is not a valid class name; applying the rule again gives "UI" | the stripped name with "UI" appended: "UI" for a name made only of spaces and parentheses | medium, not executed | ContextMenu.StrippedOnlyNameKeepsThem | ContextMenu.IntendedDefaultFormName |

=== FILE: binder.dfy ===
/** The UIComponentBinder runtime component: it marks a GameObject and caches
    one of that GameObject's components, chosen by type name
    (Runtime/Components/UIComponentBinder.cs). */
module Binder {
  import opened Wrappers
  import opened Strings
  import opened Seqs
  import opened Scene

  /** The binder's fields: the serialized type name, event flag and path, and
      the two caches (`None` = the C# field still holds null). */
  datatype BinderState = BinderState(
    typeName: string,
    bindEvents: bool,
    path: Option<string>,
    cached: Option<Component>,
    available: Option<seq<Component>>)

  /** A binder as its field initialisers leave it. */
  const NewBinder: BinderState := BinderState("", true, None, None, None)


  /** The UI component types `GetFirstUIComponent` tries, highest priority
      first: the `UnityEngine.UI` controls, then `UnityEngine.CanvasGroup`. */
  const UITypes: seq<TypeKey> := [TypeKey("Button", UnityUI), TypeKey("Toggle", UnityUI),
    TypeKey("Slider", UnityUI), TypeKey("Scrollbar", UnityUI), TypeKey("Dropdown", UnityUI),
    TypeKey("InputField", UnityUI), TypeKey("ScrollRect", UnityUI), TypeKey("Text", UnityUI),
    TypeKey("Image", UnityUI), TypeKey("RawImage", UnityUI), TypeKey("CanvasGroup", UnityEngine)]

  /** The test `GetType() != typeof(UIComponentBinder)`, as a function value. */
  function NotBinder(c: Component): bool {
    c.Key() != BinderKey
  }

  /** `UpdateAvailableComponents`: the host's components except the binder
      itself (an exact type test), in the host's order. */
  function AvailableOf(host: GameObject): (r: seq<Component>)
    ensures forall c :: c in r ==> c.Key() != BinderKey && c in host.components
    ensures forall c :: c in host.components && c.Key() != BinderKey ==> c in r
  {
    Filter(host.components, NotBinder)
  }

  /** The list is built component by component: the available components of
      two pieces of the host's list are those of each piece, in turn, and a
      single component is kept exactly when it is not a binder. */
  lemma AvailableOfConcat(host: GameObject, a: seq<Component>, b: seq<Component>, c: Component)
    ensures AvailableOf(host.(components := a + b)) == AvailableOf(host.(components := a)) + AvailableOf(host.(components := b))
    ensures AvailableOf(host.(components := [c])) == if c.Key() != BinderKey then [c] else []
  {
    FilterConcat(a, b, NotBinder);
    FilterOne(c, NotBinder);
  }

  function Available(s: BinderState, host: GameObject): seq<Component> {
    if s.available.Some? then s.available.value else AvailableOf(host)
  }

  /** `GetComponentByTypeName`: fills the available list when it is still null,
      then returns its first component whose type name is `name`. */
  function GetComponentByTypeName(s: BinderState, host: GameObject, name: string): (res: (Option<Component>, BinderState))
    ensures res.1 == s.(available := Some(Available(s, host)))
    ensures var avail := Available(s, host);
      res.0.Some? ==> exists i :: (0 <= i < |avail| && avail[i] == res.0.value && avail[i].TypeName() == name
        && forall k :: 0 <= k < i ==> avail[k].TypeName() != name)
    ensures var avail := Available(s, host);
      res.0.None? <==> forall j :: 0 <= j < |avail| ==> avail[j].TypeName() != name
  {
    var avail := Available(s, host);
    var s' := s.(available := Some(avail));
    match FirstWhere(avail, (c: Component) => c.TypeName() == name)
    case None => (None, s')
    case Some(i) => (Some(avail[i]), s')
  }

  /** The first component, in list order, whose exact type is `types[0]`; if
      there is none, the same for `types[1]`, and so on. */
  function FirstOfTypes(types: seq<TypeKey>, avail: seq<Component>): (r: Option<Component>)
    ensures r.Some? ==> r.value in avail && r.value.Key() in types
    ensures r.Some? ==> forall j :: 0 <= j < |avail| && avail[j].Key() in types ==>
      FirstIndex(types, r.value.Key()) <= FirstIndex(types, avail[j].Key())
    ensures r.Some? ==> IsFirstOfItsType(r.value, avail)
    ensures r.None? <==> forall j :: 0 <= j < |avail| ==> avail[j].Key() !in types
  {
    if types == [] then None
    else match FirstWhere(avail, (c: Component) => c.Key() == types[0])
      case Some(i) => Some(avail[i])
      case None =>
        var r := FirstOfTypes(types[1..], avail);
        assert forall n :: n in types && n != types[0] ==> FirstIndex(types, n) == 1 + FirstIndex(types[1..], n);
        r
  }

  /** `c` sits in `avail`, and no component before it has its exact type. */
  predicate IsFirstOfItsType(c: Component, avail: seq<Component>) {
    exists i :: 0 <= i < |avail| && avail[i] == c && forall k :: 0 <= k < i ==> avail[k].Key() != c.Key()
  }

  /** `c` is an available component of a listed UI type, and no available
      component has a type earlier in the priority list. */
  predicate HighestPriority(c: Component, avail: seq<Component>) {
    c in avail && c.Key() in UITypes
    && forall j :: 0 <= j < |avail| && avail[j].Key() in UITypes ==>
      FirstIndex(UITypes, c.Key()) <= FirstIndex(UITypes, avail[j].Key())
  }

  /** `GetFirstUIComponent`: by the fixed priority of `UITypes`, not by the
      components' order; null while the available list is null. */
  function GetFirstUIComponent(available: Option<seq<Component>>): (r: Option<Component>)
    ensures available.None? ==> r.None?
    ensures r.Some? ==> available.Some? && HighestPriority(r.value, available.value)
    ensures r.Some? ==> IsFirstOfItsType(r.value, available.value)
    ensures available.Some? ==> (r.None? <==> forall j :: 0 <= j < |available.value| ==> available.value[j].Key() !in UITypes)
  {
    if available.None? then None else FirstOfTypes(UITypes, available.value)
  }

  /** A `UnityEngine.UI.Button`, wherever it sits in the list, wins over every
      other UI type. */
  lemma ButtonWins(avail: seq<Component>, j: nat)
    requires j < |avail| && avail[j].Key() == UITypes[0]
    ensures GetFirstUIComponent(Some(avail)).Some?
    ensures GetFirstUIComponent(Some(avail)).value.Key() == UITypes[0]
  {
    var r := GetFirstUIComponent(Some(avail));
    assert FirstIndex(UITypes, UITypes[0]) == 0;
    var n := r.value.Key();
    assert FirstIndex(UITypes, n) <= 0;
    assert UITypes[FirstIndex(UITypes, n)] == n;
  }

  /** The test is on the exact type: a component named "Button" from another
      namespace is no UI component, and neither is a type deriving from one. */
  lemma ForeignButtonIsNoUIType(c: Component)
    requires c.TypeName() == "Button" && c.ctype.ns != UnityUI
    ensures GetFirstUIComponent(Some([c])).None?
  {
    assert c.Key() !in UITypes;
  }

  /** The prefix the ancestors in `ancestors` (nearest first) contribute to a
      path: their names from the farthest to the nearest, each followed by '/'. */
  function PathPrefix(ancestors: seq<GameObject>): string {
    if ancestors == [] then "" else PathPrefix(ancestors[1..]) + ancestors[0].name + "/"
  }

  /** How many ancestors the path walks through: up to, not including, the
      first one that is a form root. */
  function PathDepth(ancestors: seq<GameObject>): (k: nat)
    ensures k <= |ancestors|
    ensures forall j :: 0 <= j < k ==> !IsFormRoot(ancestors[j])
    ensures k < |ancestors| ==> IsFormRoot(ancestors[k])
  {
    if ancestors == [] || IsFormRoot(ancestors[0]) then 0
    else
      var k := 1 + PathDepth(ancestors[1..]);
      assert forall j :: 1 <= j < k ==> ancestors[j] == ancestors[1..][j - 1];
      k
  }

  /** The walk of `GenerateComponentPath` from `acc` upwards through `ancestors`
      (nearest first). */
  function PathWalk(acc: string, ancestors: seq<GameObject>): string
    decreases |ancestors|
  {
    if ancestors == [] || IsFormRoot(ancestors[0]) then acc
    else PathWalk(ancestors[0].name + "/" + acc, ancestors[1..])
  }

  /** `GenerateComponentPath` for a GameObject whose ancestors, nearest first,
      are `ancestors`: their names, farthest first, each followed by '/', then
      the object's own name; the walk stops before the first ancestor carrying a
      Canvas or a UIFormBase. The object itself is never tested. */
  function GenerateComponentPath(obj: GameObject, ancestors: seq<GameObject>): (r: string)
    ensures EndsWith(r, obj.name)
    ensures r == PathPrefix(ancestors[..PathDepth(ancestors)]) + obj.name
  {
    PathWalkSpec(obj.name, ancestors);
    PathWalk(obj.name, ancestors)
  }

  /** The accumulating walk builds the same string as the prefix of the walked
      ancestors followed by what it started from. */
  lemma {:induction false} PathWalkSpec(acc: string, ancestors: seq<GameObject>)
    ensures PathWalk(acc, ancestors) == PathPrefix(ancestors[..PathDepth(ancestors)]) + acc
    decreases |ancestors|
  {
    var k := PathDepth(ancestors);
    if ancestors == [] || IsFormRoot(ancestors[0]) {
      assert ancestors[..k] == [];
    } else {
      var a := ancestors[0];
      var rest := ancestors[1..];
      PathWalkSpec(a.name + "/" + acc, rest);
      assert ancestors[..k][1..] == rest[..k - 1];
      assert PathPrefix(ancestors[..k]) == PathPrefix(rest[..k - 1]) + a.name + "/";
    }
  }

  /** The type names `UpdateComponentInfo` can choose on its own. */
  predicate IsUITypeName(n: string) {
    exists k :: 0 <= k < |UITypes| && UITypes[k].name == n
  }

  /** No listed UI type has an empty name. */
  lemma UITypeNamesNonEmpty(k: nat)
    requires k < |UITypes|
    ensures UITypes[k].name != ""
  {
  }

  /** The type name after the refresh: kept when one is chosen; otherwise the
      type of the highest priority UI component, when the list is non-empty
      and holds one. */
  function ChooseTypeName(typeName: string, avail: seq<Component>): (r: string)
    ensures typeName != "" ==> r == typeName
    ensures typeName == "" ==> (r != "" <==> exists j :: 0 <= j < |avail| && avail[j].Key() in UITypes)
    ensures typeName == "" && r != "" ==>
      IsUITypeName(r) && exists c :: HighestPriority(c, avail) && c.TypeName() == r
  {
    if typeName == "" && |avail| > 0 then
      match GetFirstUIComponent(Some(avail))
      case Some(c) =>
        var k := FirstIndex(UITypes, c.Key());
        UITypeNamesNonEmpty(k);
        assert UITypes[k].name == c.TypeName();
        c.TypeName()
      case None => typeName
    else typeName
  }

  /** `UpdateComponentInfo`: refresh the available list, pick the type of the
      highest priority UI component only when no type name is chosen yet,
      regenerate the path and drop the cached component. */
  function UpdateComponentInfo(s: BinderState, host: GameObject, ancestors: seq<GameObject>): (r: BinderState)
    ensures r.available == Some(AvailableOf(host))
    ensures r.cached.None?
    ensures r.path == Some(GenerateComponentPath(host, ancestors))
    ensures r.bindEvents == s.bindEvents
    ensures s.typeName != "" ==> r.typeName == s.typeName
    ensures s.typeName == "" ==> (r.typeName != "" <==>
      exists j :: 0 <= j < |AvailableOf(host)| && AvailableOf(host)[j].Key() in UITypes)
    ensures s.typeName == "" && r.typeName != "" ==>
      IsUITypeName(r.typeName) && exists c :: HighestPriority(c, AvailableOf(host)) && c.TypeName() == r.typeName
  {
    var avail := AvailableOf(host);
    BinderState(ChooseTypeName(s.typeName, avail), s.bindEvents, Some(GenerateComponentPath(host, ancestors)), None, Some(avail))
  }

  /** `GetTargetComponent`: the cached component, looked up by the current type
      name (and cached) when the cache is empty and a type name is chosen. */
  function GetTargetComponent(s: BinderState, host: GameObject): (res: (Option<Component>, BinderState))
    ensures s.cached.Some? ==> res == (s.cached, s)
    ensures s.cached.None? && s.typeName == "" ==> res == (None, s)
    ensures res.1.cached == res.0
    ensures res.0.Some? ==> res.0 == s.cached || (res.0.value in Available(s, host) && res.0.value.TypeName() == s.typeName)
    ensures s.cached.None? && s.typeName != "" ==> res.0 == GetComponentByTypeName(s, host, s.typeName).0
    ensures s.cached.None? && s.typeName != "" ==> (res.0.None? <==>
      forall j :: 0 <= j < |Available(s, host)| ==> Available(s, host)[j].TypeName() != s.typeName)
  {
    if s.cached.None? && s.typeName != "" then
      var (c, s') := GetComponentByTypeName(s, host, s.typeName);
      (c, s'.(cached := c))
    else (s.cached, s)
  }

  /** `IsValid`: a chosen type name and a target component of that type. */
  function IsValid(s: BinderState, host: GameObject): (res: (bool, BinderState))
    ensures res.0 <==> s.typeName != "" && GetTargetComponent(s, host).0.Some?
  {
    if s.typeName == "" then (false, s)
    else
      var (c, s') := GetTargetComponent(s, host);
      (c.Some?, s')
  }

  /** After `UpdateComponentInfo` the next `GetTargetComponent` reflects the
      current type name: it is the first available component with that name. */
  lemma TargetAfterUpdate(s: BinderState, host: GameObject, ancestors: seq<GameObject>)
    ensures var u := UpdateComponentInfo(s, host, ancestors);
      var t := GetTargetComponent(u, host).0;
      (u.typeName == "" ==> t.None?)
      && (u.typeName != "" ==> t == GetComponentByTypeName(u, host, u.typeName).0)
      && (t.Some? ==> t.value in AvailableOf(host) && t.value.TypeName() == u.typeName)
  {
  }

  /** Refreshing twice in a row changes nothing the first refresh did not. */
  lemma UpdateComponentInfoIdempotent(s: BinderState, host: GameObject, ancestors: seq<GameObject>)
    ensures UpdateComponentInfo(UpdateComponentInfo(s, host, ancestors), host, ancestors)
         == UpdateComponentInfo(s, host, ancestors)
  {
    var u := UpdateComponentInfo(s, host, ancestors);
    var avail := AvailableOf(host);
    if s.typeName == "" && |avail| > 0 {
      var f := GetFirstUIComponent(Some(avail));
      assert f.Some? ==> u.typeName == f.value.TypeName() != "";
      assert f.None? ==> u.typeName == "";
    }
  }

  /** The available list never holds a binder. */
  lemma AvailableHasNoBinder(host: GameObject)
    ensures forall c :: c in AvailableOf(host) ==> c.Key() != BinderKey
  {
  }
}

=== FILE: binder_editor.dfy ===
/** The non-drawing logic of the binder's inspector
    (Editor/Inspectors/UIComponentBinderEditor.cs): the popup's list of type
    names, which entry the popup shows, what a choice writes back, the help
    message for an invalid binder, and the walk up to the form root. */
module BinderEditor {
  import opened Wrappers
  import opened Strings
  import opened Seqs
  import opened Scene
  import opened Binder

  /** `component.GetType().Name` of each component, in order. */
  function TypeNames(cs: seq<Component>): (r: seq<string>)
    ensures |r| == |cs|
    ensures forall i :: 0 <= i < |cs| ==> r[i] == cs[i].TypeName()
  {
    seq(|cs|, i requires 0 <= i < |cs| => cs[i].TypeName())
  }

  /** `UpdateComponentTypeNames`: reads `AvailableComponents` (which fills the
      binder's list when it is still null) and keeps each type name once, in
      the order it first occurs; an empty list gives an empty array. */
  method UpdateComponentTypeNames(s: BinderState, host: GameObject) returns (names: seq<string>, s': BinderState)
    ensures s' == s.(available := Some(Available(s, host)))
    ensures names == Distinct(TypeNames(Available(s, host)))
    ensures Available(s, host) == [] ==> names == []
    ensures forall i :: 0 <= i < |Available(s, host)| ==> Available(s, host)[i].TypeName() in names
    ensures forall i :: 0 <= i < |names| ==> names[i] in TypeNames(Available(s, host))
  {
    var avail := Available(s, host);
    s' := s.(available := Some(avail));
    names := CollectDistinct(TypeNames(avail));
  }

  /** The `if (!typeNames.Contains(typeName)) typeNames.Add(typeName)` loop. */
  method CollectDistinct(types: seq<string>) returns (names: seq<string>)
    ensures names == Distinct(types)
  {
    names := [];
    for i := 0 to |types|
      invariant names == Distinct(types[..i])
    {
      assert types[..i + 1] == types[..i] + [types[i]];
      assert types[..i + 1][..i] == types[..i];
      if types[i] !in names {
        names := names + [types[i]];
      }
    }
    assert types[..|types|] == types;
  }

  /** The loop before the popup: the index of the first entry equal to the
      binder's type name, or the previous index when no entry is. */
  method SelectPopupIndex(names: seq<string>, current: string, previous: int) returns (index: int)
    ensures current in names ==> 0 <= index < |names| && index == FirstIndex(names, current)
    ensures current !in names ==> index == previous
  {
    index := previous;
    var i := 0;
    while i < |names|
      invariant 0 <= i <= |names|
      invariant forall j :: 0 <= j < i ==> names[j] != current
      invariant index == previous
    {
      if names[i] == current {
        index := i;
        return;
      }
      i := i + 1;
    }
  }

  /** The type name after the popup returns `chosen`: written back only when the
      popup reported a change and the index lies inside the list. */
  function ApplyPopupChoice(names: seq<string>, typeName: string, chosen: int, changed: bool): (r: string)
    ensures r == typeName || r in names
    ensures !changed ==> r == typeName
    ensures changed && 0 <= chosen < |names| ==> r == names[chosen]
    ensures chosen < 0 || chosen >= |names| ==> r == typeName
  {
    if changed && 0 <= chosen < |names| then names[chosen] else typeName
  }

  /** Choosing an entry and reopening the inspector shows the same entry again,
      because the names were made distinct. */
  lemma {:induction false} ChoiceIsShownAgain(avail: seq<Component>, typeName: string, chosen: int)
    requires 0 <= chosen < |Distinct(TypeNames(avail))|
    ensures var names := Distinct(TypeNames(avail));
      var t := ApplyPopupChoice(names, typeName, chosen, true);
      t in names && FirstIndex(names, t) == chosen
  {
  }

  const ChooseTypeMessage: string := "请选择要绑定的组件类型。"
  const MisconfiguredMessage: string := "组件绑定器配置有误。"

  function MissingTypeMessage(typeName: string): string {
    "无法找到类型为 " + typeName + " 的组件。"
  }

  /** `GetValidationMessage`: asks the binder for its target (which may fill
      its caches) and explains why it is missing. */
  function GetValidationMessage(s: BinderState, host: GameObject): (res: (string, BinderState))
    ensures res.1 == GetTargetComponent(s, host).1
    ensures GetTargetComponent(s, host).0.None? && s.typeName == "" ==> res.0 == ChooseTypeMessage
    ensures GetTargetComponent(s, host).0.None? && s.typeName != "" ==> res.0 == MissingTypeMessage(s.typeName)
    ensures GetTargetComponent(s, host).0.Some? ==> res.0 == MisconfiguredMessage
  {
    var (target, s') := GetTargetComponent(s, host);
    if target.None? then
      (if s.typeName == "" then ChooseTypeMessage else MissingTypeMessage(s.typeName), s')
    else (MisconfiguredMessage, s')
  }

  /** The inspector shows the message only for an invalid binder. The generic
      message then means a component is cached while no type name is chosen;
      a missing-type message names the type that was not found. */
  lemma InvalidBinderMessage(s: BinderState, host: GameObject)
    requires !IsValid(s, host).0
    ensures GetValidationMessage(s, host).0 == MisconfiguredMessage ==> s.typeName == "" && s.cached.Some?
    ensures GetValidationMessage(s, host).0 != ChooseTypeMessage ==> s.typeName != "" || s.cached.Some?
    ensures s.typeName != "" ==> GetValidationMessage(s, host).0 == MissingTypeMessage(s.typeName)
  {
  }

  /** `FindFormRoot`, walking up from `current` through its ancestors (nearest
      first): the position in `[current] + ancestors` of the first node that
      carries a `UIFormBase` or a `Canvas`, or `None`. The same loop appears in
      the binder menu items. */
  function FindFormRoot(current: GameObject, ancestors: seq<GameObject>): (r: Option<nat>)
    ensures r.Some? ==> r.value <= |ancestors| && IsFormRoot(([current] + ancestors)[r.value])
    ensures r.Some? ==> forall j :: 0 <= j < r.value ==> !IsFormRoot(([current] + ancestors)[j])
    ensures r.None? <==> forall j :: 0 <= j < |ancestors| + 1 ==> !IsFormRoot(([current] + ancestors)[j])
  {
    FirstWhere([current] + ancestors, IsFormRoot)
  }

  /** The root `FindFormRoot` finds above a non-root object is exactly the node
      at which `GenerateComponentPath` stops prepending names. */
  lemma FormRootEndsPath(obj: GameObject, ancestors: seq<GameObject>)
    requires !IsFormRoot(obj)
    ensures PathDepth(ancestors) < |ancestors| ==> FindFormRoot(obj, ancestors) == Some(PathDepth(ancestors) + 1)
    ensures PathDepth(ancestors) == |ancestors| ==> FindFormRoot(obj, ancestors).None?
  {
    assert FindFormRoot(obj, ancestors) == FirstWhere([obj] + ancestors, IsFormRoot);
    FirstAfterNonMatch(obj, ancestors, IsFormRoot, PathDepth(ancestors));
  }
}

=== FILE: binder_menu.dfy ===
/** The binder menu items (Editor/MenuItems/UIComponentBinderMenuItems.cs):
    add a binder to each selected GameObject, add binders across whole
    selected hierarchies, remove binders, and enable the items only for a
    non-empty selection. A new binder is a new component (with a fresh id)
    appended to the GameObject; the state the binder's own `UpdateComponentInfo`
    gives it is the business of the Binder module and is not kept here. */
module BinderMenu {
  import opened Wrappers
  import opened Strings
  import opened Seqs
  import opened Scene

  /** The UI types whose presence makes the batch command add a binder, in the
      order `ShouldAddBinder` tests them. */
  const BinderTargetTypes: seq<TypeKey> := [TypeKey("Button", UnityUI), TypeKey("Toggle", UnityUI),
    TypeKey("Text", UnityUI), TypeKey("Image", UnityUI), TypeKey("InputField", UnityUI),
    TypeKey("Slider", UnityUI), TypeKey("Scrollbar", UnityUI), TypeKey("Dropdown", UnityUI),
    TypeKey("TextMeshProUGUI", TMPro), TypeKey("TMP_InputField", TMPro), TypeKey("TMP_Dropdown", TMPro)]

  /** The type of a binder component: a MonoBehaviour. */
  const BinderTypeInfo: TypeInfo :=
    TypeInfo(BinderType, FrameworkNamespace, [TypeKey("MonoBehaviour", UnityEngine),
      TypeKey("Behaviour", UnityEngine), TypeKey("Component", UnityEngine), TypeKey("Object", UnityEngine)])

  /** The component `AddComponent<UIComponentBinder>()` creates. */
  function NewBinderComponent(id: nat, owner: string): (c: Component)
    ensures IsA(c, BinderKey) && c.TypeName() == BinderType && c.Key() == BinderKey
  {
    Component(id, BinderTypeInfo, owner)
  }

  /** The object carries a component of some type in `types`. */
  predicate CarriesAny(obj: GameObject, types: seq<TypeKey>) {
    exists j :: 0 <= j < |types| && HasComponent(obj, types[j])
  }

  /** The `||` chain of `GetComponent<T>() != null` tests over `types`, left
      to right. */
  function AnyOf(obj: GameObject, types: seq<TypeKey>): (r: bool)
    ensures r <==> CarriesAny(obj, types)
  {
    if types == [] then false
    else if HasComponent(obj, types[0]) then true
    else
      var r := AnyOf(obj, types[1..]);
      assert forall j :: 1 <= j < |types| ==> types[j] == types[1..][j - 1];
      r
  }

  /** `ShouldAddBinder`: the eleven tests joined by `||`. */
  predicate ShouldAddBinder(obj: GameObject) {
    AnyOf(obj, BinderTargetTypes)
  }

  /** An object qualifies exactly when it carries one of the eleven types. */
  lemma ShouldAddBinderMeans(obj: GameObject)
    ensures ShouldAddBinder(obj) <==> CarriesAny(obj, BinderTargetTypes)
  {
  }

  /** `GetComponent<UnityEngine.UI.Button>()` does not see a user type that is
      also called Button: an object carrying only `Game.Button` does not
      qualify. */
  lemma ForeignButtonDoesNotQualify(obj: GameObject)
    requires |obj.components| == 1 && obj.components[0].ctype == TypeInfo("Button", Some("Game"), [])
    ensures !ShouldAddBinder(obj)
  {
    forall j | 0 <= j < |BinderTargetTypes| ensures !HasComponent(obj, BinderTargetTypes[j]) {
      TargetTypeOutsideGame(j);
      assert !IsA(obj.components[0], BinderTargetTypes[j]);
    }
  }

  /** Every type the batch command looks for lives in UnityEngine.UI or TMPro. */
  lemma TargetTypeOutsideGame(j: nat)
    requires j < |BinderTargetTypes|
    ensures BinderTargetTypes[j].ns == UnityUI || BinderTargetTypes[j].ns == TMPro
    ensures BinderTargetTypes[j].ns != Some("Game")
  {
    var t := BinderTargetTypes[j];
    assert t.ns == UnityUI || t.ns == TMPro;
    assert |t.ns.value| != |"Game"|;
  }

  predicate IsBinder(c: Component) {
    IsA(c, BinderKey)
  }

  /** How many binders a component list holds. */
  function BinderCount(cs: seq<Component>): nat {
    Count(cs, IsBinder)
  }

  /** `GetComponent<UIComponentBinder>() != null` exactly when the count is positive. */
  lemma HasBinderIffCount(obj: GameObject)
    ensures HasBinder(obj) <==> BinderCount(obj.components) > 0
  {
    CountPositive(obj.components, IsBinder);
  }

  lemma BinderCountAppend(cs: seq<Component>, c: Component)
    ensures BinderCount(cs + [c]) == BinderCount(cs) + (if IsA(c, BinderKey) then 1 else 0)
  {
    CountConcat(cs, [c], IsBinder);
    assert [c][1..] == [];
  }

  // ---- adding one binder per selected object ----------------------------------------

  /** `after` is `before` with one new binder component appended and nothing else
      changed. */
  predicate GainedBinder(before: GameObject, after: GameObject) {
    && after.name == before.name
    && after.children == before.children
    && |after.components| == |before.components| + 1
    && after.components[..|before.components|] == before.components
    && after.components[|before.components|].ctype == BinderTypeInfo
  }

  function AddBinder(obj: GameObject, id: nat): (r: GameObject)
    ensures GainedBinder(obj, r)
  {
    var r := obj.(components := obj.components + [NewBinderComponent(id, obj.name)]);
    assert r.components[..|obj.components|] == obj.components;
    r
  }

  /** The `foreach` of `AddComponentBinder`: objects that already have a binder
      are skipped; every other one gets a binder, with ids from `next` on. */
  function AddToEach(objs: seq<GameObject>, next: nat): (res: (seq<GameObject>, nat))
    ensures |res.0| == |objs| && res.1 >= next
    ensures forall i :: 0 <= i < |objs| && HasBinder(objs[i]) ==> res.0[i] == objs[i]
    ensures forall i :: 0 <= i < |objs| && !HasBinder(objs[i]) ==> GainedBinder(objs[i], res.0[i])
  {
    if objs == [] then ([], next)
    else
      var o := objs[0];
      var (first, n1) := if HasBinder(o) then (o, next) else (AddBinder(o, next), next + 1);
      var (rest, n2) := AddToEach(objs[1..], n1);
      ([first] + rest, n2)
  }

  const SelectOneMessage: string := "请先选择一个GameObject。"
  const SelectSomeMessage: string := "请先选择一个或多个GameObject。"

  /** `AddComponentBinder` over the selection (`None` is a null selection). An
      empty selection is refused with a dialog; otherwise each object ends with
      at least one binder, and with exactly one when it had at most one. */
  function AddComponentBinder(selection: Option<seq<GameObject>>, next: nat): (res: Result<(seq<GameObject>, nat), string>)
    ensures res.Failure? <==> selection.None? || |selection.value| == 0
    ensures res.Failure? ==> res.error == SelectOneMessage
    ensures res.Success? ==> |res.value.0| == |selection.value|
    ensures res.Success? ==> forall i :: 0 <= i < |selection.value| ==>
      var before, after := selection.value[i], res.value.0[i];
      && BinderCount(after.components) >= 1
      && (BinderCount(before.components) <= 1 ==> BinderCount(after.components) == 1)
      && (HasBinder(before) ==> after == before)
  {
    if selection.None? || |selection.value| == 0 then Failure(SelectOneMessage)
    else
      var (objs, n) := AddToEach(selection.value, next);
      assert forall i :: 0 <= i < |objs| ==>
        BinderCount(objs[i].components) >= 1
        && (BinderCount(selection.value[i].components) <= 1 ==> BinderCount(objs[i].components) == 1) by {
        forall i | 0 <= i < |objs|
          ensures BinderCount(objs[i].components) >= 1
          ensures BinderCount(selection.value[i].components) <= 1 ==> BinderCount(objs[i].components) == 1
        {
          var before := selection.value[i];
          HasBinderIffCount(before);
          if !HasBinder(before) {
            var after := objs[i];
            var b := after.components[|before.components|];
            assert after.components == before.components + [b];
            BinderCountAppend(before.components, b);
          }
        }
      }
      Success((objs, n))
  }

  // ---- removing binders ------------------------------------------------------------

  /** `DestroyImmediate(GetComponent<UIComponentBinder>())`: the first binder
      removed, if there is one; the other components keep their order. */
  function RemoveFirstBinder(cs: seq<Component>): (r: seq<Component>)
    ensures BinderCount(cs) > 0 ==> BinderCount(r) == BinderCount(cs) - 1 && |r| == |cs| - 1
    ensures BinderCount(cs) == 0 ==> r == cs
    ensures BinderCount(cs) > 0 ==> exists k :: 0 <= k < |cs| && IsFirstBinderAt(cs, k) && r == cs[..k] + cs[k + 1..]
  {
    if cs == [] then []
    else if IsA(cs[0], BinderKey) then
      assert IsFirstBinderAt(cs, 0) && cs[1..] == cs[..0] + cs[1..];
      cs[1..]
    else
      var rest := RemoveFirstBinder(cs[1..]);
      var r := [cs[0]] + rest;
      assert r[0] == cs[0] && r[1..] == rest;
      assert BinderCount(cs) > 0 ==> exists k :: 0 <= k < |cs| && IsFirstBinderAt(cs, k) && r == cs[..k] + cs[k + 1..] by {
        if BinderCount(cs) > 0 {
          var k :| 0 <= k < |cs[1..]| && IsFirstBinderAt(cs[1..], k) && rest == cs[1..][..k] + cs[1..][k + 1..];
          FirstBinderShift(cs, k);
          CutShift(cs, k);
        }
      }
      r
  }

  /** `cs[k]` is a binder and none comes before it. */
  predicate IsFirstBinderAt(cs: seq<Component>, k: nat) {
    k < |cs| && IsA(cs[k], BinderKey) && forall j :: 0 <= j < k ==> !IsA(cs[j], BinderKey)
  }

  lemma FirstBinderShift(cs: seq<Component>, k: nat)
    requires 0 < |cs| && !IsA(cs[0], BinderKey) && IsFirstBinderAt(cs[1..], k)
    ensures IsFirstBinderAt(cs, k + 1)
  {
    forall j | 0 < j < k + 1 ensures !IsA(cs[j], BinderKey) {
      assert cs[j] == cs[1..][j - 1];
    }
  }

  lemma CutShift<T>(cs: seq<T>, k: nat)
    requires k + 1 < |cs|
    ensures [cs[0]] + (cs[1..][..k] + cs[1..][k + 1..]) == cs[..k + 1] + cs[k + 2..]
  {
    assert cs[..k + 1] == [cs[0]] + cs[1..][..k];
    assert cs[k + 2..] == cs[1..][k + 1..];
  }

  /** The number of objects in the list that carry a binder. */
  function WithBinderCount(objs: seq<GameObject>): (n: nat)
    ensures n <= |objs|
  {
    Count(objs, HasBinder)
  }

  /** Each object with its first binder removed. */
  function RemoveFromEach(objs: seq<GameObject>): (r: seq<GameObject>)
    ensures |r| == |objs|
    ensures forall i :: 0 <= i < |objs| ==>
      r[i].name == objs[i].name && r[i].children == objs[i].children
      && r[i].components == RemoveFirstBinder(objs[i].components)
      && (BinderCount(objs[i].components) <= 1 ==> BinderCount(r[i].components) == 0)
  {
    seq(|objs|, i requires 0 <= i < |objs| => objs[i].(components := RemoveFirstBinder(objs[i].components)))
  }

  const NothingRemovedMessage: string := "选中的GameObject中没有找到UIComponentBinder组件。"

  function RemovedMessage(n: nat): string {
    "已移除 " + Dec(n) + " 个UIComponentBinder组件。"
  }

  /** `RemoveComponentBinder`: the count is the number of selected objects that
      had a binder; each loses one, so an object that had only one has none. */
  function RemoveComponentBinder(selection: Option<seq<GameObject>>): (res: Result<(seq<GameObject>, nat, string), string>)
    ensures res.Failure? <==> selection.None? || |selection.value| == 0
    ensures res.Failure? ==> res.error == SelectOneMessage
    ensures res.Success? ==> |res.value.0| == |selection.value| && res.value.1 == WithBinderCount(selection.value)
    ensures res.Success? ==> forall i :: 0 <= i < |selection.value| ==>
      var before, after := selection.value[i], res.value.0[i];
      && after.name == before.name && after.children == before.children
      && after.components == RemoveFirstBinder(before.components)
      && (BinderCount(before.components) <= 1 ==> !HasBinder(after))
    ensures res.Success? ==> (res.value.2 == NothingRemovedMessage <==> res.value.1 == 0)
  {
    if selection.None? || |selection.value| == 0 then Failure(SelectOneMessage)
    else
      var objs, n := RemoveFromEach(selection.value), WithBinderCount(selection.value);
      assert forall i :: 0 <= i < |objs| ==> (BinderCount(selection.value[i].components) <= 1 ==> !HasBinder(objs[i])) by {
        forall i | 0 <= i < |objs| && BinderCount(selection.value[i].components) <= 1
          ensures !HasBinder(objs[i])
        {
          HasBinderIffCount(objs[i]);
        }
      }
      assert RemovedMessage(n)[0] != NothingRemovedMessage[0];
      Success((objs, n, if n == 0 then NothingRemovedMessage else RemovedMessage(n)))
  }

  // ---- the recursive batch walk ----------------------------------------------------

  /** The node qualifies and has no binder yet: the walk adds one. */
  predicate NeedsBinder(obj: GameObject) {
    ShouldAddBinder(obj) && !HasBinder(obj)
  }

  /** The node qualifies but has a binder already: the walk skips it. */
  predicate AlreadyBound(obj: GameObject) {
    ShouldAddBinder(obj) && HasBinder(obj)
  }

  /** What the walk does to one node, apart from its children: a qualifying node
      without a binder gains one, every other node keeps its components. */
  predicate VisitedAs(before: GameObject, after: GameObject) {
    && after.name == before.name
    && |after.children| == |before.children|
    && (if NeedsBinder(before) then
          |after.components| == |before.components| + 1
          && after.components[..|before.components|] == before.components
          && after.components[|before.components|].ctype == BinderTypeInfo
        else after.components == before.components)
  }

  /** Nodes the walk adds a binder to. */
  function MissingCount(nodes: seq<GameObject>): nat {
    Count(nodes, NeedsBinder)
  }

  /** Nodes that qualify but already carry a binder: the walk skips them. */
  function BoundCount(nodes: seq<GameObject>): nat {
    Count(nodes, AlreadyBound)
  }

  /** Nodes that qualify at all. */
  function QualifyingCount(nodes: seq<GameObject>): nat {
    Count(nodes, ShouldAddBinder)
  }

  /** Every qualifying node is either added to or skipped. */
  lemma {:induction false} QualifyingSplits(nodes: seq<GameObject>)
    ensures QualifyingCount(nodes) == MissingCount(nodes) + BoundCount(nodes)
  {
    if nodes != [] {
      QualifyingSplits(nodes[1..]);
    }
  }

  /** One node as the walk leaves it, before its children are replaced. */
  function Visit(obj: GameObject, id: nat): GameObject {
    if NeedsBinder(obj) then AddBinder(obj, id) else obj
  }

  /** The state the walk threads through: the processed nodes, the two
      counters and the next free component id. */
  datatype Walk = Walk(nodes: seq<GameObject>, added: nat, skipped: nat, next: nat)

  /** `ProcessGameObjectRecursively` applied to each of `cs` in turn, with the
      two counters and the next free component id threaded through: the node
      first, then its children in index order. */
  function ProcessAll(cs: seq<GameObject>, next: nat): (w: Walk)
    ensures |w.nodes| == |cs|
    ensures w.next == next + w.added
    decreases cs
  {
    if cs == [] then Walk([], 0, 0, next)
    else
      var c := cs[0];
      var add := NeedsBinder(c);
      var below := ProcessAll(c.children, if add then next + 1 else next);
      var after := ProcessAll(cs[1..], below.next);
      Walk([Visit(c, next).(children := below.nodes)] + after.nodes,
        (if add then 1 else 0) + below.added + after.added,
        (if AlreadyBound(c) then 1 else 0) + below.skipped + after.skipped,
        after.next)
  }

  /** The walk over a list of trees, read node by node in pre-order: the result
      has the same nodes in the same places, each visited as `VisitedAs` says. */
  lemma {:induction false} ProcessAllNodes(cs: seq<GameObject>, next: nat)
    ensures |Below(ProcessAll(cs, next).nodes)| == |Below(cs)|
    ensures forall i :: 0 <= i < |Below(cs)| ==> VisitedAs(Below(cs)[i], Below(ProcessAll(cs, next).nodes)[i])
    decreases cs
  {
    if cs != [] {
      var c := cs[0];
      var n1 := if NeedsBinder(c) then next + 1 else next;
      var below := ProcessAll(c.children, n1);
      var after := ProcessAll(cs[1..], below.next);
      ProcessAllNodes(c.children, n1);
      ProcessAllNodes(cs[1..], below.next);
      var node := Visit(c, next).(children := below.nodes);
      var r := ProcessAll(cs, next).nodes;
      assert r == [node] + after.nodes;
      assert r[0] == node && r[1..] == after.nodes;
      var up, bc, bk, br, bs := Below(r), Below(c.children), Below(below.nodes), Below(cs[1..]), Below(after.nodes);
      assert up == [node] + bk + bs;
      assert Below(cs) == [c] + bc + br;
      VisitRoot(c, next, below.nodes);
      PointwiseConcat(VisitedAs, c, node, bc, bk, br, bs);
    }
  }

  /** The walk's own step on a node is a visit in the sense of `VisitedAs`. */
  lemma VisitRoot(c: GameObject, id: nat, kids: seq<GameObject>)
    requires |kids| == |c.children|
    ensures VisitedAs(c, Visit(c, id).(children := kids))
  {
    var node := Visit(c, id).(children := kids);
    if NeedsBinder(c) {
      assert node.components == c.components + [NewBinderComponent(id, c.name)];
      assert node.components[..|c.components|] == c.components;
    }
  }

  /** The counters count the nodes that gained a binder and the qualifying
      nodes that were skipped, over the whole pre-order listing. */
  lemma ProcessAllCounts(cs: seq<GameObject>, next: nat)
    ensures ProcessAll(cs, next).added == MissingCount(Below(cs))
    ensures ProcessAll(cs, next).skipped == BoundCount(Below(cs))
  {
    ProcessAllAdded(cs, next);
    ProcessAllSkipped(cs, next);
  }

  lemma {:induction false} ProcessAllAdded(cs: seq<GameObject>, next: nat)
    ensures ProcessAll(cs, next).added == MissingCount(Below(cs))
    decreases cs
  {
    if cs != [] {
      var c := cs[0];
      var n1 := if NeedsBinder(c) then next + 1 else next;
      var below := ProcessAll(c.children, n1);
      ProcessAllAdded(c.children, n1);
      ProcessAllAdded(cs[1..], below.next);
      assert Below(cs) == [c] + Below(c.children) + Below(cs[1..]);
      CountHeadConcat(c, Below(c.children), Below(cs[1..]), NeedsBinder);
    }
  }

  lemma {:induction false} ProcessAllSkipped(cs: seq<GameObject>, next: nat)
    ensures ProcessAll(cs, next).skipped == BoundCount(Below(cs))
    decreases cs
  {
    if cs != [] {
      var c := cs[0];
      var n1 := if NeedsBinder(c) then next + 1 else next;
      var below := ProcessAll(c.children, n1);
      ProcessAllSkipped(c.children, n1);
      ProcessAllSkipped(cs[1..], below.next);
      assert Below(cs) == [c] + Below(c.children) + Below(cs[1..]);
      CountHeadConcat(c, Below(c.children), Below(cs[1..]), AlreadyBound);
    }
  }

  /** `ProcessGameObjectRecursively(obj, ref added, ref skipped)` from zero
      counters: the processed tree, the two counts and the next free id. */
  function ProcessGameObjectRecursively(obj: GameObject, next: nat): (res: (GameObject, nat, nat, nat))
    ensures res.3 == next + res.1
    ensures res.1 + res.2 == QualifyingCount(Below([obj]))
    ensures res.1 == MissingCount(Below([obj])) && res.2 == BoundCount(Below([obj]))
    ensures [res.0] == ProcessAll([obj], next).nodes
    ensures var before, after := Below([obj]), Below([res.0]);
      && |after| == |before|
      && (forall i :: 0 <= i < |after| && ShouldAddBinder(before[i]) ==> HasBinder(after[i]))
      && (forall i :: 0 <= i < |after| && !ShouldAddBinder(before[i]) ==> after[i].components == before[i].components)
  {
    var w := ProcessAll([obj], next);
    ProcessAllCounts([obj], next);
    QualifyingSplits(Below([obj]));
    WalkBindsEveryQualifyingNode([obj], next);
    assert w.nodes == [w.nodes[0]];
    (w.nodes[0], w.added, w.skipped, w.next)
  }

  /** After the walk every qualifying node carries a binder, and a node that
      does not qualify keeps its components exactly. */
  lemma WalkBindsEveryQualifyingNode(cs: seq<GameObject>, next: nat)
    ensures var after := Below(ProcessAll(cs, next).nodes);
      && |after| == |Below(cs)|
      && (forall i :: 0 <= i < |after| && ShouldAddBinder(Below(cs)[i]) ==> HasBinder(after[i]))
      && (forall i :: 0 <= i < |after| && !ShouldAddBinder(Below(cs)[i]) ==> after[i].components == Below(cs)[i].components)
  {
    ProcessAllNodes(cs, next);
    var before, after := Below(cs), Below(ProcessAll(cs, next).nodes);
    forall i | 0 <= i < |after| && ShouldAddBinder(before[i])
      ensures HasBinder(after[i])
    {
      if NeedsBinder(before[i]) {
        var k := |before[i].components|;
        assert IsA(after[i].components[k], BinderKey);
      } else {
        assert after[i].components == before[i].components;
      }
    }
  }

  function BatchMessage(added: nat, skipped: nat): string {
    "批量添加完成！\n添加: " + Dec(added) + " 个\n跳过: " + Dec(skipped) + " 个"
  }

  /** `BatchAddComponentBinders`: refuses an empty selection; otherwise walks
      every selected hierarchy in selection order with shared counters. */
  function BatchAddComponentBinders(selection: Option<seq<GameObject>>, next: nat)
    : (res: Result<(seq<GameObject>, nat, nat, string), string>)
    ensures res.Failure? <==> selection.None? || |selection.value| == 0
    ensures res.Failure? ==> res.error == SelectSomeMessage
    ensures res.Success? ==> |res.value.0| == |selection.value|
    ensures res.Success? ==> res.value.1 + res.value.2 == QualifyingCount(Below(selection.value))
    ensures res.Success? ==> (res.value.1 == MissingCount(Below(selection.value))
      && res.value.2 == BoundCount(Below(selection.value)))
    ensures res.Success? ==> res.value.0 == ProcessAll(selection.value, next).nodes
    ensures res.Success? ==> var before, after := Below(selection.value), Below(res.value.0);
      && |after| == |before|
      && (forall i :: 0 <= i < |after| && ShouldAddBinder(before[i]) ==> HasBinder(after[i]))
      && (forall i :: 0 <= i < |after| && !ShouldAddBinder(before[i]) ==> after[i].components == before[i].components)
    ensures res.Success? ==> res.value.3 == BatchMessage(res.value.1, res.value.2)
  {
    if selection.None? || |selection.value| == 0 then Failure(SelectSomeMessage)
    else
      var w := ProcessAll(selection.value, next);
      ProcessAllCounts(selection.value, next);
      QualifyingSplits(Below(selection.value));
      WalkBindsEveryQualifyingNode(selection.value, next);
      Success((w.nodes, w.added, w.skipped, BatchMessage(w.added, w.skipped)))
  }

  // ---- menu validation -------------------------------------------------------------

  /** `ValidateMenuItems`: the four items are enabled for a non-empty selection. */
  function ValidateMenuItems(selection: Option<seq<GameObject>>): (r: bool)
    ensures r <==> selection.Some? && |selection.value| > 0
  {
    selection.Some? && |selection.value| > 0
  }

  /** An enabled menu item never falls into its "select something first"
      dialog, and a disabled one always would. */
  lemma EnabledItemsDoNotRefuse(selection: Option<seq<GameObject>>, next: nat)
    ensures ValidateMenuItems(selection) <==> AddComponentBinder(selection, next).Success?
    ensures ValidateMenuItems(selection) <==> BatchAddComponentBinders(selection, next).Success?
    ensures ValidateMenuItems(selection) <==> RemoveComponentBinder(selection).Success?
  {
  }
}

=== FILE: config_data.dfy ===
/** The configuration records of the UI module: one form (Runtime/Data/UIFormConfig.cs),
    the global settings and one UI group (Runtime/Data/UIGlobalConfig.cs). Fade
    durations and animation curves are left out; every other field is here. */
module ConfigData {
  import opened Wrappers
  import opened Ints

  const DefaultGroupName: string := "Default"

  // ---- UIFormConfig ----------------------------------------------------------------

  /** `UIFormShowMode`: exactly four modes. */
  datatype UIFormShowMode = Normal | Modal | Fullscreen | Popup

  /** A form's settings. `None` is a null string. */
  datatype UIFormConfig = UIFormConfig(
    formName: Option<string>,
    assetPath: Option<string>,
    priority: int32,
    allowMultipleInstances: bool,
    pausesCoveredUIForm: bool,
    showMode: UIFormShowMode,
    uiGroupName: Option<string>)

  /** The parameterless constructor: the field initialisers only. */
  const DefaultFormConfig: UIFormConfig :=
    UIFormConfig(None, None, 0, false, true, Normal, Some(DefaultGroupName))

  /** `UIFormConfig(formName, assetPath)`: the two given fields, every other at
      its default. */
  function NewFormConfig(formName: Option<string>, assetPath: Option<string>): (c: UIFormConfig)
    ensures c.formName == formName && c.assetPath == assetPath
    ensures c.(formName := None, assetPath := None) == DefaultFormConfig
  {
    DefaultFormConfig.(formName := formName, assetPath := assetPath)
  }

  /** One write through a property setter of `UIFormConfig`. */
  datatype FormField =
    | SetFormName(name: Option<string>)
    | SetAssetPath(path: Option<string>)
    | SetPriority(priority: int32)
    | SetAllowMultipleInstances(allow: bool)
    | SetPausesCoveredUIForm(pauses: bool)
    | SetShowMode(mode: UIFormShowMode)
    | SetUIGroupName(group: Option<string>)

  /** The setters store the value as given, with no check. */
  function SetFormField(c: UIFormConfig, f: FormField): (r: UIFormConfig)
    ensures f.SetFormName? ==> r.formName == f.name && r.(formName := c.formName) == c
    ensures f.SetAssetPath? ==> r.assetPath == f.path && r.(assetPath := c.assetPath) == c
    ensures f.SetPriority? ==> r.priority == f.priority && r.(priority := c.priority) == c
    ensures f.SetAllowMultipleInstances? ==>
      r.allowMultipleInstances == f.allow && r.(allowMultipleInstances := c.allowMultipleInstances) == c
    ensures f.SetPausesCoveredUIForm? ==>
      r.pausesCoveredUIForm == f.pauses && r.(pausesCoveredUIForm := c.pausesCoveredUIForm) == c
    ensures f.SetShowMode? ==> r.showMode == f.mode && r.(showMode := c.showMode) == c
    ensures f.SetUIGroupName? ==> r.uiGroupName == f.group && r.(uiGroupName := c.uiGroupName) == c
  {
    match f
    case SetFormName(v) => c.(formName := v)
    case SetAssetPath(v) => c.(assetPath := v)
    case SetPriority(v) => c.(priority := v)
    case SetAllowMultipleInstances(v) => c.(allowMultipleInstances := v)
    case SetPausesCoveredUIForm(v) => c.(pausesCoveredUIForm := v)
    case SetShowMode(v) => c.(showMode := v)
    case SetUIGroupName(v) => c.(uiGroupName := v)
  }

  /** Two writes to the same property: the last one wins. */
  lemma FormFieldLastWins(c: UIFormConfig, f: FormField, g: FormField)
    requires SameFormField(f, g)
    ensures SetFormField(SetFormField(c, f), g) == SetFormField(c, g)
  {
  }

  /** Writes to different properties do not interfere. */
  lemma FormFieldsCommute(c: UIFormConfig, f: FormField, g: FormField)
    requires !SameFormField(f, g)
    ensures SetFormField(SetFormField(c, f), g) == SetFormField(SetFormField(c, g), f)
  {
  }

  predicate SameFormField(f: FormField, g: FormField) {
    match f
    case SetFormName(_) => g.SetFormName?
    case SetAssetPath(_) => g.SetAssetPath?
    case SetPriority(_) => g.SetPriority?
    case SetAllowMultipleInstances(_) => g.SetAllowMultipleInstances?
    case SetPausesCoveredUIForm(_) => g.SetPausesCoveredUIForm?
    case SetShowMode(_) => g.SetShowMode?
    case SetUIGroupName(_) => g.SetUIGroupName?
  }

  /** `UIFormConfig.Clone`: a copy equal in every modelled field (the curves it
      rebuilds from their keys are not modelled). */
  function CloneFormConfig(c: UIFormConfig): (r: UIFormConfig)
    ensures r.formName == c.formName && r.assetPath == c.assetPath && r.priority == c.priority
    ensures r.allowMultipleInstances == c.allowMultipleInstances
    ensures r.pausesCoveredUIForm == c.pausesCoveredUIForm
    ensures r.showMode == c.showMode && r.uiGroupName == c.uiGroupName
  {
    UIFormConfig(c.formName, c.assetPath, c.priority, c.allowMultipleInstances,
      c.pausesCoveredUIForm, c.showMode, c.uiGroupName)
  }

  /** A clone answers every getter as the original does, and a later write to
      the clone reads back on the clone as it would on the original. */
  lemma CloneIsIndistinguishable(c: UIFormConfig, f: FormField)
    ensures SetFormField(CloneFormConfig(c), f) == SetFormField(c, f)
  {
  }

  // ---- UIGlobalConfig --------------------------------------------------------------

  /** The global settings (the two float fields are not modelled). */
  datatype UIGlobalConfig = UIGlobalConfig(
    enableUISound: bool,
    enableUIAnimation: bool,
    enableUIParticle: bool,
    defaultUIGroupName: string,
    maxUIFormCount: int32,
    autoReleaseUnusedUIForm: bool,
    enableUIFormPool: bool,
    uiFormPoolCapacity: int32)

  const DefaultGlobalConfig: UIGlobalConfig :=
    UIGlobalConfig(true, true, true, DefaultGroupName, 100, true, true, 10)

  /** What the setters guarantee: both counts at least 1. */
  predicate GlobalConfigInvariant(g: UIGlobalConfig) {
    g.maxUIFormCount >= 1 && g.uiFormPoolCapacity >= 1
  }

  /** The `MaxUIFormCount` setter: `Mathf.Max(1, value)`. */
  function SetMaxUIFormCount(g: UIGlobalConfig, v: int32): (r: UIGlobalConfig)
    ensures r.maxUIFormCount >= 1
    ensures v >= 1 ==> r.maxUIFormCount == v
    ensures v < 1 ==> r.maxUIFormCount == 1
    ensures r.(maxUIFormCount := g.maxUIFormCount) == g
  {
    g.(maxUIFormCount := Max(1, v))
  }

  /** The `UIFormPoolCapacity` setter: `Mathf.Max(1, value)`. */
  function SetUIFormPoolCapacity(g: UIGlobalConfig, v: int32): (r: UIGlobalConfig)
    ensures r.uiFormPoolCapacity >= 1
    ensures v >= 1 ==> r.uiFormPoolCapacity == v
    ensures v < 1 ==> r.uiFormPoolCapacity == 1
    ensures r.(uiFormPoolCapacity := g.uiFormPoolCapacity) == g
  {
    g.(uiFormPoolCapacity := Max(1, v))
  }

  /** The `DefaultUIGroupName` setter: null becomes "Default". */
  function SetDefaultUIGroupName(g: UIGlobalConfig, v: Option<string>): (r: UIGlobalConfig)
    ensures v.None? ==> r.defaultUIGroupName == DefaultGroupName
    ensures v.Some? ==> r.defaultUIGroupName == v.value
    ensures r.(defaultUIGroupName := g.defaultUIGroupName) == g
  {
    g.(defaultUIGroupName := v.GetOr(DefaultGroupName))
  }

  /** The defaults satisfy the invariant and every setter keeps it. */
  lemma GlobalSettersKeepInvariant(g: UIGlobalConfig, v: int32, s: Option<string>)
    ensures GlobalConfigInvariant(DefaultGlobalConfig)
    ensures GlobalConfigInvariant(g) ==> GlobalConfigInvariant(SetMaxUIFormCount(g, v))
    ensures GlobalConfigInvariant(g) ==> GlobalConfigInvariant(SetUIFormPoolCapacity(g, v))
    ensures GlobalConfigInvariant(g) ==> GlobalConfigInvariant(SetDefaultUIGroupName(g, s))
    ensures GlobalConfigInvariant(g) ==> GlobalConfigInvariant(CloneGlobalConfig(g))
  {
  }

  /** A clamping setter is idempotent: storing what it just read changes nothing. */
  lemma ClampedSetterRoundTrip(g: UIGlobalConfig, v: int32)
    ensures SetMaxUIFormCount(SetMaxUIFormCount(g, v), SetMaxUIFormCount(g, v).maxUIFormCount)
         == SetMaxUIFormCount(g, v)
    ensures SetUIFormPoolCapacity(SetUIFormPoolCapacity(g, v), SetUIFormPoolCapacity(g, v).uiFormPoolCapacity)
         == SetUIFormPoolCapacity(g, v)
  {
  }

  /** `UIGlobalConfig.Clone`: every modelled field copied. */
  function CloneGlobalConfig(g: UIGlobalConfig): (r: UIGlobalConfig)
    ensures r.enableUISound == g.enableUISound && r.enableUIAnimation == g.enableUIAnimation
    ensures r.enableUIParticle == g.enableUIParticle && r.defaultUIGroupName == g.defaultUIGroupName
    ensures r.maxUIFormCount == g.maxUIFormCount && r.autoReleaseUnusedUIForm == g.autoReleaseUnusedUIForm
    ensures r.enableUIFormPool == g.enableUIFormPool && r.uiFormPoolCapacity == g.uiFormPoolCapacity
  {
    UIGlobalConfig(g.enableUISound, g.enableUIAnimation, g.enableUIParticle, g.defaultUIGroupName,
      g.maxUIFormCount, g.autoReleaseUnusedUIForm, g.enableUIFormPool, g.uiFormPoolCapacity)
  }

  // ---- UIGroupConfig ---------------------------------------------------------------

  /** One UI group. `canvasTemplate` is a reference to a Canvas (an id), or null. */
  datatype UIGroupConfig = UIGroupConfig(
    groupName: Option<string>,
    depth: int32,
    pause: bool,
    canvasTemplate: Option<nat>,
    sortingOrder: int32,
    sortingLayerName: string)

  const DefaultGroupConfig: UIGroupConfig := UIGroupConfig(None, 0, true, None, 0, DefaultGroupName)

  /** `UIGroupConfig(groupName, depth)`: name and depth given, the rest default. */
  function NewGroupConfig(groupName: Option<string>, depth: int32): (c: UIGroupConfig)
    ensures c.groupName == groupName && c.depth == depth
    ensures c.pause && c.canvasTemplate.None? && c.sortingOrder == 0 && c.sortingLayerName == DefaultGroupName
  {
    DefaultGroupConfig.(groupName := groupName, depth := depth)
  }

  /** The `SortingLayerName` setter: null becomes "Default". */
  function SetSortingLayerName(c: UIGroupConfig, v: Option<string>): (r: UIGroupConfig)
    ensures v.None? ==> r.sortingLayerName == DefaultGroupName
    ensures v.Some? ==> r.sortingLayerName == v.value
    ensures r.(sortingLayerName := c.sortingLayerName) == c
  {
    c.(sortingLayerName := v.GetOr(DefaultGroupName))
  }

  /** `UIGroupConfig.Clone`: every field copied, the Canvas reference included. */
  function CloneGroupConfig(c: UIGroupConfig): (r: UIGroupConfig)
    ensures r.groupName == c.groupName && r.depth == c.depth && r.pause == c.pause
    ensures r.canvasTemplate == c.canvasTemplate && r.sortingOrder == c.sortingOrder
    ensures r.sortingLayerName == c.sortingLayerName
  {
    UIGroupConfig(c.groupName, c.depth, c.pause, c.canvasTemplate, c.sortingOrder, c.sortingLayerName)
  }
}

=== FILE: config_manager.dfy ===
/** The UI configuration registry (Runtime/Core/UIConfigManager.cs) and the
    contract of its interface (Runtime/Core/IUIConfigManager.cs): two maps keyed
    by name, one for form configs and one for group configs, plus the global
    config. The manager is a value here; every mutator returns the new value,
    and a thrown argument exception becomes a `Failure`. */
module ConfigManager {
  import opened Wrappers
  import opened Strings
  import opened Seqs
  import opened ConfigData

  /** The argument exceptions the manager throws. */
  datatype ConfigError =
    | ArgumentNull(param: string)
    | ArgumentInvalid(message: string, param: string)

  datatype Registry = Registry(
    forms: map<string, UIFormConfig>,
    groups: map<string, UIGroupConfig>,
    global: UIGlobalConfig)

  /** The constructor: two empty maps and a default global config. */
  const NewRegistry: Registry := Registry(map[], map[], DefaultGlobalConfig)

  /** The `GlobalConfig` setter: null is refused, anything else replaces the
      global config and only it. */
  function SetGlobalConfig(r: Registry, g: Option<UIGlobalConfig>): (res: Result<Registry, ConfigError>)
    ensures g.None? <==> res.Failure?
    ensures g.None? ==> res.error == ArgumentNull("value")
    ensures g.Some? ==> res.value.global == g.value && res.value.forms == r.forms && res.value.groups == r.groups
  {
    if g.None? then Failure(ArgumentNull("value")) else Success(r.(global := g.value))
  }

  // ---- form configs ----------------------------------------------------------------

  /** `AddUIFormConfig`: refuses a null config and a config without a form name;
      otherwise stores the config under its name, replacing any earlier one. */
  function AddUIFormConfig(r: Registry, c: Option<UIFormConfig>): (res: Result<Registry, ConfigError>)
    ensures c.None? ==> res == Failure(ArgumentNull("config"))
    ensures c.Some? && IsNullOrEmpty(c.value.formName) ==>
      res == Failure(ArgumentInvalid("UI form name is null or empty.", "config"))
    ensures res.Success? <==> c.Some? && !IsNullOrEmpty(c.value.formName)
    ensures res.Success? ==> var name := c.value.formName.value;
      && res.value.forms.Keys == r.forms.Keys + {name}
      && res.value.forms[name] == c.value
      && (forall k :: k in r.forms && k != name ==> res.value.forms[k] == r.forms[k])
      && res.value.groups == r.groups && res.value.global == r.global
  {
    if c.None? then Failure(ArgumentNull("config"))
    else if IsNullOrEmpty(c.value.formName) then Failure(ArgumentInvalid("UI form name is null or empty.", "config"))
    else Success(r.(forms := r.forms[c.value.formName.value := c.value]))
  }

  /** `RemoveUIFormConfig`: false and no change for an empty name; otherwise
      whether the name was stored, and it is not stored afterwards. */
  function RemoveUIFormConfig(r: Registry, name: Option<string>): (res: (bool, Registry))
    ensures IsNullOrEmpty(name) ==> res == (false, r)
    ensures !IsNullOrEmpty(name) ==> (res.0 <==> name.value in r.forms)
    ensures !IsNullOrEmpty(name) ==> res.1.forms == r.forms - {name.value}
    ensures res.1.groups == r.groups && res.1.global == r.global
  {
    if IsNullOrEmpty(name) then (false, r)
    else (name.value in r.forms, r.(forms := r.forms - {name.value}))
  }

  /** `GetUIFormConfig`: null for an empty or unknown name. */
  function GetUIFormConfig(r: Registry, name: Option<string>): (res: Option<UIFormConfig>)
    ensures res.Some? <==> !IsNullOrEmpty(name) && name.value in r.forms
    ensures res.Some? ==> res.value == r.forms[name.value]
  {
    if IsNullOrEmpty(name) || name.value !in r.forms then None else Some(r.forms[name.value])
  }

  /** `HasUIFormConfig`: false for an empty name. */
  function HasUIFormConfig(r: Registry, name: Option<string>): (res: bool)
    ensures res <==> !IsNullOrEmpty(name) && name.value in r.forms
  {
    !IsNullOrEmpty(name) && name.value in r.forms
  }

  // ---- group configs ---------------------------------------------------------------

  /** `AddUIGroupConfig`: the same rules as for forms, keyed by the group name,
      on the group map. */
  function AddUIGroupConfig(r: Registry, c: Option<UIGroupConfig>): (res: Result<Registry, ConfigError>)
    ensures c.None? ==> res == Failure(ArgumentNull("config"))
    ensures c.Some? && IsNullOrEmpty(c.value.groupName) ==>
      res == Failure(ArgumentInvalid("UI group name is null or empty.", "config"))
    ensures res.Success? <==> c.Some? && !IsNullOrEmpty(c.value.groupName)
    ensures res.Success? ==> var name := c.value.groupName.value;
      && res.value.groups.Keys == r.groups.Keys + {name}
      && res.value.groups[name] == c.value
      && (forall k :: k in r.groups && k != name ==> res.value.groups[k] == r.groups[k])
      && res.value.forms == r.forms && res.value.global == r.global
  {
    if c.None? then Failure(ArgumentNull("config"))
    else if IsNullOrEmpty(c.value.groupName) then Failure(ArgumentInvalid("UI group name is null or empty.", "config"))
    else Success(r.(groups := r.groups[c.value.groupName.value := c.value]))
  }

  function RemoveUIGroupConfig(r: Registry, name: Option<string>): (res: (bool, Registry))
    ensures IsNullOrEmpty(name) ==> res == (false, r)
    ensures !IsNullOrEmpty(name) ==> (res.0 <==> name.value in r.groups)
    ensures !IsNullOrEmpty(name) ==> res.1.groups == r.groups - {name.value}
    ensures res.1.forms == r.forms && res.1.global == r.global
  {
    if IsNullOrEmpty(name) then (false, r)
    else (name.value in r.groups, r.(groups := r.groups - {name.value}))
  }

  function GetUIGroupConfig(r: Registry, name: Option<string>): (res: Option<UIGroupConfig>)
    ensures res.Some? <==> !IsNullOrEmpty(name) && name.value in r.groups
    ensures res.Some? ==> res.value == r.groups[name.value]
  {
    if IsNullOrEmpty(name) || name.value !in r.groups then None else Some(r.groups[name.value])
  }

  function HasUIGroupConfig(r: Registry, name: Option<string>): (res: bool)
    ensures res <==> !IsNullOrEmpty(name) && name.value in r.groups
  {
    !IsNullOrEmpty(name) && name.value in r.groups
  }

  // ---- whole-registry operations ---------------------------------------------------

  /** `ClearAllConfigs`: both maps emptied, the global config kept. */
  function ClearAllConfigs(r: Registry): (res: Registry)
    ensures |res.forms| == 0 && |res.groups| == 0
    ensures res.global == r.global
  {
    r.(forms := map[], groups := map[])
  }

  /** `LoadConfigFromAsset` and `SaveConfigToAsset`: both only refuse an empty
      path; neither reads or changes the registry. */
  function CheckConfigAssetPath(path: Option<string>): (res: Result<(), ConfigError>)
    ensures res.Success? <==> !IsNullOrEmpty(path)
    ensures res.Failure? ==> res.error == ArgumentInvalid("Config asset path is null or empty.", "configAssetPath")
  {
    if IsNullOrEmpty(path) then Failure(ArgumentInvalid("Config asset path is null or empty.", "configAssetPath"))
    else Success(())
  }

  /** `LoadConfigFromAsset`; `SaveConfigToAsset` has the same body, so this one
      function stands for both. */
  function LoadConfigFromAsset(r: Registry, path: Option<string>): (res: Result<Registry, ConfigError>)
    ensures res.Success? <==> !IsNullOrEmpty(path)
    ensures res.Success? ==> res.value == r
  {
    var _ :- CheckConfigAssetPath(path);
    Success(r)
  }

  /** The `foreach` over a dictionary's values that fills the array of
      `GetAllUIFormConfigs` / `GetAllUIGroupConfigs`. The enumeration order of a
      .NET dictionary is not specified, so the key taken next is any one not yet
      taken; `keys` records the order chosen. */
  method AllValues<V>(m: map<string, V>) returns (values: seq<V>, ghost keys: seq<string>)
    ensures |values| == |m|
    ensures |keys| == |values| && NoDuplicates(keys)
    ensures forall i :: 0 <= i < |keys| ==> keys[i] in m && values[i] == m[keys[i]]
    ensures forall k :: k in m ==> k in keys
  {
    var rest := m.Keys;
    values, keys := [], [];
    while rest != {}
      invariant rest <= m.Keys
      invariant |keys| == |values|
      invariant |keys| + |rest| == |m|
      invariant NoDuplicates(keys)
      invariant forall i :: 0 <= i < |keys| ==> keys[i] in m && keys[i] !in rest && values[i] == m[keys[i]]
      invariant forall k :: k in m ==> k in rest || k in keys
      decreases |rest|
    {
      var k :| k in rest;
      keys, values := keys + [k], values + [m[k]];
      rest := rest - {k};
    }
  }

  /** `GetAllUIFormConfigs`: one array slot per stored form, each stored config
      exactly once. */
  method GetAllUIFormConfigs(r: Registry) returns (configs: seq<UIFormConfig>, ghost names: seq<string>)
    ensures |configs| == |r.forms| == |names|
    ensures NoDuplicates(names) && forall k :: k in r.forms <==> k in names
    ensures forall i :: 0 <= i < |configs| ==> names[i] in r.forms && configs[i] == r.forms[names[i]]
    ensures forall i :: 0 <= i < |configs| ==> configs[i] in r.forms.Values
    ensures forall k :: k in r.forms ==> r.forms[k] in configs
  {
    configs, names := AllValues(r.forms);
    forall k | k in r.forms ensures r.forms[k] in configs {
      var i :| 0 <= i < |names| && names[i] == k;
      assert configs[i] == r.forms[k];
    }
  }

  method GetAllUIGroupConfigs(r: Registry) returns (configs: seq<UIGroupConfig>, ghost names: seq<string>)
    ensures |configs| == |r.groups| == |names|
    ensures NoDuplicates(names) && forall k :: k in r.groups <==> k in names
    ensures forall i :: 0 <= i < |configs| ==> names[i] in r.groups && configs[i] == r.groups[names[i]]
    ensures forall i :: 0 <= i < |configs| ==> configs[i] in r.groups.Values
    ensures forall k :: k in r.groups ==> r.groups[k] in configs
  {
    configs, names := AllValues(r.groups);
    forall k | k in r.groups ensures r.groups[k] in configs {
      var i :| 0 <= i < |names| && names[i] == k;
      assert configs[i] == r.groups[k];
    }
  }

  // ---- the interface contract ------------------------------------------------------

  /** After a successful add, the config is found by its name, and a later
      remove of that name reports success. */
  lemma AddThenFindForm(r: Registry, c: UIFormConfig)
    requires !IsNullOrEmpty(c.formName)
    ensures AddUIFormConfig(r, Some(c)).Success?
    ensures var r' := AddUIFormConfig(r, Some(c)).value;
      GetUIFormConfig(r', c.formName) == Some(c)
      && HasUIFormConfig(r', c.formName)
      && RemoveUIFormConfig(r', c.formName).0
      && !HasUIFormConfig(RemoveUIFormConfig(r', c.formName).1, c.formName)
  {
  }

  lemma AddThenFindGroup(r: Registry, c: UIGroupConfig)
    requires !IsNullOrEmpty(c.groupName)
    ensures AddUIGroupConfig(r, Some(c)).Success?
    ensures var r' := AddUIGroupConfig(r, Some(c)).value;
      GetUIGroupConfig(r', c.groupName) == Some(c)
      && HasUIGroupConfig(r', c.groupName)
      && RemoveUIGroupConfig(r', c.groupName).0
      && !HasUIGroupConfig(RemoveUIGroupConfig(r', c.groupName).1, c.groupName)
  {
  }

  /** Adding a config that was not stored and removing it again restores the
      registry. */
  lemma AddThenRemoveForm(r: Registry, c: UIFormConfig)
    requires !IsNullOrEmpty(c.formName) && c.formName.value !in r.forms
    ensures RemoveUIFormConfig(AddUIFormConfig(r, Some(c)).value, c.formName).1 == r
  {
    var r' := RemoveUIFormConfig(AddUIFormConfig(r, Some(c)).value, c.formName).1;
    assert r'.forms == r.forms;
  }

  lemma AddThenRemoveGroup(r: Registry, c: UIGroupConfig)
    requires !IsNullOrEmpty(c.groupName) && c.groupName.value !in r.groups
    ensures RemoveUIGroupConfig(AddUIGroupConfig(r, Some(c)).value, c.groupName).1 == r
  {
    var r' := RemoveUIGroupConfig(AddUIGroupConfig(r, Some(c)).value, c.groupName).1;
    assert r'.groups == r.groups;
  }

  /** `Has` answers exactly when `Get` finds something, for both maps. */
  lemma HasAgreesWithGet(r: Registry, name: Option<string>)
    ensures HasUIFormConfig(r, name) <==> GetUIFormConfig(r, name).Some?
    ensures HasUIGroupConfig(r, name) <==> GetUIGroupConfig(r, name).Some?
  {
  }

  /** Form operations never change what the group queries answer, and the
      other way round. */
  lemma FormsAndGroupsIndependent(r: Registry, f: Option<UIFormConfig>, g: Option<UIGroupConfig>, name: Option<string>, q: Option<string>)
    ensures AddUIFormConfig(r, f).Success? ==> GetUIGroupConfig(AddUIFormConfig(r, f).value, q) == GetUIGroupConfig(r, q)
    ensures GetUIGroupConfig(RemoveUIFormConfig(r, name).1, q) == GetUIGroupConfig(r, q)
    ensures AddUIGroupConfig(r, g).Success? ==> GetUIFormConfig(AddUIGroupConfig(r, g).value, q) == GetUIFormConfig(r, q)
    ensures GetUIFormConfig(RemoveUIGroupConfig(r, name).1, q) == GetUIFormConfig(r, q)
  {
  }

  /** After `ClearAllConfigs` nothing is found by any name. */
  lemma ClearedRegistryIsEmpty(r: Registry, name: Option<string>)
    ensures !HasUIFormConfig(ClearAllConfigs(r), name) && !HasUIGroupConfig(ClearAllConfigs(r), name)
    ensures GetUIFormConfig(ClearAllConfigs(r), name).None? && GetUIGroupConfig(ClearAllConfigs(r), name).None?
  {
  }
}

=== FILE: context_menu.dfy ===
/** The "设计" context menu (Editor/Tools/UIDesignerContextMenu.cs): the rule that
    recognises an existing UI script, the defaults of a new design, the
    variants a field name may appear under in the hierarchy, and the search
    for the GameObject a field refers to. */
module ContextMenu {
  import opened Wrappers
  import opened Strings
  import opened Seqs
  import opened Scene
  import opened Designer

  // ---- recognising a UI script --------------------------------------------------

  /** `IsUIScript`: some base type is named UIFormBase, or the name ends with
      "UI" or "Form" and the namespace mentions "UI", "Game" or "Examples". A
      base type whose full name is "UGF.GameFramework.UI.UIFormBase" has the
      short name UIFormBase, so the short-name test covers both tests of the
      base chain; unlike `is`, it accepts a UIFormBase of any namespace. */
  predicate IsUIScript(t: TypeInfo) {
    (exists k :: 0 <= k < |t.bases| && t.bases[k].name == FormBaseType)
    || ((EndsWith(t.name, "UI") || EndsWith(t.name, "Form"))
        && t.ns.Some?
        && (Contains(t.ns.value, "UI") || Contains(t.ns.value, "Game") || Contains(t.ns.value, "Examples")))
  }

  /** The components `RestoreDesignFromExistingScript` passes over. */
  predicate SkippedByScan(c: Component) {
    IsA(c, TransformKey) || IsA(c, RectTransformKey) || IsA(c, DesignerKey) || IsA(c, BinderKey)
  }

  /** The scan for an existing UI script: the first component, in order, that
      is not skipped and whose type is a UI script. */
  function FindUIScript(components: seq<Component>): (r: Option<Component>)
    ensures r.Some? ==> r.value in components && !SkippedByScan(r.value) && IsUIScript(r.value.ctype)
    ensures r.None? <==> forall i :: 0 <= i < |components| ==>
      SkippedByScan(components[i]) || !IsUIScript(components[i].ctype)
  {
    match FirstWhere(components, (c: Component) => !SkippedByScan(c) && IsUIScript(c.ctype))
    case None => None
    case Some(i) => Some(components[i])
  }

  // ---- the defaults of a new design ---------------------------------------------

  /** A character the default form name drops. */
  predicate IsStripped(c: char) {
    c == ' ' || c == '(' || c == ')'
  }

  /** The three `Replace` calls: the GameObject's name without spaces and
      parentheses. Only the stripped characters go, and the result is empty
      exactly when the name has nothing else. */
  function StripFormName(objectName: string): (n: string)
    ensures n == Filter(objectName, IsKeptInFormName)
    ensures forall c :: c in n ==> !IsStripped(c)
    ensures n == "" <==> forall c :: c in objectName ==> IsStripped(c)
  {
    var a := RemoveAll(objectName, " ");
    var b := RemoveAll(a, "(");
    RemoveAllIsFilter(objectName, ' ');
    RemoveAllIsFilter(a, '(');
    RemoveAllIsFilter(b, ')');
    FilterTwice(objectName, Except(' '), Except('('), NotSpaceOrOpen);
    FilterTwice(objectName, NotSpaceOrOpen, Except(')'), IsKeptInFormName);
    var n := RemoveAll(b, ")");
    assert n != "" ==> n[0] in objectName;
    n
  }

  /** What the default form name keeps, as function values for `Filter`. */
  function IsKeptInFormName(c: char): bool { !IsStripped(c) }
  function NotSpaceOrOpen(c: char): bool { c != ' ' && c != '(' }

  /** The default form name as the code computes it: the stripped name is
      stored, then read back through the `UIFormName` getter, which gives the
      GameObject's own name when the stored one is empty; "UI" is appended to
      what was read unless it already ends with it. */
  function DefaultFormName(objectName: string): (r: string)
    ensures EndsWith(r, "UI")
    ensures StripFormName(objectName) != "" ==> r == IntendedDefaultFormName(objectName)
    ensures StripFormName(objectName) == "" ==> r == objectName + "UI"
  {
    var n := StripFormName(objectName);
    var shown := if n == "" then objectName else n;
    assert n == "" && |objectName| > 0 ==> IsStripped(objectName[|objectName| - 1]);
    if EndsWith(shown, "UI") then n
    else
      var r := shown + "UI";
      assert r[|shown|..] == "UI";
      r
  }

  /** The rule evidently intended: the stripped name, with "UI" appended unless
      it already ends with it. The result never holds a space or a
      parenthesis. */
  function IntendedDefaultFormName(objectName: string): (r: string)
    ensures EndsWith(r, "UI")
    ensures forall c :: c in r ==> !IsStripped(c)
    ensures StripFormName(objectName) == "" ==> r == "UI"
  {
    var n := StripFormName(objectName);
    if EndsWith(n, "UI") then n
    else
      AppendUIKeepsUnstripped(n);
      n + "UI"
  }

  /** Appending "UI" to a name without stripped characters adds none. */
  lemma AppendUIKeepsUnstripped(n: string)
    requires forall c :: c in n ==> !IsStripped(c)
    ensures EndsWith(n + "UI", "UI")
    ensures forall c :: c in n + "UI" ==> !IsStripped(c)
  {
    var r := n + "UI";
    assert r[|n|..] == "UI";
    forall c | c in r ensures !IsStripped(c) {
      var i :| 0 <= i < |r| && r[i] == c;
      if i >= |n| {
        assert c == "UI"[i - |n|];
      } else {
        assert c == n[i];
      }
    }
  }

  /** A name made only of stripped characters keeps them: "()" becomes "()UI",
      not a valid class name, and applying the rule again gives "UI". */
  lemma StrippedOnlyNameKeepsThem()
    ensures DefaultFormName("()") == "()UI"
    ensures DefaultFormName(DefaultFormName("()")) == "UI"
  {
    OnlyStrippedIsEmpty();
    assert "()" + "UI" == "()UI";
    StripAfterOnlyStripped();
    assert IntendedDefaultFormName("()UI") == "UI" by {
      assert EndsWith("UI", "UI");
    }
  }

  lemma OnlyStrippedIsEmpty()
    ensures StripFormName("()") == ""
  {
    assert forall c :: c in "()" ==> c == '(' || c == ')';
  }

  lemma StripAfterOnlyStripped()
    ensures StripFormName("()UI") == "UI"
  {
    StripFormNameConcat("()", "UI", "()UI");
    OnlyStrippedIsEmpty();
    UIIsUnstripped();
  }

  lemma UIIsUnstripped()
    ensures StripFormName("UI") == "UI"
  {
    assert forall c :: c in "UI" ==> c == 'U' || c == 'I';
    StripFormNameOfUnstripped("UI");
  }

  /** The characters of a joined name are stripped piece by piece. */
  lemma StripFormNameConcat(a: string, b: string, ab: string)
    requires ab == a + b
    ensures StripFormName(ab) == StripFormName(a) + StripFormName(b)
  {
    FilterConcat(a, b, IsKeptInFormName);
  }

  /** The intended rule is idempotent: normalising a name it produced changes
      nothing. */
  lemma IntendedDefaultFormNameIdempotent(objectName: string)
    ensures IntendedDefaultFormName(IntendedDefaultFormName(objectName)) == IntendedDefaultFormName(objectName)
  {
    StripFormNameOfUnstripped(IntendedDefaultFormName(objectName));
  }

  /** A name without stripped characters is its own stripped form. */
  lemma StripFormNameOfUnstripped(n: string)
    requires forall c :: c in n ==> !IsStripped(c)
    ensures StripFormName(n) == n
  {
    assert forall i :: 0 <= i < |n| ==> n[i] in n;
    FilterAllKept(n, IsKeptInFormName);
  }

  /** As written, normalising a name the rule produced changes nothing as long
      as the GameObject's name has something besides spaces and parentheses. */
  lemma DefaultFormNameIdempotent(objectName: string)
    ensures StripFormName(objectName) != "" ==>
      DefaultFormName(DefaultFormName(objectName)) == DefaultFormName(objectName)
  {
    var r := IntendedDefaultFormName(objectName);
    IntendedDefaultFormNameIdempotent(objectName);
    if StripFormName(objectName) != "" {
      assert StripFormName(r) != "" by {
        assert r[0] in r && !IsStripped(r[0]);
      }
    }
  }

  /** The designer after `RestoreDesignFromExistingScript`: with a script, its
      name and namespace ("Game.UI" when it has none); without one, the default
      form name as the code computes it, "Game.UI" and an empty binding list.
      The stored name is free of spaces and parentheses (and is the intended
      rule's) only when the GameObject's name has something besides them;
      otherwise it is the GameObject's own name with "UI" appended. The
      bindings read from a script by reflection are not part of this model. */
  function RestoreDesign(d: UIDesigner, script: Option<TypeInfo>): (r: UIDesigner)
    ensures r.objectName == d.objectName && r.autoGenerateCode == d.autoGenerateCode
    ensures script.Some? ==> (r.uiFormName == script.value.name
      && r.namespaceName == script.value.ns.GetOr(DefaultNamespace) && r.bindings == d.bindings)
    ensures script.None? ==> (EndsWith(r.uiFormName, "UI")
      && r.namespaceName == DefaultNamespace && r.bindings == [])
    ensures script.None? && StripFormName(d.objectName) != "" ==>
      (forall c :: c in r.uiFormName ==> !IsStripped(c)) && r.uiFormName == IntendedDefaultFormName(d.objectName)
    ensures script.None? && StripFormName(d.objectName) == "" ==> r.uiFormName == d.objectName + "UI"
  {
    match script
    case Some(t) => d.(uiFormName := t.name, namespaceName := t.ns.GetOr(DefaultNamespace))
    case None => d.(uiFormName := DefaultFormName(d.objectName), namespaceName := DefaultNamespace, bindings := [])
  }

  /** Restoring "()" without a script stores "()UI", as the code does. */
  lemma RestoreStrippedOnlyName(d: UIDesigner)
    requires d.objectName == "()"
    ensures RestoreDesign(d, None).uiFormName == "()UI"
  {
    StrippedOnlyNameKeepsThem();
  }

  /** A logic class generated for the default design is recognised as a UI
      script by the next restore: the default name ends with "UI" and the
      default namespace mentions "UI". */
  lemma DefaultDesignIsRecognised(objectName: string, bases: seq<TypeKey>)
    ensures IsUIScript(TypeInfo(DefaultFormName(objectName), Some(DefaultNamespace), bases))
  {
    assert StartsWith(DefaultNamespace[5..], "UI");
    assert DefaultNamespace[5..] == DefaultNamespace[1..][4..];
    assert Contains(DefaultNamespace[5..], "UI");
    assert Contains(DefaultNamespace[4..], "UI");
    assert Contains(DefaultNamespace[3..], "UI");
    assert Contains(DefaultNamespace[2..], "UI");
    assert Contains(DefaultNamespace[1..], "UI");
  }

  // ---- name variants --------------------------------------------------------------

  const StrippedPrefixes: seq<string> := ["btn", "img", "txt", "lbl"]
  const StrippedSuffixes: seq<string> := ["Button", "Text", "Image", "Label", "Input", "Toggle", "Slider"]

  /** Longer than three characters, and the first three, lower-cased, are one
      of the stripped prefixes. */
  predicate HasStrippedPrefix(f: string) {
    |f| > 3 && ToLower(f[..3]) in StrippedPrefixes
  }

  /** The remainder after a stripped prefix, and that remainder lower-first. */
  function PrefixVariants(f: string): (r: seq<string>)
    ensures HasStrippedPrefix(f) ==> r == [f[3..], LowerFirst(f[3..])]
    ensures !HasStrippedPrefix(f) ==> r == []
  {
    if HasStrippedPrefix(f) then [f[3..], LowerFirst(f[3..])] else []
  }

  /** `f` ends with `suffix`, ignoring case, and has something in front of it. */
  predicate Strips(f: string, suffix: string) {
    EndsWithIgnoreCase(f, suffix) && |f| > |suffix|
  }

  /** `x` is what is in front of `suffix` when `f` strips it. */
  predicate StripsTo(f: string, suffix: string, x: string) {
    Strips(f, suffix) && x == f[..|f| - |suffix|]
  }

  /** What is in front of `suffix` when `f` strips it, and nothing otherwise. */
  function SuffixVariantOf(f: string): string -> Option<string> {
    suffix => if Strips(f, suffix) then Some(f[..|f| - |suffix|]) else None
  }

  /** For each suffix, in order, that `f` ends with ignoring case and that
      leaves something in front: what is in front. */
  function SuffixVariants(f: string, suffixes: seq<string>): (r: seq<string>)
    ensures |r| <= |suffixes|
  {
    Collect(suffixes, SuffixVariantOf(f))
  }

  /** Every variant comes from a suffix that strips. */
  lemma SuffixVariantFromSuffix(f: string, suffixes: seq<string>, i: nat)
    requires i < |SuffixVariants(f, suffixes)|
    ensures exists k :: 0 <= k < |suffixes| && StripsTo(f, suffixes[k], SuffixVariants(f, suffixes)[i])
  {
    CollectSound(suffixes, SuffixVariantOf(f), i);
    var k :| 0 <= k < |suffixes| && SuffixVariantOf(f)(suffixes[k]) == Some(SuffixVariants(f, suffixes)[i]);
    assert StripsTo(f, suffixes[k], SuffixVariants(f, suffixes)[i]);
  }

  /** Every suffix that strips gives its variant. */
  lemma SuffixVariantsComplete(f: string, suffixes: seq<string>, i: nat)
    requires i < |suffixes| && Strips(f, suffixes[i])
    ensures f[..|f| - |suffixes[i]|] in SuffixVariants(f, suffixes)
  {
    CollectComplete(suffixes, SuffixVariantOf(f), i);
  }

  /** The suffixes are tried in order: the variants for a joined list are those
      of each piece, in turn. */
  lemma SuffixVariantsConcat(f: string, a: seq<string>, b: seq<string>)
    ensures SuffixVariants(f, a + b) == SuffixVariants(f, a) + SuffixVariants(f, b)
  {
    CollectConcat(a, b, SuffixVariantOf(f));
  }

  /** One suffix contributes one variant when it strips, none otherwise. */
  lemma SuffixVariantsOne(f: string, suffix: string)
    ensures SuffixVariants(f, [suffix]) == if Strips(f, suffix) then [f[..|f| - |suffix|]] else []
  {
    CollectCons(suffix, [], SuffixVariantOf(f));
    assert [suffix] + [] == [suffix];
  }

  /** The variants in the order they are collected, repeats included. */
  function RawVariants(f: string): (r: seq<string>)
    ensures |r| > 0 && r[0] == f
    ensures |r| <= 12
  {
    Assemble(f, PrefixVariants(f), SuffixVariants(f, StrippedSuffixes))
  }

  /** The collection order of `GenerateNameVariants`: the field name, the
      prefix-stripped forms `p`, the suffix-stripped forms `s`, the
      upper-first form of a non-empty name and the lower-case form. */
  function Assemble(f: string, p: seq<string>, s: seq<string>): (r: seq<string>)
    ensures |r| == |p| + |s| + (if |f| > 0 then 3 else 2) && r[0] == f
    ensures forall x :: x in p ==> x in r
    ensures forall x :: x in s ==> x in r
    ensures ToLower(f) in r
    ensures |f| > 0 ==> UpperFirst(f) in r
  {
    [f] + p + s + (if |f| > 0 then [UpperFirst(f)] else []) + [ToLower(f)]
  }

  /** `GenerateNameVariants`: the collected variants, each once, at its first
      place; the field name itself comes first. */
  function GenerateNameVariants(f: string): (r: seq<string>)
    ensures |r| > 0 && r[0] == f
    ensures NoDuplicates(r)
    ensures |r| <= 12
    ensures forall x :: x in r ==> x in RawVariants(f)
    ensures forall x :: x in RawVariants(f) ==> x in r
  {
    Distinct(RawVariants(f))
  }

  /** What the variants include: the prefix-stripped forms, every
      suffix-stripped form, the upper-first form and the lower-case form. */
  lemma VariantsInclude(f: string)
    ensures ToLower(f) in GenerateNameVariants(f)
    ensures |f| > 0 ==> UpperFirst(f) in GenerateNameVariants(f)
    ensures HasStrippedPrefix(f) ==> f[3..] in GenerateNameVariants(f) && LowerFirst(f[3..]) in GenerateNameVariants(f)
    ensures forall i :: 0 <= i < |StrippedSuffixes| && Strips(f, StrippedSuffixes[i]) ==>
      f[..|f| - |StrippedSuffixes[i]|] in GenerateNameVariants(f)
  {
    LowerCaseIncluded(f);
    UpperFirstIncluded(f);
    PrefixStrippedIncluded(f);
    SuffixVariantsIncluded(f);
  }

  lemma LowerCaseIncluded(f: string)
    ensures ToLower(f) in GenerateNameVariants(f)
  {
    assert ToLower(f) in RawVariants(f);
  }

  lemma UpperFirstIncluded(f: string)
    ensures |f| > 0 ==> UpperFirst(f) in GenerateNameVariants(f)
  {
    assert |f| > 0 ==> UpperFirst(f) in RawVariants(f);
  }

  lemma PrefixStrippedIncluded(f: string)
    ensures HasStrippedPrefix(f) ==> f[3..] in GenerateNameVariants(f) && LowerFirst(f[3..]) in GenerateNameVariants(f)
  {
    if HasStrippedPrefix(f) {
      assert f[3..] in PrefixVariants(f) && LowerFirst(f[3..]) in PrefixVariants(f);
      assert f[3..] in RawVariants(f) && LowerFirst(f[3..]) in RawVariants(f);
    }
  }

  lemma SuffixVariantsIncluded(f: string)
    ensures forall i :: 0 <= i < |StrippedSuffixes| && Strips(f, StrippedSuffixes[i]) ==>
      f[..|f| - |StrippedSuffixes[i]|] in GenerateNameVariants(f)
  {
    forall i | 0 <= i < |StrippedSuffixes| && Strips(f, StrippedSuffixes[i])
      ensures f[..|f| - |StrippedSuffixes[i]|] in GenerateNameVariants(f)
    {
      SuffixVariantIncluded(f, i);
    }
  }

  /** The form a stripping suffix leaves is among the name variants. */
  lemma SuffixVariantIncluded(f: string, i: nat)
    requires i < |StrippedSuffixes| && Strips(f, StrippedSuffixes[i])
    ensures f[..|f| - |StrippedSuffixes[i]|] in GenerateNameVariants(f)
  {
    var x := f[..|f| - |StrippedSuffixes[i]|];
    SuffixVariantsComplete(f, StrippedSuffixes, i);
    assert x in RawVariants(f);
  }

  /** The variants keep the order in which they were first collected. */
  lemma VariantsKeepCollectionOrder(f: string)
    ensures forall i, j :: 0 <= i < j < |GenerateNameVariants(f)| ==>
      FirstIndex(RawVariants(f), GenerateNameVariants(f)[i]) < FirstIndex(RawVariants(f), GenerateNameVariants(f)[j])
  {
    DistinctKeepsFirstOccurrenceOrder(RawVariants(f));
  }

  // ---- the hierarchy search -------------------------------------------------------

  /** The name equals one of the variants, ignoring case. */
  predicate MatchesAny(name: string, variants: seq<string>) {
    exists i :: 0 <= i < |variants| && EqualsIgnoreCase(name, variants[i])
  }

  /** The first element of `list` whose name matches a variant. */
  function FirstMatching(list: seq<GameObject>, variants: seq<string>): (r: Option<GameObject>)
    ensures r.Some? ==> r.value in list && MatchesAny(r.value.name, variants)
    ensures r.None? <==> forall i :: 0 <= i < |list| ==> !MatchesAny(list[i].name, variants)
  {
    if list == [] then None
    else if MatchesAny(list[0].name, variants) then Some(list[0])
    else
      var r := FirstMatching(list[1..], variants);
      assert forall i :: 1 <= i < |list| ==> list[i] == list[1..][i - 1];
      r
  }

  lemma {:induction false} FirstMatchingConcat(a: seq<GameObject>, b: seq<GameObject>, variants: seq<string>)
    ensures FirstMatching(a + b, variants)
         == if FirstMatching(a, variants).Some? then FirstMatching(a, variants) else FirstMatching(b, variants)
  {
    if a != [] {
      assert (a + b)[1..] == a[1..] + b;
      FirstMatchingConcat(a[1..], b, variants);
    } else {
      assert a + b == b;
    }
  }

  /** The loop of `FindGameObjectRecursive` over a list of siblings: test the
      sibling, then search below it, then go on with the next sibling. */
  function FindInChildren(children: seq<GameObject>, variants: seq<string>): (r: Option<GameObject>)
    ensures r.Some? ==> MatchesAny(r.value.name, variants)
    decreases children
  {
    if children == [] then None
    else if MatchesAny(children[0].name, variants) then Some(children[0])
    else match FindInChildren(children[0].children, variants)
      case Some(g) => Some(g)
      case None => FindInChildren(children[1..], variants)
  }

  /** `FindGameObjectRecursive`: the search below `parent`. */
  function FindGameObjectRecursive(parent: GameObject, variants: seq<string>): (r: Option<GameObject>)
    ensures r.Some? ==> MatchesAny(r.value.name, variants) && r.value in Below(parent.children)
    ensures r.None? <==> forall i :: 0 <= i < |Below(parent.children)| ==> !MatchesAny(Below(parent.children)[i].name, variants)
    ensures r == FirstMatching(Below(parent.children), variants)
  {
    FindIsPreorderFirstMatch(parent.children, variants);
    FindInChildren(parent.children, variants)
  }

  /** The search returns the first match of the pre-order listing. */
  lemma {:induction false} FindIsPreorderFirstMatch(children: seq<GameObject>, variants: seq<string>)
    ensures FindInChildren(children, variants) == FirstMatching(Below(children), variants)
    decreases children
  {
    if children != [] {
      var c := children[0];
      FindIsPreorderFirstMatch(c.children, variants);
      FindIsPreorderFirstMatch(children[1..], variants);
      var tail := Below(c.children) + Below(children[1..]);
      assert Below(children) == [c] + tail;
      assert ([c] + tail)[1..] == tail;
      FirstMatchingConcat(Below(c.children), Below(children[1..]), variants);
    }
  }

  /** The number of GameObjects in a tree. */
  function Size(obj: GameObject): (n: nat)
    ensures n >= 1
    decreases obj
  {
    1 + SizeAll(obj.children)
  }

  function SizeAll(children: seq<GameObject>): nat
    decreases children
  {
    if children == [] then 0 else Size(children[0]) + SizeAll(children[1..])
  }

  lemma {:induction false} BelowIsSmaller(children: seq<GameObject>)
    ensures forall i :: 0 <= i < |Below(children)| ==> Size(Below(children)[i]) <= SizeAll(children)
    decreases children
  {
    if children != [] {
      var c := children[0];
      BelowIsSmaller(c.children);
      BelowIsSmaller(children[1..]);
      var l := Below(children);
      var a, b := Below(c.children), Below(children[1..]);
      assert l == [c] + a + b;
      forall i | 0 <= i < |l| ensures Size(l[i]) <= SizeAll(children) {
        if i == 0 {
        } else if i <= |a| {
          assert l[i] == a[i - 1];
        } else {
          assert l[i] == b[i - 1 - |a|];
        }
      }
    }
  }

  /** The search never returns the GameObject it starts from. */
  lemma NeverReturnsRoot(parent: GameObject, variants: seq<string>)
    ensures FindGameObjectRecursive(parent, variants) != Some(parent)
  {
    var r := FindGameObjectRecursive(parent, variants);
    if r.Some? {
      BelowIsSmaller(parent.children);
      var k :| 0 <= k < |Below(parent.children)| && Below(parent.children)[k] == r.value;
      assert Size(r.value) <= SizeAll(parent.children) < Size(parent);
    }
  }

  /** The direct-child pass of `FindGameObjectByFieldName`: the variants in
      order, each looked up as the exact name of a direct child. The result is
      the variant's index and the child's index. */
  function DirectChildMatch(children: seq<GameObject>, variants: seq<string>): (r: Option<(nat, nat)>)
    ensures r.Some? ==> (r.value.0 < |variants| && r.value.1 < |children|
      && children[r.value.1].name == variants[r.value.0])
    ensures r.Some? ==> forall j :: 0 <= j < r.value.1 ==> children[j].name != variants[r.value.0]
    ensures r.Some? ==> forall v, j :: 0 <= v < r.value.0 && 0 <= j < |children| ==> children[j].name != variants[v]
    ensures r.None? <==> forall v, j :: 0 <= v < |variants| && 0 <= j < |children| ==> children[j].name != variants[v]
    decreases |variants|
  {
    if variants == [] then None
    else match FirstWhere(children, (c: GameObject) => c.name == variants[0])
      case Some(j) => Some((0, j))
      case None =>
        match DirectChildMatch(children, variants[1..])
        case None => None
        case Some(p) => Some((p.0 + 1, p.1))
  }

  /** `FindGameObjectByFieldName`: a direct child named exactly like a variant,
      tried variant by variant; failing that, the case-insensitive search. */
  function FindGameObjectByFieldName(root: GameObject, fieldName: string): (r: Option<GameObject>)
    ensures var vs := GenerateNameVariants(fieldName);
      r.Some? ==> MatchesAny(r.value.name, vs) && r.value in Below(root.children)
    ensures var m := DirectChildMatch(root.children, GenerateNameVariants(fieldName));
      m.Some? ==> r == Some(root.children[m.value.1])
    ensures var vs := GenerateNameVariants(fieldName);
      DirectChildMatch(root.children, vs).None? ==> r == FindGameObjectRecursive(root, vs)
    ensures var vs := GenerateNameVariants(fieldName);
      r.None? <==> forall i :: 0 <= i < |Below(root.children)| ==> !MatchesAny(Below(root.children)[i].name, vs)
  {
    var vs := GenerateNameVariants(fieldName);
    match DirectChildMatch(root.children, vs)
    case Some(p) =>
      var c := root.children[p.1];
      assert EqualsIgnoreCase(c.name, vs[p.0]);
      assert Below(root.children)[0] == root.children[0];
      DirectChildIsBelow(root.children, p.1);
      Some(c)
    case None =>
      FindGameObjectRecursive(root, vs)
  }

  lemma {:induction false} DirectChildIsBelow(children: seq<GameObject>, j: nat)
    requires j < |children|
    ensures children[j] in Below(children)
    decreases children
  {
    if j > 0 {
      DirectChildIsBelow(children[1..], j - 1);
    }
  }

  /** A direct child named exactly like the field wins: the first such child
      is returned, even when a GameObject met earlier in the case-insensitive
      search would also match. */
  lemma ExactChildNameWins(root: GameObject, fieldName: string, j: nat)
    requires j < |root.children| && root.children[j].name == fieldName
    requires forall k :: 0 <= k < j ==> root.children[k].name != fieldName
    ensures FindGameObjectByFieldName(root, fieldName) == Some(root.children[j])
  {
    var vs := GenerateNameVariants(fieldName);
    assert vs[0] == fieldName;
    var m := DirectChildMatch(root.children, vs);
    assert m.Some?;
    assert m.value.0 == 0;
    assert m.value.1 == j;
  }
}

=== FILE: designer.dfy ===
/** The UIDesigner component on a form's root GameObject and the
    UIComponentBinding records it keeps (Runtime/Core/UIDesigner.cs). */
module Designer {
  import opened Wrappers
  import opened Strings
  import opened Seqs
  import opened Scene

  const DefaultNamespace: string := "Game.UI"

  /** One binding: the variable name, the bound component (null allowed), the
      component's type name and a free-text description. */
  datatype Binding = Binding(componentName: string, component: Option<Component>, componentType: string, description: string)

  /** A binding as its field initialisers leave it. */
  const EmptyBinding: Binding := Binding("", None, "", "")

  /** The designer's serialized fields plus the name of the GameObject it sits on.
      A null string field behaves as "" everywhere it is read. */
  datatype UIDesigner = UIDesigner(
    uiFormName: string,
    namespaceName: string,
    autoGenerateCode: bool,
    bindings: seq<Binding>,
    objectName: string)

  /** A freshly added designer: field initialisers only. */
  function NewDesigner(objectName: string): (d: UIDesigner)
    ensures d.uiFormName == "" && d.namespaceName == "" && d.autoGenerateCode
    ensures d.bindings == [] && d.objectName == objectName
  {
    UIDesigner("", "", true, [], objectName)
  }

  /** The form name: the stored one, or the GameObject's name when none is stored. */
  function UIFormName(d: UIDesigner): (r: string)
    ensures d.uiFormName != "" ==> r == d.uiFormName
    ensures d.uiFormName == "" ==> r == d.objectName
    ensures r == "" <==> d.uiFormName == "" && d.objectName == ""
  {
    if d.uiFormName == "" then d.objectName else d.uiFormName
  }

  /** The namespace: the stored one, or "Game.UI"; never empty. */
  function NamespaceName(d: UIDesigner): (r: string)
    ensures r != ""
    ensures d.namespaceName != "" ==> r == d.namespaceName
    ensures d.namespaceName == "" ==> r == DefaultNamespace
  {
    if d.namespaceName == "" then DefaultNamespace else d.namespaceName
  }

  /** Writing the form name and reading it back gives the written name, unless
      the written name is empty, in which case the fallback shows through. */
  lemma FormNameSetGet(d: UIDesigner, name: string)
    ensures name != "" ==> UIFormName(d.(uiFormName := name)) == name
    ensures name == "" ==> UIFormName(d.(uiFormName := name)) == d.objectName
  {
  }

  /** Class name of the generated binding partial class. */
  function GetBindingClassName(d: UIDesigner): (r: string)
    ensures EndsWith(r, "Binding")
    ensures r[..|r| - |"Binding"|] == GetLogicClassName(d)
  {
    UIFormName(d) + "Binding"
  }

  /** Class name of the generated logic class: the form name itself. */
  function GetLogicClassName(d: UIDesigner): (r: string)
    ensures r == "" <==> d.uiFormName == "" && d.objectName == ""
  {
    UIFormName(d)
  }

  /** The designer's own settings check. The namespace test can never fail
      because of the "Game.UI" fallback, so the verdict hangs on the form name. */
  function ValidateSettings(d: UIDesigner): (ok: bool)
    ensures ok <==> UIFormName(d) != ""
    ensures ok <==> d.uiFormName != "" || d.objectName != ""
  {
    if UIFormName(d) == "" then false
    else if NamespaceName(d) == "" then false
    else true
  }

  // ---- the binding list ------------------------------------------------------
  // The list holds references: `T` is the reference type and `==` on it is
  // reference equality, as `List<T>.Contains` and `List<T>.Remove` use it.

  /** `AddComponentBinding`: appends a non-null binding the list does not hold yet. */
  function AddComponentBinding<T(==)>(list: seq<T>, binding: Option<T>): (r: seq<T>)
    ensures |list| <= |r| <= |list| + 1
    ensures r[..|list|] == list
    ensures binding.Some? ==> binding.value in r
    ensures |r| == |list| + 1 <==> binding.Some? && binding.value !in list
    ensures |r| == |list| + 1 ==> r[|list|] == binding.value
    ensures NoDuplicates(list) ==> NoDuplicates(r)
  {
    if binding.Some? && binding.value !in list then list + [binding.value] else list
  }

  /** `List<T>.Remove`: drops the first occurrence only. */
  function RemoveFirst<T(==)>(list: seq<T>, x: T): (r: seq<T>)
    ensures x !in list ==> r == list
    ensures x in list ==> |r| == |list| - 1
  {
    if list == [] then []
    else if list[0] == x then list[1..]
    else [list[0]] + RemoveFirst(list[1..], x)
  }

  /** What `RemoveFirst` removes is the first occurrence: the elements before it
      and after it stay, in order. */
  lemma {:induction false} RemoveFirstCutsFirstOccurrence<T>(list: seq<T>, x: T, i: nat)
    requires i < |list| && list[i] == x
    requires forall j :: 0 <= j < i ==> list[j] != x
    ensures RemoveFirst(list, x) == list[..i] + list[i + 1..]
  {
    if i == 0 {
      assert list[..0] + list[1..] == list[1..];
    } else {
      var t := list[1..];
      assert list[0] != x;
      assert RemoveFirst(list, x) == [list[0]] + RemoveFirst(t, x);
      RemoveFirstCutsFirstOccurrence(t, x, i - 1);
      assert list[..i] == [list[0]] + t[..i - 1];
      assert list[i + 1..] == t[i..];
    }
  }

  /** `RemoveComponentBinding`: a no-op for null, else removes the first
      occurrence and keeps everything else in order. */
  function RemoveComponentBinding<T(==)>(list: seq<T>, binding: Option<T>): (r: seq<T>)
    ensures binding.None? || binding.value !in list ==> r == list
    ensures binding.Some? && binding.value in list ==>
      var i := FirstIndex(list, binding.value);
      |r| == |list| - 1 && r == list[..i] + list[i + 1..]
  {
    if binding.None? then list
    else if binding.value !in list then list
    else
      RemoveFirstCutsFirstOccurrence(list, binding.value, FirstIndex(list, binding.value));
      RemoveFirst(list, binding.value)
  }

  /** Removing a binding that was just added restores the list. */
  lemma AddThenRemove<T>(list: seq<T>, binding: T)
    requires binding !in list
    ensures RemoveComponentBinding(AddComponentBinding(list, Some(binding)), Some(binding)) == list
  {
    var l := list + [binding];
    assert FirstIndex(l, binding) == |list|;
    assert l[..|list|] == list;
  }

  /** Adding the same binding twice is the same as adding it once. */
  lemma AddIdempotent<T>(list: seq<T>, binding: Option<T>)
    ensures AddComponentBinding(AddComponentBinding(list, binding), binding)
         == AddComponentBinding(list, binding)
  {
  }

  /** `ClearComponentBindings`: the list becomes empty, nothing else changes. */
  function ClearComponentBindings(d: UIDesigner): (r: UIDesigner)
    ensures r.bindings == []
    ensures r.(bindings := d.bindings) == d
  {
    d.(bindings := [])
  }

  // ---- one binding -----------------------------------------------------------

  /** The `Component` setter: stores the reference and, when it is not null,
      records that component's type name; null leaves the type name alone. */
  function SetComponent(b: Binding, c: Option<Component>): (r: Binding)
    ensures r.component == c
    ensures c.Some? ==> r.componentType == c.value.TypeName()
    ensures c.None? ==> r.componentType == b.componentType
    ensures r.componentName == b.componentName && r.description == b.description
  {
    var b' := b.(component := c);
    if c.Some? then b'.(componentType := c.value.TypeName()) else b'
  }

  /** `IsValid`: a name, a type name and a component. */
  predicate IsValid(b: Binding) {
    b.componentName != "" && b.componentType != "" && b.component.Some?
  }

  /** Binding a component whose type has a name to a named binding makes it valid. */
  lemma SetComponentMakesValid(b: Binding, c: Component)
    requires b.componentName != "" && c.TypeName() != ""
    ensures IsValid(SetComponent(b, Some(c)))
  {
  }

  /** Binding null never makes a binding valid. */
  lemma SetNullInvalidates(b: Binding)
    ensures !IsValid(SetComponent(b, None))
  {
  }

  /** The generated field is named after the binding itself. */
  function FieldName(b: Binding): string {
    b.componentName
  }

  const FieldPrefix: string := "[SerializeField] private "

  /** `GetSerializedFieldDeclaration`. */
  function GetSerializedFieldDeclaration(b: Binding): (r: string)
    ensures r == "" <==> !IsValid(b)
    ensures IsValid(b) ==> StartsWith(r, FieldPrefix) && EndsWith(r, ";")
    ensures IsValid(b) ==> r == FieldPrefix + b.componentType + " " + b.componentName + ";"
  {
    if !IsValid(b) then "" else FieldPrefix + b.componentType + " " + FieldName(b) + ";"
  }

  predicate IsSpace(c: char) {
    c == ' '
  }

  /** Reads a field declaration back into (type, name): the text between the
      fixed prefix and the final ';', split at its first space. */
  function ParseFieldDeclaration(s: string): (r: Option<(string, string)>)
  {
    if !(StartsWith(s, FieldPrefix) && |s| > |FieldPrefix| && s[|s| - 1] == ';') then None
    else
      var body := s[|FieldPrefix|..|s| - 1];
      match FirstWhere(body, IsSpace)
      case None => None
      case Some(i) => Some((body[..i], body[i + 1..]))
  }

  /** The emitted field declaration names the binding's type and field, so that
      reading it back recovers both (type names carry no spaces). */
  lemma FieldDeclarationRoundTrip(b: Binding)
    requires IsValid(b)
    requires ' ' !in b.componentType
    ensures ParseFieldDeclaration(GetSerializedFieldDeclaration(b)) == Some((b.componentType, b.componentName))
  {
    var body := b.componentType + " " + b.componentName;
    assert GetSerializedFieldDeclaration(b) == FieldPrefix + body + ";";
    FramedBody(body);
    FirstSpaceAfter(b.componentType, b.componentName);
    assert body[..|b.componentType|] == b.componentType;
    assert body[|b.componentType| + 1..] == b.componentName;
  }

  lemma FramedBody(body: string)
    ensures var s := FieldPrefix + body + ";";
      StartsWith(s, FieldPrefix) && |s| > |FieldPrefix| && s[|s| - 1] == ';' && s[|FieldPrefix|..|s| - 1] == body
  {
    var s := FieldPrefix + body + ";";
    assert s[..|FieldPrefix|] == FieldPrefix;
    assert s[|FieldPrefix|..|s| - 1] == body;
  }

  lemma FirstSpaceAfter(t: string, n: string)
    requires ' ' !in t
    ensures FirstWhere(t + " " + n, IsSpace) == Some(|t|)
  {
    var body := t + " " + n;
    assert IsSpace(body[|t|]);
    assert forall j :: 0 <= j < |t| ==> body[j] == t[j];
  }

  /** The property name: the binding name with its first character upper-cased. */
  function PropertyName(b: Binding): (r: string)
    ensures |r| == |b.componentName|
    ensures |r| > 0 ==> !IsAsciiLower(r[0]) && r[1..] == b.componentName[1..]
    ensures |r| > 0 ==> r[0] == ToUpperChar(b.componentName[0])
  {
    UpperFirst(b.componentName)
  }

  /** `GetPropertyDeclaration`: a read-only property forwarding to the field. */
  function GetPropertyDeclaration(b: Binding): (r: string)
    ensures r == "" <==> !IsValid(b)
    ensures IsValid(b) ==> r == "public " + b.componentType + " " + PropertyName(b) + " => " + FieldName(b) + ";"
  {
    if !IsValid(b) then ""
    else "public " + b.componentType + " " + PropertyName(b) + " => " + FieldName(b) + ";"
  }

  /** The property and the field it forwards to differ exactly when the binding
      name starts with a lower-case ASCII letter; a name that starts otherwise
      yields a property with the field's own name. */
  lemma PropertyDiffersFromField(b: Binding)
    requires IsValid(b)
    ensures PropertyName(b) != FieldName(b) <==> IsAsciiLower(b.componentName[0])
  {
    var p := PropertyName(b);
    if !IsAsciiLower(b.componentName[0]) {
      assert p == [p[0]] + p[1..] && b.componentName == [b.componentName[0]] + b.componentName[1..];
    } else {
      assert p[0] != b.componentName[0];
    }
  }

  /** `GetBindingCode`: a comment naming the binding and its field. */
  function GetBindingCode(b: Binding): (r: string)
    ensures r == "" <==> !IsValid(b)
    ensures IsValid(b) ==> StartsWith(r, "// " + b.componentName + " ")
    ensures IsValid(b) ==> EndsWith(r, FieldName(b) + " 直接引用")
  {
    if !IsValid(b) then ""
    else
      var tail := FieldName(b) + " 直接引用";
      var r := "// " + b.componentName + " 通过序列化字段 " + tail;
      assert r[|r| - |tail|..] == tail;
      r
  }
}

=== FILE: designer_editor.dfy ===
/** The bookkeeping of the UIDesigner inspector (Editor/Inspectors/UIDesignerEditor.cs):
    variable names for new bindings, keeping the binding list in step with the
    UIComponentBinders of the form, the settings check, and the two-step
    "generate code, then save" workflow. */
module DesignerEditor {
  import opened Wrappers
  import opened Strings
  import opened Seqs
  import opened Scene
  import opened Designer
  import opened Binder

  // ---- variable names ----------------------------------------------------------

  /** The GameObject's name with every "UI", then every "ui", deleted and then
      every character outside [a-zA-Z0-9] dropped. */
  function CleanObjectName(name: string): (r: string)
    ensures |r| <= |name|
    ensures forall i :: 0 <= i < |r| ==> IsAsciiLetterOrDigit(r[i])
  {
    Filter(RemoveAll(RemoveAll(name, "UI"), "ui"), IsAsciiLetterOrDigit)
  }

  /** A name made of letters and digits only, holding neither "UI" nor "ui",
      passes through the cleaning untouched. */
  lemma CleanKeepsPlainName(name: string)
    requires forall i :: 0 <= i < |name| ==> IsAsciiLetterOrDigit(name[i])
    requires !Contains(name, "UI") && !Contains(name, "ui")
    ensures CleanObjectName(name) == name
  {
    FilterAllKept(name, IsAsciiLetterOrDigit);
  }

  /** "UI" is cut out where it first occurs and the letters around it are
      kept: `u + "UI" + v` cleans to `u + v` when both are plain letters and
      digits, no "UI" starts before the cut one and none is left after it, and
      no "ui" is left in what remains. */
  lemma CleanCutsUI(u: string, v: string)
    requires forall i :: 0 <= i < |u + v| ==> IsAsciiLetterOrDigit((u + v)[i])
    requires forall k :: 0 <= k < |u| ==> !StartsAt(u + "UI", "UI", k)
    requires !Contains(v, "UI") && !Contains(u + v, "ui")
    ensures CleanObjectName(u + "UI" + v) == u + v
  {
    RemoveAllFirstOccurrence(u, "UI", v);
    FilterAllKept(u + v, IsAsciiLetterOrDigit);
  }

  /** The name before uniqueness is enforced: the cleaned GameObject name, then
      the component's type name, with the first character lower-cased. */
  function BaseVariableName(c: Component): (r: string)
    ensures |r| == |CleanObjectName(c.owner)| + |c.TypeName()|
    ensures |r| > 0 ==> !IsAsciiUpper(r[0])
    ensures CleanObjectName(c.owner) != "" ==> EndsWith(r, c.TypeName())
    ensures CleanObjectName(c.owner) == "" ==> r == LowerFirst(c.TypeName())
    ensures var full := CleanObjectName(c.owner) + c.TypeName();
      |full| > 0 ==> r[0] == ToLowerChar(full[0]) && r[1..] == full[1..]
  {
    var s := CleanObjectName(c.owner) + c.TypeName();
    var r := LowerFirst(s);
    assert CleanObjectName(c.owner) != "" ==> r[|r| - |c.TypeName()|..] == s[|s| - |c.TypeName()|..];
    r
  }

  /** The names the bindings carry, in list order. */
  function Names(bindings: seq<Binding>): (r: seq<string>)
    ensures |r| == |bindings|
    ensures forall i :: 0 <= i < |r| ==> r[i] == bindings[i].componentName
  {
    seq(|bindings|, i requires 0 <= i < |bindings| => bindings[i].componentName)
  }

  /** `IsVariableNameExists`: some binding already carries the name. */
  predicate IsVariableNameExists(bindings: seq<Binding>, name: string) {
    name in Names(bindings)
  }

  /** The `counter`-th name `EnsureUniqueVariableName` tries: the base name
      itself first, then the base name followed by 1, 2, 3, … */
  function Candidate(base: string, counter: nat): string {
    if counter == 0 then base else base + Dec(counter)
  }

  /** Different counters give different candidates. */
  lemma CandidateInjective(base: string, j: nat, k: nat)
    requires Candidate(base, j) == Candidate(base, k)
    ensures j == k
  {
    if j > 0 && k > 0 {
      assert (base + Dec(j))[|base|..] == Dec(j);
      assert (base + Dec(k))[|base|..] == Dec(k);
      DecInjective(j, k);
    }
  }

  ghost function Pool(existing: seq<string>): set<string> {
    set s | s in existing
  }

  ghost function Tried(base: string, k: nat): set<string> {
    set j | 0 <= j < k :: Candidate(base, j)
  }

  /** The first `k` candidates are all taken. */
  predicate AllTaken(base: string, existing: seq<string>, k: nat) {
    forall j :: 0 <= j < k ==> Candidate(base, j) in existing
  }

  lemma AllTakenStep(base: string, existing: seq<string>, k: nat)
    requires AllTaken(base, existing, k) && Candidate(base, k) in existing
    ensures AllTaken(base, existing, k + 1)
  {
  }

  /** Each taken candidate leaves one name fewer of `existing` untried. */
  lemma ProbeStep(base: string, existing: seq<string>, k: nat)
    requires Candidate(base, k) in existing
    ensures |Pool(existing) - Tried(base, k + 1)| < |Pool(existing) - Tried(base, k)|
  {
    var x := Candidate(base, k);
    forall j | 0 <= j < k ensures Candidate(base, j) != x {
      if Candidate(base, j) == x { CandidateInjective(base, j, k); }
    }
    assert x !in Tried(base, k);
    assert Tried(base, k + 1) == Tried(base, k) + {x};
    var before, after := Pool(existing) - Tried(base, k), Pool(existing) - Tried(base, k + 1);
    assert before == after + {x};
    assert x !in after;
  }

  /** The counter at which the probe from `k` stops: the first candidate, from
      the `k`-th on, that no binding carries. */
  function UniqueCounterFrom(base: string, existing: seq<string>, k: nat): (r: nat)
    requires AllTaken(base, existing, k)
    ensures k <= r
    ensures Candidate(base, r) !in existing
    ensures AllTaken(base, existing, r)
    decreases |Pool(existing) - Tried(base, k)|
  {
    if Candidate(base, k) !in existing then k
    else
      ProbeStep(base, existing, k);
      AllTakenStep(base, existing, k);
      UniqueCounterFrom(base, existing, k + 1)
  }

  /** The counter `EnsureUniqueVariableName` ends with (0 = the base name). */
  function UniqueCounter(base: string, existing: seq<string>): (r: nat)
    ensures Candidate(base, r) !in existing
    ensures AllTaken(base, existing, r)
  {
    UniqueCounterFrom(base, existing, 0)
  }

  /** `EnsureUniqueVariableName`: the base name when it is free, otherwise the
      base name with the smallest positive number that makes it free. */
  function UniqueVariableName(base: string, existing: seq<string>): (r: string)
    ensures r !in existing
    ensures base !in existing ==> r == base
    ensures base in existing ==> StartsWith(r, base) && |r| > |base|
    ensures r == Candidate(base, UniqueCounter(base, existing))
  {
    Candidate(base, UniqueCounter(base, existing))
  }

  /** A counter that stops at a free candidate after only taken ones is the
      counter: the stopping point is unique. */
  lemma UniqueCounterIsFirstFree(base: string, existing: seq<string>, n: nat)
    requires Candidate(base, n) !in existing
    requires AllTaken(base, existing, n)
    ensures UniqueCounter(base, existing) == n
  {
  }

  lemma {:induction false} TriedSize(base: string, k: nat)
    ensures |Tried(base, k)| == k
  {
    if k > 0 {
      TriedSize(base, k - 1);
      var x := Candidate(base, k - 1);
      forall j | 0 <= j < k - 1 ensures Candidate(base, j) != x {
        if Candidate(base, j) == x { CandidateInjective(base, j, k - 1); }
      }
      assert Tried(base, k) == Tried(base, k - 1) + {x};
    }
  }

  lemma {:induction false} PoolSize(existing: seq<string>)
    ensures |Pool(existing)| <= |existing|
  {
    if existing != [] {
      var p := existing[..|existing| - 1];
      PoolSize(p);
      assert existing == p + [existing[|existing| - 1]];
      assert Pool(existing) == Pool(p) + {existing[|existing| - 1]};
    }
  }

  lemma SubsetSize<T>(a: set<T>, b: set<T>)
    requires a <= b
    ensures |a| <= |b|
  {
    assert b == a + (b - a);
    assert a * (b - a) == {};
  }

  /** The counter never runs past the number of names already taken. */
  lemma UniqueCounterBound(base: string, existing: seq<string>)
    ensures UniqueCounter(base, existing) <= |existing|
  {
    var n := UniqueCounter(base, existing);
    TriedSize(base, n);
    PoolSize(existing);
    assert Tried(base, n) <= Pool(existing);
    SubsetSize(Tried(base, n), Pool(existing));
  }

  /** The `while (IsVariableNameExists(uniqueName))` loop of
      `EnsureUniqueVariableName`. */
  method EnsureUniqueVariableName(base: string, existing: seq<string>) returns (name: string)
    ensures name !in existing
    ensures name == UniqueVariableName(base, existing)
  {
    name := base;
    var counter: nat := 1;
    ghost var tried: nat := 0;
    while name in existing
      invariant counter == tried + 1
      invariant name == Candidate(base, tried)
      invariant AllTaken(base, existing, tried)
      decreases |Pool(existing) - Tried(base, tried)|
    {
      ProbeStep(base, existing, tried);
      AllTakenStep(base, existing, tried);
      name := Candidate(base, counter);
      counter := counter + 1;
      tried := tried + 1;
    }
    UniqueCounterIsFirstFree(base, existing, tried);
  }

  /** `GenerateVariableName`: the base name made unique among the names the
      bindings already carry. */
  function GenerateVariableName(c: Component, bindings: seq<Binding>): (r: string)
    ensures !IsVariableNameExists(bindings, r)
    ensures !IsVariableNameExists(bindings, BaseVariableName(c)) ==> r == BaseVariableName(c)
    ensures StartsWith(r, BaseVariableName(c))
  {
    UniqueVariableName(BaseVariableName(c), Names(bindings))
  }

  // ---- adding bindings ---------------------------------------------------------

  /** The component each binding holds, in list order. */
  function BoundComponents(bindings: seq<Binding>): (r: seq<Option<Component>>)
    ensures |r| == |bindings|
    ensures forall i :: 0 <= i < |r| ==> r[i] == bindings[i].component
  {
    seq(|bindings|, i requires 0 <= i < |bindings| => bindings[i].component)
  }

  /** The binding created for a component that is not bound yet. */
  function NewBinding(bindings: seq<Binding>, c: Component): (b: Binding)
    ensures b.component == Some(c) && b.componentType == c.TypeName() && b.description == ""
    ensures b.componentName !in Names(bindings)
  {
    Binding(GenerateVariableName(c, bindings), Some(c), c.TypeName(), "")
  }

  /** The fields of a binding the editor appended for one of `comps`. */
  predicate AddedFor(b: Binding, comps: seq<Component>) {
    b.component.Some? && b.component.value in comps
    && b.componentType == b.component.value.TypeName() && b.description == ""
  }

  /** One step of `AddComponentsToBindings`: a component already bound is
      skipped, any other gets a new binding at the end. */
  function AddOne(bindings: seq<Binding>, c: Component): (r: seq<Binding>)
    ensures Some(c) in BoundComponents(r)
    ensures Some(c) in BoundComponents(bindings) <==> r == bindings
    ensures Some(c) !in BoundComponents(bindings) ==> r == bindings + [NewBinding(bindings, c)]
  {
    if Some(c) in BoundComponents(bindings) then bindings
    else
      var r := bindings + [NewBinding(bindings, c)];
      assert BoundComponents(r)[|bindings|] == Some(c);
      r
  }

  /** One step keeps the names, and the bound components, free of repeats. */
  lemma AddOneKeepsUniqueness(bindings: seq<Binding>, c: Component)
    ensures NoDuplicates(Names(bindings)) ==> NoDuplicates(Names(AddOne(bindings, c)))
    ensures NoDuplicates(BoundComponents(bindings)) ==> NoDuplicates(BoundComponents(AddOne(bindings, c)))
  {
    var r := AddOne(bindings, c);
    if r != bindings {
      assert Names(r) == Names(bindings) + [r[|bindings|].componentName];
      assert BoundComponents(r) == BoundComponents(bindings) + [Some(c)];
    }
  }

  /** `AddComponentsToBindings`: every component of `comps` ends up bound; the
      existing bindings stay in front, untouched, and every appended one binds
      one of `comps`. */
  function AddComponents(bindings: seq<Binding>, comps: seq<Component>): (r: seq<Binding>)
    ensures |bindings| <= |r| <= |bindings| + |comps|
    ensures r[..|bindings|] == bindings
    ensures forall i :: 0 <= i < |comps| ==> Some(comps[i]) in BoundComponents(r)
    ensures forall i :: |bindings| <= i < |r| ==> AddedFor(r[i], comps)
    decreases |comps|
  {
    if comps == [] then bindings
    else
      var b1 := AddOne(bindings, comps[0]);
      var r := AddComponents(b1, comps[1..]);
      assert r[..|bindings|] == b1[..|b1|][..|bindings|];
      forall i | |bindings| <= i < |r| ensures AddedFor(r[i], comps) {
        if i < |b1| {
          assert r[i] == b1[i] && b1[i].component == Some(comps[0]);
        } else {
          assert AddedFor(r[i], comps[1..]);
        }
      }
      forall i | 0 <= i < |comps| ensures Some(comps[i]) in BoundComponents(r) {
        if i == 0 {
          var k :| 0 <= k < |b1| && BoundComponents(b1)[k] == Some(comps[0]);
          assert BoundComponents(r)[k] == Some(comps[0]);
        } else {
          assert comps[i] == comps[1..][i - 1];
        }
      }
      r
  }

  /** Adding a joined list of components adds the first list, then the
      second. */
  lemma {:induction false} AddComponentsConcat(bindings: seq<Binding>, c1: seq<Component>, c2: seq<Component>)
    ensures AddComponents(bindings, c1 + c2) == AddComponents(AddComponents(bindings, c1), c2)
    decreases |c1|
  {
    if c1 == [] {
      assert c1 + c2 == c2;
    } else {
      var cc := c1 + c2;
      assert cc[0] == c1[0] && cc[1..] == c1[1..] + c2;
      AddComponentsConcat(AddOne(bindings, c1[0]), c1[1..], c2);
    }
  }

  /** Adding one component is `AddOne`. */
  lemma AddComponentsOne(bindings: seq<Binding>, c: Component)
    ensures AddComponents(bindings, [c]) == AddOne(bindings, c)
  {
    assert [c][1..] == [];
  }

  /** The bindings `r` appends to `bindings` bind only components `bindings`
      did not bind. */
  predicate AppendsOnlyUnbound(bindings: seq<Binding>, r: seq<Binding>) {
    forall i :: |bindings| <= i < |r| ==> r[i].component !in BoundComponents(bindings)
  }

  /** `a` binds a component of `comps` that first occurs before the one `b` binds. */
  predicate BindsEarlier(comps: seq<Component>, a: Binding, b: Binding) {
    a.component.Some? && b.component.Some? && a.component.value in comps && b.component.value in comps
    && FirstIndex(comps, a.component.value) < FirstIndex(comps, b.component.value)
  }

  /** The bindings `r` appends to `bindings` follow the order of `comps`, one
      per component. */
  predicate AppendsInOrder(bindings: seq<Binding>, comps: seq<Component>, r: seq<Binding>) {
    forall i, j :: |bindings| <= i < j < |r| ==> BindsEarlier(comps, r[i], r[j])
  }

  /** Every component of `comps` that `bindings` did not bind is bound by one
      of the bindings `r` appends. */
  predicate AppendsEveryUnbound(bindings: seq<Binding>, comps: seq<Component>, r: seq<Binding>) {
    |bindings| <= |r|
    && forall k :: 0 <= k < |comps| && Some(comps[k]) !in BoundComponents(bindings) ==>
      Some(comps[k]) in BoundComponents(r[|bindings|..])
  }

  /** What is appended binds only components the list did not bind before. */
  lemma {:induction false} AddComponentsAppendsUnbound(bindings: seq<Binding>, comps: seq<Component>)
    ensures AppendsOnlyUnbound(bindings, AddComponents(bindings, comps))
    decreases |comps|
  {
    var r := AddComponents(bindings, comps);
    if comps != [] {
      var c := comps[0];
      var b1 := AddOne(bindings, c);
      AddComponentsAppendsUnbound(b1, comps[1..]);
      assert r == AddComponents(b1, comps[1..]);
      forall i | |bindings| <= i < |r| ensures r[i].component !in BoundComponents(bindings) {
        if i >= |b1| {
          NotBoundBefore(bindings, c, r[i].component);
        } else {
          assert b1 != bindings && r[i] == b1[i] && i == |bindings|;
        }
      }
    }
  }

  /** What is appended follows the order of `comps`: the components of the
      appended bindings come in strictly increasing order of first position in
      `comps`, so each is bound once. */
  lemma AddComponentsAppendsInOrder(bindings: seq<Binding>, comps: seq<Component>)
    ensures AppendsInOrder(bindings, comps, AddComponents(bindings, comps))
  {
    var r := AddComponents(bindings, comps);
    forall i, j | |bindings| <= i < j < |r| ensures BindsEarlier(comps, r[i], r[j]) {
      AppendedPairInOrder(bindings, comps, i, j);
    }
  }

  lemma {:induction false} AppendedPairInOrder(bindings: seq<Binding>, comps: seq<Component>, i: nat, j: nat)
    requires |bindings| <= i < j < |AddComponents(bindings, comps)|
    ensures BindsEarlier(comps, AddComponents(bindings, comps)[i], AddComponents(bindings, comps)[j])
    decreases |comps|
  {
    var b1 := AddOne(bindings, comps[0]);
    AppendedAfterHead(bindings, comps, j);
    if i < |b1| {
      HeadAppended(bindings, comps, i);
    } else {
      AppendedAfterHead(bindings, comps, i);
      AppendedPairInOrder(b1, comps[1..], i, j);
    }
  }

  /** A binding appended for the first component sits right after the list. */
  lemma HeadAppended(bindings: seq<Binding>, comps: seq<Component>, i: nat)
    requires comps != [] && |bindings| <= i < |AddOne(bindings, comps[0])|
    requires i < |AddComponents(bindings, comps)|
    ensures AddComponents(bindings, comps)[i].component == Some(comps[0])
    ensures FirstIndex(comps, comps[0]) == 0
  {
    var b1 := AddOne(bindings, comps[0]);
    var r := AddComponents(b1, comps[1..]);
    assert AddComponents(bindings, comps) == r;
    assert b1 == bindings + [NewBinding(bindings, comps[0])];
    assert r[..|b1|] == b1 && i == |bindings|;
    assert r[i] == b1[i] == NewBinding(bindings, comps[0]);
  }

  /** A binding appended after the first component's binds a later component,
      different from the first. */
  lemma AppendedAfterHead(bindings: seq<Binding>, comps: seq<Component>, j: nat)
    requires comps != [] && |AddOne(bindings, comps[0])| <= j < |AddComponents(bindings, comps)|
    ensures AddComponents(bindings, comps) == AddComponents(AddOne(bindings, comps[0]), comps[1..])
    ensures AddComponents(bindings, comps)[j].component.Some?
    ensures AddComponents(bindings, comps)[j].component.value in comps[1..]
    ensures AddComponents(bindings, comps)[j].component.value != comps[0]
    ensures FirstIndex(comps, AddComponents(bindings, comps)[j].component.value)
      == 1 + FirstIndex(comps[1..], AddComponents(bindings, comps)[j].component.value)
  {
    var c, rest := comps[0], comps[1..];
    var b1 := AddOne(bindings, c);
    var r := AddComponents(b1, rest);
    AddComponentsAppendsUnbound(b1, rest);
    assert AddedFor(r[j], rest);
    assert r[j].component !in BoundComponents(b1);
    NotBoundBefore(bindings, c, r[j].component);
    FirstIndexOfTail(comps, r[j].component.value);
  }

  /** Every component the list did not bind before gets an appended binding. */
  lemma AddComponentsAppendsEveryUnbound(bindings: seq<Binding>, comps: seq<Component>)
    ensures AppendsEveryUnbound(bindings, comps, AddComponents(bindings, comps))
  {
    forall k | 0 <= k < |comps| && Some(comps[k]) !in BoundComponents(bindings)
      ensures Some(comps[k]) in BoundComponents(AddComponents(bindings, comps)[|bindings|..])
    {
      AppendedFor(bindings, comps, Some(comps[k]));
    }
  }

  lemma AppendedFor(bindings: seq<Binding>, comps: seq<Component>, x: Option<Component>)
    requires x in BoundComponents(AddComponents(bindings, comps)) && x !in BoundComponents(bindings)
    ensures x in BoundComponents(AddComponents(bindings, comps)[|bindings|..])
  {
    var r := AddComponents(bindings, comps);
    var t := r[|bindings|..];
    assert r == bindings + t;
    var i :| 0 <= i < |r| && BoundComponents(r)[i] == x;
    assert r[i].component == x;
    assert i >= |bindings|;
    assert t[i - |bindings|] == r[i];
    assert BoundComponents(t)[i - |bindings|] == x;
  }

  lemma FirstIndexOfTail<T>(s: seq<T>, x: T)
    requires |s| > 0 && x in s[1..] && x != s[0]
    ensures FirstIndex(s, x) == 1 + FirstIndex(s[1..], x)
  {
  }

  /** A component `AddOne` has not bound was not bound before it either, and
      is not the one it added. */
  lemma NotBoundBefore(bindings: seq<Binding>, c: Component, x: Option<Component>)
    requires x !in BoundComponents(AddOne(bindings, c))
    ensures x !in BoundComponents(bindings) && x != Some(c)
  {
    var b1 := AddOne(bindings, c);
    forall i | 0 <= i < |bindings| ensures BoundComponents(bindings)[i] != x {
      assert b1[i] == bindings[i];
      assert BoundComponents(b1)[i] == BoundComponents(bindings)[i];
    }
  }


  /** Adding never gives two bindings the same name, nor binds a component
      twice, when the list did neither before. */
  lemma {:induction false} AddComponentsKeepsUniqueness(bindings: seq<Binding>, comps: seq<Component>)
    ensures NoDuplicates(Names(bindings)) ==> NoDuplicates(Names(AddComponents(bindings, comps)))
    ensures NoDuplicates(BoundComponents(bindings)) ==> NoDuplicates(BoundComponents(AddComponents(bindings, comps)))
    decreases |comps|
  {
    if comps != [] {
      AddOneKeepsUniqueness(bindings, comps[0]);
      AddComponentsKeepsUniqueness(AddOne(bindings, comps[0]), comps[1..]);
    }
  }

  /** When every component is bound already, adding them changes nothing. */
  lemma {:induction false} AddAllBoundIsNoOp(bindings: seq<Binding>, comps: seq<Component>)
    requires forall i :: 0 <= i < |comps| ==> Some(comps[i]) in BoundComponents(bindings)
    ensures AddComponents(bindings, comps) == bindings
    decreases |comps|
  {
    if comps != [] {
      AddAllBoundIsNoOp(bindings, comps[1..]);
    }
  }

  /** The inner "already bound?" search of the adding loop. */
  method IsAlreadyBound(bindings: seq<Binding>, c: Component) returns (found: bool)
    ensures found <==> Some(c) in BoundComponents(bindings)
  {
    found := false;
    var i := 0;
    while i < |bindings|
      invariant 0 <= i <= |bindings|
      invariant forall j :: 0 <= j < i ==> bindings[j].component != Some(c)
    {
      if bindings[i].component == Some(c) {
        assert BoundComponents(bindings)[i] == Some(c);
        found := true;
        return;
      }
      i := i + 1;
    }
  }

  /** The component loop of `AddComponentsToBindings`. */
  method AddComponentsToBindings(bindings: seq<Binding>, comps: seq<Component>) returns (r: seq<Binding>)
    ensures r == AddComponents(bindings, comps)
  {
    r := bindings;
    var n := 0;
    while n < |comps|
      invariant 0 <= n <= |comps|
      invariant AddComponents(r, comps[n..]) == AddComponents(bindings, comps)
    {
      var c := comps[n];
      assert comps[n..][0] == c && comps[n..][1..] == comps[n + 1..];
      var alreadyBound := IsAlreadyBound(r, c);
      if !alreadyBound {
        var name := EnsureUniqueVariableName(BaseVariableName(c), Names(r));
        r := r + [Binding(name, Some(c), c.TypeName(), "")];
      }
      n := n + 1;
    }
    assert comps[|comps|..] == [];
  }

  // ---- keeping the list in step with the binders -------------------------------

  /** The target component of every binder (each paired with its GameObject),
      null ones dropped, in binder order. The cache each lookup fills is not
      kept: the sync reads the targets only. */
  function Targets(binders: seq<(BinderState, GameObject)>): (r: seq<Component>)
    ensures |r| <= |binders|
    ensures forall i :: 0 <= i < |binders| && GetTargetComponent(binders[i].0, binders[i].1).0.Some? ==>
      GetTargetComponent(binders[i].0, binders[i].1).0.value in r
    ensures forall c :: c in r ==> exists i :: 0 <= i < |binders| && GetTargetComponent(binders[i].0, binders[i].1).0 == Some(c)
  {
    if binders == [] then []
    else
      var t := GetTargetComponent(binders[0].0, binders[0].1).0;
      var rest := Targets(binders[1..]);
      assert forall i :: 1 <= i < |binders| ==> binders[i] == binders[1..][i - 1];
      (if t.Some? then [t.value] else []) + rest
  }

  /** The targets of joined binder lists are those of each list, in turn, and
      a single binder contributes its target when it has one. */
  lemma {:induction false} TargetsConcat(a: seq<(BinderState, GameObject)>, b: seq<(BinderState, GameObject)>)
    ensures Targets(a + b) == Targets(a) + Targets(b)
    decreases |a|
  {
    if a == [] {
      assert a + b == b;
    } else {
      var ab := a + b;
      assert ab[0] == a[0] && ab[1..] == a[1..] + b;
      TargetsConcat(a[1..], b);
    }
  }

  lemma TargetsOne(x: (BinderState, GameObject))
    ensures var t := GetTargetComponent(x.0, x.1).0;
      Targets([x]) == if t.Some? then [t.value] else []
  {
    assert [x][1..] == [];
  }

  /** The bindings that survive the backward deletion pass: those whose
      component is not null and is one of the targets. */
  predicate Survives(b: Binding, valid: seq<Component>) {
    b.component.Some? && b.component.value in valid
  }

  /** The test of the deletion pass, as a function value. */
  function KeepIfValid(valid: seq<Component>): Binding -> bool {
    b => Survives(b, valid)
  }

  function Survivors(bindings: seq<Binding>, valid: seq<Component>): (r: seq<Binding>)
    ensures |r| <= |bindings|
    ensures forall b :: b in r ==> Survives(b, valid) && b in bindings
    ensures forall b :: b in bindings && Survives(b, valid) ==> b in r
  {
    Filter(bindings, KeepIfValid(valid))
  }

  /** The deletion pass keeps order and multiplicity: the survivors of joined
      lists are those of each list, in turn, and a single binding survives
      exactly when it is kept. */
  lemma SurvivorsConcat(a: seq<Binding>, b: seq<Binding>, valid: seq<Component>)
    ensures Survivors(a + b, valid) == Survivors(a, valid) + Survivors(b, valid)
  {
    FilterConcat(a, b, KeepIfValid(valid));
  }

  lemma SurvivorsOne(x: Binding, valid: seq<Component>)
    ensures Survivors([x], valid) == if Survives(x, valid) then [x] else []
  {
    FilterOne(x, KeepIfValid(valid));
  }

  /** A list whose every binding survives is left as it is. */
  lemma SurvivorsAllSurvive(bindings: seq<Binding>, valid: seq<Component>)
    requires forall i :: 0 <= i < |bindings| ==> Survives(bindings[i], valid)
    ensures Survivors(bindings, valid) == bindings
  {
    FilterAllKept(bindings, KeepIfValid(valid));
  }

  /** `AddUIComponentBindersToBindings`: drop the bindings whose component is
      no binder's target, then bind every target not bound yet. */
  function Sync(bindings: seq<Binding>, valid: seq<Component>): (r: seq<Binding>)
    ensures |Survivors(bindings, valid)| <= |r|
    ensures r[..|Survivors(bindings, valid)|] == Survivors(bindings, valid)
    ensures forall i :: 0 <= i < |r| ==> Survives(r[i], valid)
    ensures forall i :: 0 <= i < |valid| ==> Some(valid[i]) in BoundComponents(r)
  {
    var s := Survivors(bindings, valid);
    var r := AddComponents(s, valid);
    forall i | 0 <= i < |r| ensures Survives(r[i], valid) {
      if i < |s| { assert r[i] == r[..|s|][i] == s[i]; } else { assert AddedFor(r[i], valid); }
    }
    r
  }

  /** After the deletion pass the sync appends one binding for each target
      the survivors do not bind, in the order of the targets, and nothing else. */
  lemma SyncAppendsUnboundTargetsInOrder(bindings: seq<Binding>, valid: seq<Component>)
    ensures AppendsOnlyUnbound(Survivors(bindings, valid), Sync(bindings, valid))
    ensures AppendsInOrder(Survivors(bindings, valid), valid, Sync(bindings, valid))
    ensures AppendsEveryUnbound(Survivors(bindings, valid), valid, Sync(bindings, valid))
  {
    var s := Survivors(bindings, valid);
    assert Sync(bindings, valid) == AddComponents(s, valid);
    AddComponentsAppendsUnbound(s, valid);
    AddComponentsAppendsInOrder(s, valid);
    AddComponentsAppendsEveryUnbound(s, valid);
  }

  /** A list that is already in step stays as it is: syncing twice is syncing once. */
  lemma SyncIdempotent(bindings: seq<Binding>, valid: seq<Component>)
    ensures Sync(Sync(bindings, valid), valid) == Sync(bindings, valid)
  {
    var r := Sync(bindings, valid);
    SurvivorsAllSurvive(r, valid);
    AddAllBoundIsNoOp(r, valid);
  }

  /** Syncing never gives two bindings the same name, nor binds one component
      twice, when the list did neither before. */
  lemma SyncKeepsUniqueness(bindings: seq<Binding>, valid: seq<Component>)
    requires NoDuplicates(Names(bindings)) && NoDuplicates(BoundComponents(bindings))
    ensures NoDuplicates(Names(Sync(bindings, valid)))
    ensures NoDuplicates(BoundComponents(Sync(bindings, valid)))
  {
    SurvivorsKeepUniqueness(bindings, valid);
    AddComponentsKeepsUniqueness(Survivors(bindings, valid), valid);
  }

  lemma SurvivorsKeepUniqueness(bindings: seq<Binding>, valid: seq<Component>)
    requires NoDuplicates(Names(bindings)) && NoDuplicates(BoundComponents(bindings))
    ensures NoDuplicates(Names(Survivors(bindings, valid)))
    ensures NoDuplicates(BoundComponents(Survivors(bindings, valid)))
  {
    SurvivorsKeepNamesUnique(bindings, valid);
    SurvivorsKeepComponentsUnique(bindings, valid);
  }

  lemma SurvivorsKeepNamesUnique(bindings: seq<Binding>, valid: seq<Component>)
    requires NoDuplicates(Names(bindings))
    ensures NoDuplicates(Names(Survivors(bindings, valid)))
  {
    var key := (b: Binding) => b.componentName;
    var names := Names(bindings);
    assert forall i, j :: 0 <= i < j < |bindings| ==> key(bindings[i]) != key(bindings[j]) by {
      forall i, j | 0 <= i < j < |bindings| ensures key(bindings[i]) != key(bindings[j]) {
        assert names[i] != names[j];
      }
    }
    FilterKeepsKeysDistinct(bindings, KeepIfValid(valid), key);
    var r := Survivors(bindings, valid);
    var rn := Names(r);
    forall i, j | 0 <= i < j < |rn| ensures rn[i] != rn[j] {
      assert key(r[i]) != key(r[j]);
    }
  }

  lemma SurvivorsKeepComponentsUnique(bindings: seq<Binding>, valid: seq<Component>)
    requires NoDuplicates(BoundComponents(bindings))
    ensures NoDuplicates(BoundComponents(Survivors(bindings, valid)))
  {
    var key := (b: Binding) => b.component;
    var cs := BoundComponents(bindings);
    assert forall i, j :: 0 <= i < j < |bindings| ==> key(bindings[i]) != key(bindings[j]) by {
      forall i, j | 0 <= i < j < |bindings| ensures key(bindings[i]) != key(bindings[j]) {
        assert cs[i] != cs[j];
      }
    }
    FilterKeepsKeysDistinct(bindings, KeepIfValid(valid), key);
    var r := Survivors(bindings, valid);
    var rc := BoundComponents(r);
    forall i, j | 0 <= i < j < |rc| ensures rc[i] != rc[j] {
      assert key(r[i]) != key(r[j]);
    }
  }

  /** The deletion pass: from the last index down, delete every binding that
      does not survive. */
  method DeleteStaleBindings(bindings: seq<Binding>, valid: seq<Component>) returns (r: seq<Binding>)
    ensures r == Survivors(bindings, valid)
  {
    r := bindings;
    var i := |bindings|;
    while i > 0
      invariant 0 <= i <= |bindings|
      invariant r == bindings[..i] + Survivors(bindings[i..], valid)
    {
      i := i - 1;
      var b, tail := bindings[i], Survivors(bindings[i + 1..], valid);
      SurvivorsStep(bindings, valid, i);
      PrefixStep(bindings, i);
      DeleteAt(bindings[..i], b, tail);
      if !Survives(b, valid) {
        r := r[..i] + r[i + 1..];
      }
    }
    assert bindings[0..] == bindings;
  }

  lemma SurvivorsStep(bindings: seq<Binding>, valid: seq<Component>, i: nat)
    requires i < |bindings|
    ensures Survivors(bindings[i..], valid)
         == (if Survives(bindings[i], valid) then [bindings[i]] else []) + Survivors(bindings[i + 1..], valid)
  {
    assert bindings[i..][1..] == bindings[i + 1..];
  }

  /** `AddUIComponentBindersToBindings` as written: collect the binders'
      targets, run the deletion pass, then the adding loop. */
  method SyncBindings(bindings: seq<Binding>, binders: seq<(BinderState, GameObject)>) returns (r: seq<Binding>)
    ensures r == Sync(bindings, Targets(binders))
  {
    var valid := Targets(binders);
    r := DeleteStaleBindings(bindings, valid);
    r := AddComponentsToBindings(r, valid);
  }

  // ---- the settings check --------------------------------------------------------

  /** The inspector's `ValidateSettings`: the first failing check, with the
      message of its dialog. `None` stands for a missing designer. */
  function ValidateSettings(d: Option<UIDesigner>): (r: Result<(), string>)
    ensures r.Success? <==> d.Some? && Designer.ValidateSettings(d.value)
    ensures d.None? ==> r == Failure("UIDesigner组件无效")
    ensures d.Some? && r.Failure? ==> r.error == "UI窗体名称不能为空"
  {
    if d.None? then Failure("UIDesigner组件无效")
    else if UIFormName(d.value) == "" then Failure("UI窗体名称不能为空")
    else if NamespaceName(d.value) == "" then Failure("命名空间不能为空")
    else Success(())
  }

  // ---- the code-generated flag ---------------------------------------------------

  /** What the inspector does to the flag. The outcomes of the file system
      checks and of the code generator and prefab writer are inputs. */
  datatype Step =
    | Init(bindingExists: bool, logicExists: bool)
    | GenerateCode(generated: bool)
    | Save(saved: bool)
    | Regenerate(generated: bool)
    | Cleanup

  /** `InitializeCodeGenerationState`: set only when the form has a name and
      both generated files exist. */
  function InitCodeGenerated(d: Option<UIDesigner>, bindingExists: bool, logicExists: bool): (flag: bool)
    ensures flag <==> d.Some? && UIFormName(d.value) != "" && bindingExists && logicExists
  {
    if d.None? || UIFormName(d.value) == "" then false
    else bindingExists && logicExists
  }

  /** `GenerateCodeStep`: set when the settings pass and the generator
      succeeds; left alone otherwise. */
  function GenerateCodeStep(flag: bool, d: Option<UIDesigner>, generated: bool): (r: bool)
    ensures r <==> flag || (ValidateSettings(d).Success? && generated)
  {
    if ValidateSettings(d).Failure? then flag
    else if generated then true
    else flag
  }

  /** `SaveUIDesign`: refused unless the flag is set; cleared once the prefab
      is written. */
  function SaveUIDesign(flag: bool, d: Option<UIDesigner>, saved: bool): (r: bool)
    ensures !flag ==> !r
    ensures r <==> flag && (ValidateSettings(d).Failure? || !saved)
  {
    if !flag then false
    else if ValidateSettings(d).Failure? then flag
    else if saved then false
    else flag
  }

  /** `RegenerateCode`: clear the flag, then generate again. */
  function RegenerateCode(d: Option<UIDesigner>, generated: bool): (r: bool)
    ensures r <==> ValidateSettings(d).Success? && generated
  {
    GenerateCodeStep(false, d, generated)
  }

  function Apply(flag: bool, d: Option<UIDesigner>, step: Step): bool {
    match step
    case Init(b, l) => InitCodeGenerated(d, b, l)
    case GenerateCode(g) => GenerateCodeStep(flag, d, g)
    case Save(s) => SaveUIDesign(flag, d, s)
    case Regenerate(g) => RegenerateCode(d, g)
    case Cleanup => false
  }

  /** The flag after a sequence of steps on one designer. */
  function Run(flag: bool, d: Option<UIDesigner>, steps: seq<Step>): bool
    decreases |steps|
  {
    if steps == [] then flag else Run(Apply(flag, d, steps[0]), d, steps[1..])
  }

  /** The buttons the inspector offers: "生成代码" while the flag is clear,
      "保存" and "重新生成代码" once it is set; "验证设置" always. */
  function Buttons(flag: bool): (r: seq<string>)
    ensures "验证设置" in r
    ensures "生成代码" in r <==> !flag
    ensures "保存" in r <==> flag
  {
    if !flag then ["生成代码", "验证设置"] else ["保存", "重新生成代码", "验证设置"]
  }

  /** Whatever happens, the flag is only ever set for a designer whose settings
      pass: while the designer stays as it is, "save" is never offered for a form
      that has no name. */
  lemma {:induction false} FlagImpliesValidSettings(flag: bool, d: Option<UIDesigner>, steps: seq<Step>)
    requires flag ==> ValidateSettings(d).Success?
    ensures Run(flag, d, steps) ==> ValidateSettings(d).Success?
    decreases |steps|
  {
    if steps != [] {
      FlagImpliesValidSettings(Apply(flag, d, steps[0]), d, steps[1..]);
    }
  }

  /** A successful save needs a set flag, and always clears it. */
  lemma SaveNeedsGeneratedCode(flag: bool, d: Option<UIDesigner>)
    requires ValidateSettings(d).Success?
    ensures !SaveUIDesign(flag, d, true)
    ensures SaveUIDesign(flag, d, false) == flag
  {
  }

  /** A regeneration that fails leaves the flag clear, even if it was set. */
  lemma FailedRegenerationClearsFlag(d: Option<UIDesigner>)
    ensures !Apply(true, d, Regenerate(false))
  {
  }
}

=== FILE: designer_settings.dfy ===
/** The designer's project settings (Editor/Tools/UIDesignerSettings.cs): the
    declared defaults, `ResetToDefaults`, `ValidateSettings` and the integer
    clamp of `OnValidate`. The float `errorDialogTimeout` is not modelled. */
module DesignerSettings {
  import opened Wrappers
  import opened Ints
  import opened Strings

  /** The serialized fields. The three strings are public fields, so each may
      hold null (`None`). */
  datatype Settings = Settings(
    defaultNamespace: Option<string>,
    defaultGeneratePath: Option<string>,
    defaultPrefabPath: Option<string>,
    autoCreateDirectories: bool,
    generateDetailedComments: bool,
    useRegionMarkers: bool,
    refreshAssetsAfterSave: bool,
    autoSelectGeneratedPrefab: bool,
    showDetailedLogs: bool,
    showCompletionNotification: bool,
    debugMode: bool,
    backupOriginalFiles: bool,
    backupRetentionDays: int32,
    validateGeneratedCode: bool)

  /** The field initialisers of a freshly created settings asset. */
  const DeclaredDefaults: Settings := Settings(
    Some("UGF.GameFramework.UI"),
    Some("Assets/Scripts/UI/Generated"),
    Some("Assets/Prefabs/UI"),
    true, true, true,
    true, true,
    true, true,
    false, false, 7, true)

  /** `ResetToDefaults`: one assignment per field. Every field ends at the value
      its declaration gives it, so nothing of the old settings survives. */
  function ResetToDefaults(s: Settings): (r: Settings)
    ensures r == DeclaredDefaults
  {
    Settings(
      Some("UGF.GameFramework.UI"),
      Some("Assets/Scripts/UI/Generated"),
      Some("Assets/Prefabs/UI"),
      true, true, true,
      true, true,
      true, true,
      false, false, 7, true)
  }

  const NamespaceEmptyMessage: string := "默认命名空间不能为空"
  const GeneratePathEmptyMessage: string := "默认生成路径不能为空"
  const PrefabPathEmptyMessage: string := "默认Prefab路径不能为空"

  /** Every check the settings fail, in the order the checks are listed. */
  function Failures(s: Settings): (fs: seq<string>)
    ensures |fs| <= 3
  {
    (if IsNullOrWhiteSpace(s.defaultNamespace) then [NamespaceEmptyMessage] else [])
    + (if IsNullOrWhiteSpace(s.defaultGeneratePath) then [GeneratePathEmptyMessage] else [])
    + (if IsNullOrWhiteSpace(s.defaultPrefabPath) then [PrefabPathEmptyMessage] else [])
  }

  /** `ValidateSettings(out errorMessage)`: stops at the first failing check and
      reports its message; the message is empty on success. */
  function ValidateSettings(s: Settings): (res: (bool, string))
    ensures res.0 <==> (!IsNullOrWhiteSpace(s.defaultNamespace)
      && !IsNullOrWhiteSpace(s.defaultGeneratePath) && !IsNullOrWhiteSpace(s.defaultPrefabPath))
    ensures res.0 <==> res.1 == ""
    ensures res.0 <==> Failures(s) == []
    ensures !res.0 ==> res.1 == Failures(s)[0]
  {
    if IsNullOrWhiteSpace(s.defaultNamespace) then (false, NamespaceEmptyMessage)
    else if IsNullOrWhiteSpace(s.defaultGeneratePath) then (false, GeneratePathEmptyMessage)
    else if IsNullOrWhiteSpace(s.defaultPrefabPath) then (false, PrefabPathEmptyMessage)
    else (true, "")
  }

  /** The defaults pass validation, so settings just reset are valid. */
  lemma ResetSettingsAreValid(s: Settings)
    ensures ValidateSettings(ResetToDefaults(s)) == (true, "")
  {
    var r := ResetToDefaults(s);
    assert !IsWhiteSpace(r.defaultNamespace.value[0]);
    assert !IsWhiteSpace(r.defaultGeneratePath.value[0]);
    assert !IsWhiteSpace(r.defaultPrefabPath.value[0]);
  }

  /** `OnValidate`: `backupRetentionDays` clamped into [1, 30]; nothing else. */
  function OnValidate(s: Settings): (r: Settings)
    ensures 1 <= r.backupRetentionDays <= 30
    ensures 1 <= s.backupRetentionDays <= 30 ==> r == s
    ensures r.(backupRetentionDays := s.backupRetentionDays) == s
  {
    s.(backupRetentionDays := Clamp(s.backupRetentionDays, 1, 30))
  }

  /** Running `OnValidate` twice is the same as once. */
  lemma OnValidateIdempotent(s: Settings)
    ensures OnValidate(OnValidate(s)) == OnValidate(s)
  {
  }

  /** The declared retention period is already in range. */
  lemma DefaultsSurviveOnValidate()
    ensures OnValidate(DeclaredDefaults) == DeclaredDefaults
  {
  }
}

=== FILE: scene.dfy ===
/** The part of Unity's scene graph the editor code reads: GameObjects with a
    name, an ordered list of components and ordered children. A component is an
    instance (its `id` stands for the object reference) of a type known by its
    short name, its namespace and its base types. */
module Scene {
  import opened Wrappers
  import opened Seqs

  datatype TypeInfo = TypeInfo(name: string, ns: Option<string>, bases: seq<TypeKey>)

  /** `owner` is the name of the GameObject the component sits on. */
  datatype Component = Component(id: nat, ctype: TypeInfo, owner: string) {
    /** `component.GetType().Name`. */
    function TypeName(): string { ctype.name }

    /** `component.GetType()`, as `==` against a `typeof` compares it. */
    function Key(): TypeKey { TypeKey(ctype.name, ctype.ns) }
  }

  /** A type as `typeof(T)` names it: short name and namespace. */
  datatype TypeKey = TypeKey(name: string, ns: Option<string>)

  datatype GameObject = GameObject(name: string, components: seq<Component>, children: seq<GameObject>)

  const FrameworkNamespace: Option<string> := Some("UGF.GameFramework.UI")
  const UnityEngine: Option<string> := Some("UnityEngine")
  const UnityUI: Option<string> := Some("UnityEngine.UI")
  const TMPro: Option<string> := Some("TMPro")

  const BinderType: string := "UIComponentBinder"
  const FormBaseType: string := "UIFormBase"
  /** `typeof(UIComponentBinder)`. */
  const BinderKey: TypeKey := TypeKey(BinderType, FrameworkNamespace)
  const FormBaseKey: TypeKey := TypeKey(FormBaseType, FrameworkNamespace)
  const DesignerKey: TypeKey := TypeKey("UIDesigner", FrameworkNamespace)
  const CanvasKey: TypeKey := TypeKey("Canvas", UnityEngine)
  const TransformKey: TypeKey := TypeKey("Transform", UnityEngine)
  const RectTransformKey: TypeKey := TypeKey("RectTransform", UnityEngine)

  /** `c is T`: `c`'s type is `T` or derives from it. */
  predicate IsA(c: Component, t: TypeKey) {
    c.Key() == t || t in c.ctype.bases
  }

  /** `obj.GetComponent<T>()`: the first component that is a `T`. */
  function GetComponent(obj: GameObject, t: TypeKey): (r: Option<Component>)
    ensures r.Some? ==> r.value in obj.components && IsA(r.value, t)
    ensures r.Some? ==> exists i :: (0 <= i < |obj.components| && obj.components[i] == r.value
      && forall k :: 0 <= k < i ==> !IsA(obj.components[k], t))
    ensures r.None? <==> forall i :: 0 <= i < |obj.components| ==> !IsA(obj.components[i], t)
  {
    match FirstWhere(obj.components, c => IsA(c, t))
    case None => None
    case Some(i) => Some(obj.components[i])
  }

  /** `obj.GetComponent<T>() != null`. */
  predicate HasComponent(obj: GameObject, t: TypeKey) {
    GetComponent(obj, t).Some?
  }

  predicate HasBinder(obj: GameObject) {
    HasComponent(obj, BinderKey)
  }

  /** The node that ends the walk up the hierarchy: it carries a `Canvas` or a
      `UIFormBase` (the form's root). */
  predicate IsFormRoot(obj: GameObject) {
    HasComponent(obj, FormBaseKey) || HasComponent(obj, CanvasKey)
  }

  /** The GameObjects below a list of siblings in pre-order: each sibling,
      then everything below it, then the next sibling. */
  function Below(children: seq<GameObject>): seq<GameObject>
    decreases children
  {
    if children == [] then []
    else [children[0]] + Below(children[0].children) + Below(children[1..])
  }
}

=== FILE: seqs.dfy ===
/** Sequence helpers shared by the list-handling code of the editor. */
module Seqs {
  import opened Wrappers

  predicate NoDuplicates<T(==)>(s: seq<T>) {
    forall i, j :: 0 <= i < j < |s| ==> s[i] != s[j]
  }

  /** Index of the first element satisfying `p`: the `foreach … return` idiom
      of the source, and `Array.IndexOf` when `p` is an equality test. */
  function FirstWhere<T>(s: seq<T>, p: T -> bool): (r: Option<nat>)
    ensures r.Some? ==> r.value < |s| && p(s[r.value])
    ensures r.Some? ==> forall j :: 0 <= j < r.value ==> !p(s[j])
    ensures r.None? <==> forall j :: 0 <= j < |s| ==> !p(s[j])
  {
    if s == [] then None
    else if p(s[0]) then Some(0)
    else match FirstWhere(s[1..], p)
      case None => None
      case Some(k) => Some(k + 1)
  }

  /** When `x` fails `p`, the first position of `x` followed by `s` that
      passes `p` is one past the first such position `k` of `s`. */
  lemma FirstAfterNonMatch<T>(x: T, s: seq<T>, p: T -> bool, k: nat)
    requires !p(x)
    requires k <= |s| && (forall j :: 0 <= j < k ==> !p(s[j])) && (k < |s| ==> p(s[k]))
    ensures k < |s| ==> FirstWhere([x] + s, p) == Some(k + 1)
    ensures k == |s| ==> FirstWhere([x] + s, p).None?
  {
    var all, r := [x] + s, FirstWhere([x] + s, p);
    if r.Some? && r.value > 0 {
      assert all[r.value] == s[r.value - 1];
    }
    if k < |s| {
      assert all[k + 1] == s[k];
    }
  }

  /** Position of the first occurrence of `x` in `s`. */
  function FirstIndex<T(==)>(s: seq<T>, x: T): (r: nat)
    requires x in s
    ensures r < |s| && s[r] == x
    ensures forall j :: 0 <= j < r ==> s[j] != x
  {
    if s[0] == x then 0 else 1 + FirstIndex(s[1..], x)
  }

  /** `Enumerable.Distinct` and the `if (!list.Contains(x)) list.Add(x)` loop:
      each element once, at the place it first occurs. */
  function Distinct<T(==)>(s: seq<T>): (r: seq<T>)
    ensures NoDuplicates(r)
    ensures forall x :: x in r ==> x in s
    ensures forall x :: x in s ==> x in r
    ensures |r| <= |s|
    ensures s != [] ==> r != [] && r[0] == s[0]
    decreases |s|
  {
    if s == [] then []
    else
      var d := Distinct(s[..|s| - 1]);
      if s[|s| - 1] in d then d else d + [s[|s| - 1]]
  }

  lemma FirstIndexOfExtension<T>(p: seq<T>, y: T, x: T)
    requires x in p
    ensures FirstIndex(p + [y], x) == FirstIndex(p, x)
  {
    var s := p + [y];
    var i, k := FirstIndex(s, x), FirstIndex(p, x);
    assert s[k] == x;
  }

  /** Distinct keeps the order in which elements first occur in `s`. */
  lemma {:induction false} DistinctKeepsFirstOccurrenceOrder<T>(s: seq<T>)
    ensures forall i, j :: 0 <= i < j < |Distinct(s)| ==>
      FirstIndex(s, Distinct(s)[i]) < FirstIndex(s, Distinct(s)[j])
    decreases |s|
  {
    if s != [] {
      var p, y := s[..|s| - 1], s[|s| - 1];
      assert s == p + [y];
      var d := Distinct(p);
      DistinctKeepsFirstOccurrenceOrder(p);
      var r := Distinct(s);
      assert r == if y in d then d else d + [y];
      forall i, j | 0 <= i < j < |r| ensures FirstIndex(s, r[i]) < FirstIndex(s, r[j]) {
        assert r[i] == d[i];
        FirstIndexOfExtension(p, y, d[i]);
        if j < |d| {
          assert r[j] == d[j];
          FirstIndexOfExtension(p, y, d[j]);
        } else {
          assert r[j] == y && y !in p;
          assert FirstIndex(s, y) == |s| - 1;
        }
      }
    }
  }

  /** A list that already has no duplicates is left as it is. */
  lemma {:induction false} DistinctOfDistinct<T>(s: seq<T>)
    requires NoDuplicates(s)
    ensures Distinct(s) == s
    decreases |s|
  {
    if s != [] {
      var p := s[..|s| - 1];
      DistinctOfDistinct(p);
      assert s[|s| - 1] !in p;
      assert s == p + [s[|s| - 1]];
    }
  }

  /** The elements of `s` that satisfy `keep`, in their original order
      (LINQ `Where`, and `Regex.Replace` with a negated character class). */
  function Filter<T>(s: seq<T>, keep: T -> bool): (r: seq<T>)
    ensures |r| <= |s|
    ensures forall x :: x in r ==> keep(x) && x in s
    ensures forall x :: x in s && keep(x) ==> x in r
  {
    if s == [] then [] else (if keep(s[0]) then [s[0]] else []) + Filter(s[1..], keep)
  }

  /** Filtering a joined list filters each piece and keeps the pieces in order;
      with `FilterOne` this fixes the order and the multiplicity of what is kept. */
  lemma {:induction false} FilterConcat<T>(a: seq<T>, b: seq<T>, keep: T -> bool)
    ensures Filter(a + b, keep) == Filter(a, keep) + Filter(b, keep)
    decreases |a|
  {
    if a == [] {
      assert a + b == b;
    } else {
      var ab, h := a + b, if keep(a[0]) then [a[0]] else [];
      assert ab[0] == a[0] && ab[1..] == a[1..] + b;
      assert Filter(ab, keep) == h + Filter(a[1..] + b, keep);
      FilterConcat(a[1..], b, keep);
      assert Filter(a, keep) == h + Filter(a[1..], keep);
    }
  }

  /** A single element is kept exactly when it passes the test. */
  lemma FilterOne<T>(x: T, keep: T -> bool)
    ensures Filter([x], keep) == if keep(x) then [x] else []
  {
    assert [x][1..] == [];
  }

  /** Filtering twice is filtering once by both tests. */
  lemma {:induction false} FilterTwice<T>(s: seq<T>, p: T -> bool, q: T -> bool, both: T -> bool)
    requires forall x :: both(x) == (p(x) && q(x))
    ensures Filter(Filter(s, p), q) == Filter(s, both)
    decreases |s|
  {
    if s != [] {
      FilterTwice(s[1..], p, q, both);
      var rest := Filter(s[1..], p);
      if p(s[0]) {
        var t := [s[0]] + rest;
        assert t[0] == s[0] && t[1..] == rest;
      } else {
        assert Filter(s, p) == rest;
      }
    }
  }

  lemma {:induction false} FilterIdempotent<T>(s: seq<T>, keep: T -> bool)
    ensures Filter(Filter(s, keep), keep) == Filter(s, keep)
  {
    if s != [] {
      FilterIdempotent(s[1..], keep);
      if keep(s[0]) {
        var t := [s[0]] + Filter(s[1..], keep);
        assert t[0] == s[0] && t[1..] == Filter(s[1..], keep);
        assert Filter(t, keep) == [s[0]] + Filter(t[1..], keep);
      } else {
        assert Filter(s, keep) == [] + Filter(s[1..], keep) == Filter(s[1..], keep);
      }
    }
  }

  /** A list whose every element passes the test is left as it is. */
  lemma {:induction false} FilterAllKept<T>(s: seq<T>, keep: T -> bool)
    requires forall i :: 0 <= i < |s| ==> keep(s[i])
    ensures Filter(s, keep) == s
  {
    if s != [] {
      FilterAllKept(s[1..], keep);
      assert s == [s[0]] + s[1..];
    }
  }

  /** Filtering a list in which no two elements share a key leaves one in
      which no two elements share a key. */
  lemma {:induction false} FilterKeepsKeysDistinct<T, K>(s: seq<T>, keep: T -> bool, key: T -> K)
    requires forall i, j :: 0 <= i < j < |s| ==> key(s[i]) != key(s[j])
    ensures forall i, j :: 0 <= i < j < |Filter(s, keep)| ==> key(Filter(s, keep)[i]) != key(Filter(s, keep)[j])
  {
    if s != [] {
      var rest := Filter(s[1..], keep);
      FilterKeepsKeysDistinct(s[1..], keep, key);
      if keep(s[0]) {
        var r := Filter(s, keep);
        assert r == [s[0]] + rest;
        forall i, j | 0 <= i < j < |r| ensures key(r[i]) != key(r[j]) {
          if i == 0 {
            assert r[j] == rest[j - 1] && rest[j - 1] in s[1..];
            var k :| 0 <= k < |s[1..]| && s[1..][k] == rest[j - 1];
            assert s[k + 1] == r[j];
          } else {
            assert r[i] == rest[i - 1] && r[j] == rest[j - 1];
          }
        }
      } else {
        assert Filter(s, keep) == rest;
      }
    }
  }

  /** Lists related element by element by `rel` stay so when equally long
      pieces are joined behind related heads. */
  lemma PointwiseConcat<T>(rel: (T, T) -> bool, x: T, x': T, a: seq<T>, a': seq<T>, b: seq<T>, b': seq<T>)
    requires rel(x, x')
    requires |a| == |a'| && forall i :: 0 <= i < |a| ==> rel(a[i], a'[i])
    requires |b| == |b'| && forall i :: 0 <= i < |b| ==> rel(b[i], b'[i])
    ensures |[x] + a + b| == |[x'] + a' + b'|
    ensures forall i :: 0 <= i < |[x] + a + b| ==> rel(([x] + a + b)[i], ([x'] + a' + b')[i])
  {
    var l, l' := [x] + a + b, [x'] + a' + b';
    forall i | 0 <= i < |l|
      ensures rel(l[i], l'[i])
    {
      if i == 0 {
        assert l[0] == x && l'[0] == x';
      } else if i < 1 + |a| {
        assert l[i] == a[i - 1] && l'[i] == a'[i - 1];
      } else {
        assert l[i] == b[i - 1 - |a|] && l'[i] == b'[i - 1 - |a|];
      }
    }
  }

  /** What `pick` gives for each element, in order, skipping the elements it
      gives nothing for. */
  function Collect<A, B>(s: seq<A>, pick: A -> Option<B>): (r: seq<B>)
    ensures |r| <= |s|
  {
    if s == [] then [] else Picked(s[0], pick) + Collect(s[1..], pick)
  }

  /** What `pick` gives for one element, as a list of at most one. */
  function Picked<A, B>(x: A, pick: A -> Option<B>): (r: seq<B>)
    ensures |r| <= 1
    ensures r == [] <==> pick(x).None?
    ensures pick(x).Some? ==> r == [pick(x).value]
  {
    if pick(x).Some? then [pick(x).value] else []
  }

  /** The first element is picked before the rest. */
  lemma CollectCons<A, B>(x: A, t: seq<A>, pick: A -> Option<B>)
    ensures Collect([x] + t, pick) == Picked(x, pick) + Collect(t, pick)
  {
    assert ([x] + t)[0] == x && ([x] + t)[1..] == t;
  }

  /** Collecting over a joined list collects over each piece, in turn. */
  lemma {:induction false} CollectConcat<A, B>(a: seq<A>, b: seq<A>, pick: A -> Option<B>)
    ensures Collect(a + b, pick) == Collect(a, pick) + Collect(b, pick)
    decreases |a|
  {
    if a == [] {
      assert a + b == b;
    } else {
      var x, t := a[0], a[1..];
      assert [x] + t == a && [x] + (t + b) == a + b;
      CollectCons(x, t + b, pick);
      CollectCons(x, t, pick);
      CollectConcat(t, b, pick);
    }
  }

  /** Every collected value is what `pick` gives for some element. */
  lemma {:induction false} CollectSound<A, B>(s: seq<A>, pick: A -> Option<B>, i: nat)
    requires i < |Collect(s, pick)|
    ensures exists k :: 0 <= k < |s| && pick(s[k]) == Some(Collect(s, pick)[i])
    decreases |s|
  {
    var x, t := s[0], s[1..];
    assert [x] + t == s;
    CollectCons(x, t, pick);
    var h := Picked(x, pick);
    if i < |h| {
      assert pick(s[0]) == Some(Collect(s, pick)[i]);
    } else {
      CollectSound(t, pick, i - |h|);
      var k :| 0 <= k < |t| && pick(t[k]) == Some(Collect(t, pick)[i - |h|]);
      assert Collect(s, pick)[i] == Collect(t, pick)[i - |h|] && t[k] == s[k + 1];
    }
  }

  /** Everything `pick` gives for an element is collected. */
  lemma {:induction false} CollectComplete<A, B>(s: seq<A>, pick: A -> Option<B>, k: nat)
    requires k < |s| && pick(s[k]).Some?
    ensures pick(s[k]).value in Collect(s, pick)
    decreases |s|
  {
    var x, t := s[0], s[1..];
    assert [x] + t == s;
    CollectCons(x, t, pick);
    if k > 0 {
      assert s[k] == t[k - 1];
      CollectComplete(t, pick, k - 1);
    }
  }

  /** Taking one element out of the middle of a list. */
  lemma DeleteAt<T>(a: seq<T>, x: T, t: seq<T>)
    ensures (a + [x]) + t == a + ([x] + t)
    ensures ((a + [x]) + t)[..|a|] + ((a + [x]) + t)[|a| + 1..] == a + t
  {
    var l := (a + [x]) + t;
    assert l[..|a|] == a && l[|a| + 1..] == t;
  }

  /** A prefix grows by the next element. */
  lemma PrefixStep<T>(s: seq<T>, i: nat)
    requires i < |s|
    ensures s[..i + 1] == s[..i] + [s[i]]
  {
  }

  /** How many elements satisfy `p`. */
  function Count<T>(s: seq<T>, p: T -> bool): (n: nat)
    ensures n <= |s|
  {
    if s == [] then 0 else (if p(s[0]) then 1 else 0) + Count(s[1..], p)
  }

  lemma {:induction false} CountConcat<T>(a: seq<T>, b: seq<T>, p: T -> bool)
    ensures Count(a + b, p) == Count(a, p) + Count(b, p)
  {
    if a == [] {
      assert a + b == b;
    } else {
      CountConcat(a[1..], b, p);
      assert (a + b)[0] == a[0] && (a + b)[1..] == a[1..] + b;
    }
  }

  /** The count over a head, a first part and a second part. */
  lemma CountHeadConcat<T>(x: T, a: seq<T>, b: seq<T>, p: T -> bool)
    ensures Count([x] + a + b, p) == (if p(x) then 1 else 0) + Count(a, p) + Count(b, p)
  {
    CountConcat([x], a, p);
    CountConcat([x] + a, b, p);
  }

  /** The count is positive exactly when some element satisfies `p`. */
  lemma {:induction false} CountPositive<T>(s: seq<T>, p: T -> bool)
    ensures Count(s, p) > 0 <==> exists i :: 0 <= i < |s| && p(s[i])
  {
    if s != [] {
      CountPositive(s[1..], p);
      if !p(s[0]) && exists i :: 0 <= i < |s| && p(s[i]) {
        var i :| 0 <= i < |s| && p(s[i]);
        assert p(s[1..][i - 1]);
      }
    }
  }
}

=== FILE: strings.dfy ===
/** String helpers with the .NET semantics the editor code relies on, restricted
    to ASCII where .NET consults the current culture (case mapping). */
module Strings {
  import opened Wrappers
  import opened Seqs

  predicate IsAsciiUpper(c: char) { 'A' <= c <= 'Z' }
  predicate IsAsciiLower(c: char) { 'a' <= c <= 'z' }
  predicate IsAsciiDigit(c: char) { '0' <= c <= '9' }

  /** The class `[a-zA-Z0-9]` of a .NET regular expression. */
  predicate IsAsciiLetterOrDigit(c: char) {
    IsAsciiUpper(c) || IsAsciiLower(c) || IsAsciiDigit(c)
  }

  /** `char.IsWhiteSpace`: the Unicode space separators plus the line/paragraph
      separators and the control characters U+0009..U+000D and U+0085. */
  predicate IsWhiteSpace(c: char) {
    ('\U{0009}' <= c <= '\U{000D}') || c == ' ' || c == '\U{0085}' || c == '\U{00A0}'
    || c == '\U{1680}' || ('\U{2000}' <= c <= '\U{200A}') || c == '\U{2028}'
    || c == '\U{2029}' || c == '\U{202F}' || c == '\U{205F}' || c == '\U{3000}'
  }

  function ToLowerChar(c: char): (r: char)
    ensures !IsAsciiUpper(r)
    ensures !IsAsciiUpper(c) ==> r == c
    ensures IsAsciiUpper(c) ==> IsAsciiLower(r) && r as int == c as int + 32
  {
    if IsAsciiUpper(c) then (c as int + 32) as char else c
  }

  function ToUpperChar(c: char): (r: char)
    ensures !IsAsciiLower(r)
    ensures !IsAsciiLower(c) ==> r == c
    ensures IsAsciiLower(c) ==> IsAsciiUpper(r) && r as int == c as int - 32
  {
    if IsAsciiLower(c) then (c as int - 32) as char else c
  }

  /** `string.ToLower()`. */
  function ToLower(s: string): (r: string)
    ensures |r| == |s|
    ensures forall i :: 0 <= i < |s| ==> r[i] == ToLowerChar(s[i])
  {
    if s == [] then [] else [ToLowerChar(s[0])] + ToLower(s[1..])
  }

  /** `char.ToLower(s[0]) + s.Substring(1)` for non-empty `s`; `s` otherwise. */
  function LowerFirst(s: string): (r: string)
    ensures |r| == |s|
    ensures |s| > 0 ==> r[0] == ToLowerChar(s[0]) && r[1..] == s[1..]
  {
    if s == [] then s else [ToLowerChar(s[0])] + s[1..]
  }

  /** `char.ToUpper(s[0]) + s.Substring(1)` for non-empty `s`; `s` otherwise. */
  function UpperFirst(s: string): (r: string)
    ensures |r| == |s|
    ensures |s| > 0 ==> r[0] == ToUpperChar(s[0]) && r[1..] == s[1..]
  {
    if s == [] then s else [ToUpperChar(s[0])] + s[1..]
  }

  predicate StartsWith(s: string, prefix: string) {
    |prefix| <= |s| && s[..|prefix|] == prefix
  }

  /** `string.EndsWith` with ordinal comparison. */
  predicate EndsWith(s: string, suffix: string) {
    |suffix| <= |s| && s[|s| - |suffix|..] == suffix
  }

  /** `string.Equals(a, b, StringComparison.OrdinalIgnoreCase)` on ASCII. */
  predicate EqualsIgnoreCase(a: string, b: string) {
    ToLower(a) == ToLower(b)
  }

  /** `string.EndsWith(suffix, StringComparison.OrdinalIgnoreCase)` on ASCII. */
  predicate EndsWithIgnoreCase(s: string, suffix: string) {
    |suffix| <= |s| && EqualsIgnoreCase(s[|s| - |suffix|..], suffix)
  }

  /** `string.Contains(sub)` with ordinal comparison. */
  predicate Contains(s: string, sub: string) {
    StartsWith(s, sub) || (|s| > 0 && Contains(s[1..], sub))
  }

  /** `string.IsNullOrEmpty`. */
  predicate IsNullOrEmpty(s: Option<string>) {
    s.None? || s.value == ""
  }

  /** `string.IsNullOrWhiteSpace`. */
  predicate IsNullOrWhiteSpace(s: Option<string>) {
    s.None? || forall i :: 0 <= i < |s.value| ==> IsWhiteSpace(s.value[i])
  }

  /** `s.Replace(pattern, "")`: one left-to-right pass that deletes every
      non-overlapping occurrence of `pattern`. */
  function RemoveAll(s: string, pattern: string): (r: string)
    requires |pattern| > 0
    ensures |r| <= |s|
    ensures !Contains(s, pattern) ==> r == s
    decreases |s|
  {
    if |s| < |pattern| then s
    else if s[..|pattern|] == pattern then RemoveAll(s[|pattern|..], pattern)
    else [s[0]] + RemoveAll(s[1..], pattern)
  }

  /** The pass only deletes: every character of the result, counted with its
      repetitions, comes from the input. */
  lemma {:induction false} RemoveAllKeepsOrigin(s: string, pattern: string)
    requires |pattern| > 0
    ensures multiset(RemoveAll(s, pattern)) <= multiset(s)
    decreases |s|
  {
    if |s| >= |pattern| {
      if s[..|pattern|] == pattern {
        RemoveAllKeepsOrigin(s[|pattern|..], pattern);
        assert s == s[..|pattern|] + s[|pattern|..];
      } else {
        RemoveAllKeepsOrigin(s[1..], pattern);
        assert s == [s[0]] + s[1..];
      }
    }
  }

  /** Decimal digits of a natural number, as `int.ToString()` prints them. */
  function Dec(n: nat): (r: string)
    ensures |r| > 0
    ensures forall i :: 0 <= i < |r| ==> IsAsciiDigit(r[i])
    ensures n < 10 <==> |r| == 1
    decreases n
  {
    if n < 10 then [('0' as int + n) as char] else Dec(n / 10) + [('0' as int + n % 10) as char]
  }

  /** Distinct numbers print differently. */
  lemma {:induction false} DecInjective(a: nat, b: nat)
    requires Dec(a) == Dec(b)
    ensures a == b
    decreases a
  {
    if a >= 10 && b >= 10 {
      var da, db := Dec(a / 10), Dec(b / 10);
      assert Dec(a) == da + [('0' as int + a % 10) as char];
      assert Dec(b) == db + [('0' as int + b % 10) as char];
      assert da == Dec(a)[..|Dec(a)| - 1];
      assert db == Dec(b)[..|Dec(b)| - 1];
      DecInjective(a / 10, b / 10);
      assert Dec(a)[|Dec(a)| - 1] == Dec(b)[|Dec(b)| - 1];
    }
  }
  /** Deleting every occurrence of a one-character pattern leaves none behind. */
  lemma {:induction false} RemoveAllDropsChar(s: string, c: char)
    ensures forall i :: 0 <= i < |RemoveAll(s, [c])| ==> RemoveAll(s, [c])[i] != c
    decreases |s|
  {
    if |s| >= 1 {
      RemoveAllDropsChar(s[1..], c);
      if s[..1] != [c] {
        assert s[0] != c;
      }
    }
  }

  /** A string without the character is left as it is. */
  lemma {:induction false} RemoveAllAbsentChar(s: string, c: char)
    requires forall i :: 0 <= i < |s| ==> s[i] != c
    ensures RemoveAll(s, [c]) == s
    decreases |s|
  {
    if |s| >= 1 {
      RemoveAllAbsentChar(s[1..], c);
      assert s[..1] == [s[0]] && s[0] != c;
      assert s == [s[0]] + s[1..];
    }
  }

  /** The test "is not `ch`", as a function value. */
  function Except(ch: char): char -> bool {
    c => c != ch
  }

  /** Deleting a one-character pattern keeps exactly the other characters, in
      their order. */
  lemma {:induction false} RemoveAllIsFilter(s: string, ch: char)
    ensures RemoveAll(s, [ch]) == Filter(s, Except(ch))
    decreases |s|
  {
    if |s| >= 1 {
      RemoveAllIsFilter(s[1..], ch);
      assert s[..1] == [s[0]];
    }
  }

  /** An occurrence of `p` starts at index `k` of `s`. */
  predicate StartsAt(s: string, p: string, k: nat) {
    k + |p| <= |s| && s[k..k + |p|] == p
  }

  /** The pass deletes the first occurrence of the pattern and goes on after
      it: when no occurrence starts inside `u`, everything in `u` is kept. */
  lemma {:induction false} RemoveAllFirstOccurrence(u: string, p: string, v: string)
    requires |p| > 0
    requires forall k :: 0 <= k < |u| ==> !StartsAt(u + p, p, k)
    ensures RemoveAll(u + p + v, p) == u + RemoveAll(v, p)
    decreases |u|
  {
    if u == [] {
      PatternInFront(p, v);
    } else {
      NoOccurrenceInRest(u, p);
      RemoveAllFirstOccurrence(u[1..], p, v);
      KeptInFront(u, p, v);
      Regroup(u, RemoveAll(v, p));
    }
  }

  /** With nothing in front, the pass drops the pattern and goes on after it. */
  lemma PatternInFront(p: string, v: string)
    requires 0 < |p|
    ensures RemoveAll([] + p + v, p) == [] + RemoveAll(v, p)
  {
    var s := p + v;
    assert [] + p + v == s && s[..|p|] == p && s[|p|..] == v;
  }

  /** No occurrence starts inside the rest of `u` either. */
  lemma NoOccurrenceInRest(u: string, p: string)
    requires 0 < |u| && forall k :: 0 <= k < |u| ==> !StartsAt(u + p, p, k)
    ensures forall k :: 0 <= k < |u[1..]| ==> !StartsAt(u[1..] + p, p, k)
  {
    forall k | 0 <= k < |u[1..]| ensures !StartsAt(u[1..] + p, p, k) {
      assert !StartsAt(u + p, p, k + 1);
      assert (u[1..] + p)[k..k + |p|] == (u + p)[k + 1..k + 1 + |p|];
    }
  }

  /** Where no occurrence starts, the pass keeps the front character. */
  lemma KeptInFront(u: string, p: string, v: string)
    requires 0 < |u| && 0 < |p| && !StartsAt(u + p, p, 0)
    ensures RemoveAll(u + p + v, p) == [u[0]] + RemoveAll(u[1..] + p + v, p)
  {
    var s := u + p + v;
    assert s[..|p|] == (u + p)[0..|p|];
    assert s[1..] == u[1..] + p + v;
  }

  lemma Regroup(u: string, r: string)
    requires 0 < |u|
    ensures [u[0]] + (u[1..] + r) == u + r
  {
    assert u == [u[0]] + u[1..];
  }
}

=== FILE: wrappers.dfy ===
/** Failure-compatible wrappers: `Option` stands for a C# reference that may be
    null, `Result` for an operation that may throw instead of returning. */
module Wrappers {

  datatype Option<+T> = None | Some(value: T) {

    predicate IsFailure() {
      None?
    }

    function PropagateFailure<U>(): Option<U>
      requires None?
    {
      None
    }

    function Extract(): T
      requires Some?
    {
      value
    }

    /** The value, or `default` in place of null (C#'s `??`). */
    function GetOr(default: T): T {
      match this
      case Some(v) => v
      case None => default
    }
  }

  datatype Result<+R, +E> = Success(value: R) | Failure(error: E) {

    predicate IsFailure() {
      Failure?
    }

    function PropagateFailure<U>(): Result<U, E>
      requires Failure?
    {
      Failure(error)
    }

    function Extract(): R
      requires Success?
    {
      value
    }
  }
}

/** Fixed-width integers of the .NET runtime and the clamps applied to them. */
module Ints {

  newtype int32 = x: int | -0x8000_0000 <= x < 0x8000_0000

  /** `Mathf.Max(lo, v)`: never below `lo`, and `v` itself when it is not. */
  function Max(lo: int32, v: int32): (r: int32)
    ensures r >= lo && r >= v
    ensures r == lo || r == v
  {
    if v < lo then lo else v
  }

  /** `Mathf.Clamp(v, lo, hi)` for `lo <= hi`. */
  function Clamp(v: int32, lo: int32, hi: int32): (r: int32)
    requires lo <= hi
    ensures lo <= r <= hi
    ensures lo <= v <= hi ==> r == v
    ensures v < lo ==> r == lo
    ensures v > hi ==> r == hi
  {
    if v < lo then lo else if v > hi then hi else v
  }
}
